=== FILE: README.md ===
# A verified model of the dating app's serverless back end

The application is a dating service whose back end is a set of AWS Lambda
functions over DynamoDB tables, plus the service worker of its admin web
build and a script that seeds point balances. This project models that
core in Dafny and proves properties of the model:

- **SMS** (`sms.dfy`, module `Sms`): phone numbers normalised to the Korean
  international form, request validation, carrier dispatch, the status
  mapping and the best-effort delivery log with its random version-4 id.
- **Likes** (`likes.dfy`, `likes_handler.dfy`, `likes_routes.dfy`,
  `likes_simple.dfy`, `likes_dynamodb.dfy`, `likes_debug.dfy`): the Like
  record and the four likes functions. The main one detects mutual likes
  and writes a Match. The merging one lists superchats with the likes,
  newest first. The plain DynamoDB one and the debugging one route on path
  prefixes.
- **Matches** (`chat.dfy`, `matches.dfy`): a user's matches, gathered from
  two indexes, deduplicated by id and sorted, each with its newest message.
- **Messages** (`messages.dfy`): bearer-token callers, posting to a match,
  paging a chat room newest first, and marking a message read.
- **Notifications** (`notifications.dfy`): the latest fifty, the unread
  count, the polling list, and marking one or all read.
- **Profiles** (`profile.dfy`, over the JavaScript values of `json.dfy`):
  method resolution, discovery with the limit's `parseInt` semantics, the
  three-step lookup, and the POST branch's body recovery and coercions.
- **Service worker** (`service_worker.dfy`): cache keys, the fetch
  strategies, install, activate, and the offline download.
- **Point balances** (`user_points.dfy`): get-or-create of a balance and
  the seeding of the two test users.

Shared pieces: `wrappers.dfy` (`Option`), `text.dfy` (the string
operations the handlers use: `split`, `indexOf`, `startsWith`, `includes`,
`toLowerCase`, decimal rendering), `seqs.dfy` (filter, map, take, a
newest-first sort) and `table.dfy` (a DynamoDB table as a sequence of items
in scan order, with get by key and put as an upsert by key).

Every handler is a function from a request and the tables to a response and
the tables afterwards. Whatever the code gets from outside becomes a
parameter: the clock, random values, JWT decoding, `JSON.parse`, carrier
APIs, the network, and whether a store call throws.

## Model

| member | source | states |
|---|---|---|
| Likes.LikeIdsDiffer | lambda_likes_handler.js:181 | the like id `${from}_${to}_${Date.now()}` differs for two likes between the same users at different instants |
| Likes.NewLike | lambda_likes_handler.js:176-191 | the stored like carries both user ids, the id built from them and the clock, `likeType` or "LIKE", the message or null; a body without both ids yields no item, since the document client refuses undefined attributes |
| Likes.SentBy | lambda_likes_handler.js:83-99 | the scan `fromUserId = :userId` keeps exactly the likes the user sent, each as often as stored |
| Likes.ReceivedBy | lambda_likes_handler.js:116-132 | the scan `toProfileId = :userId` keeps exactly the likes the user received, each as often as stored |
| LikesHandler.AllLikesUnreachable | lambda_likes_handler.js:39-55 | `/likes/all` is taken by the sent-likes rule first, so the route listing every like is never reached |
| LikesHandler.SentRoute | lambda_likes_handler.js:39-43 | a GET on `/likes/{x}` lists the likes `x` sent whenever `x` is one path piece not starting with "received" |
| LikesHandler.ReceivedRoute | lambda_likes_handler.js:46-50 | a GET on `/likes/{x}/received` lists the likes `x` received |
| LikesHandler.NewMatch | lambda_likes_handler.js:221-231 | a match written on a mutual like is ACTIVE, has the liker as user1 and the liked profile as user2, no unread messages and its last activity at its creation |
| LikesHandler.CreateLikeOp | lambda_likes_handler.js:176-267 | a like is stored under its id and nothing else in the Likes table changes; a failed write or an incomplete body is a 500; `isMatch` holds exactly when the mutual scan succeeds and finds a LIKE going back; a match id is reported exactly on a match; `remaining` is always 19 |
| LikesHandler.MatchWritten | lambda_likes_handler.js:219-244 | the Matches table gains the reported match exactly when a match is detected and its write succeeds, and is untouched otherwise |
| LikesHandler.SideFailuresSwallowed | lambda_likes_handler.js:240-248 | a failing mutual scan or match write still answers 200 and stores the like as a fault-free call would |
| LikesHandler.SelfLikeMatches | lambda_likes_handler.js:198-215 | because the mutual scan runs after the put, a LIKE of oneself finds itself and is reported as a match |
| LikesHandler.ReciprocalLikeMatches | lambda_likes_handler.js:203-219 | once B has liked A, A liking B is reported as a match |
| LikesHandler.RepeatedLikesAccumulate | lambda_likes_handler.js:181-198 | there is no duplicate check: two likes of the same profile at two instants are both kept, as different items |
| LikesHandler.Handle | lambda_likes_handler.js:15-81 | preflight answers 200 and writes nothing; 404 exactly when no route matches; only the POST route writes; the POST route is 500 without a body and otherwise answers and writes exactly as `createLike` does; the list routes answer the sent or received scan |
| LikesRoutes.UserPathSplit | lambda_likes_simple.js:42 | the third `/`-piece of `/likes/{x}` is `x` |
| LikesRoutes.ReceivedPathSplit | lambda_likes_simple.js:49-50 | the third `/`-piece of `/likes/{x}/received` is `x` |
| LikesRoutes.NoReceivedMarker | lambda_likes_simple.js:41 | `/likes/{x}` contains "/received" only when `x` starts with "received" |
| LikesRoutes.HasReceivedMarker | lambda_likes_simple.js:48 | `/likes/{x}/received` always contains "/received" |
| LikesRoutes.SentRouteHasUser | lambda_likes_simple.js:41-42 | a path routed to the sent list always has a third piece, so a user id (possibly empty) is always read |
| LikesRoutes.PrefixSentRoute | lambda_likes_dynamodb.js:40-44 | a GET on `/likes/{x}` is routed to the likes sent by `x` |
| LikesRoutes.PrefixReceivedRoute | lambda_likes_dynamodb.js:47-52 | a GET on `/likes/{x}/received` is routed to the likes received by `x` |
| LikesRoutes.ReceivedWithoutUser | lambda_likes_dynamodb.js:47-51 | any path containing "/received" goes to the received list, even `/received`, whose user id is undefined |
| LikesRoutes.PlainScan | lambda_likes_dynamodb.js:81-151 | a list answers 200 with exactly the matching likes when there is a user id, and 500 when the id is undefined |
| LikesRoutes.StoreLike | lambda_likes_dynamodb.js:153-196 | a like is created exactly when the body has both ids and the write succeeds; it is then stored under its id with every other key unchanged, and a failure writes nothing |
| LikesSimple.SuperchatsSentBy | lambda_likes_simple.js:97-105 | the superchat scan keeps exactly the user's sent superchats |
| LikesSimple.SuperchatsReceivedBy | lambda_likes_simple.js:164-172 | the superchat scan keeps exactly the user's received superchats |
| LikesSimple.Merge | lambda_likes_simple.js:106-124 | the merged list is newest first and is a permutation of the likes plus the retagged superchats |
| LikesSimple.MergeMembers | lambda_likes_simple.js:106-124 | an entry is listed exactly when it is one of the likes or one of the superchats tagged "SUPERCHAT" |
| LikesSimple.MergeKeepsLikes | lambda_likes_simple.js:122-124 | keeping only the plain likes of a merged list gives back the likes scan, up to order |
| LikesSimple.Handle | lambda_likes_simple.js:15-80 | preflight writes nothing; every answer is 200 or 500; only `POST /likes` writes, and never to Superchats; a POST answers 200 exactly when the body yields a like and the write succeeds, and then the like is stored under its id and no other key changes, otherwise it is 500 and writes nothing; the list routes merge likes with superchats; an unknown route is 200 with an empty list |
| LikesSimple.SentListContents | lambda_likes_simple.js:40-45 | `/likes/{x}` lists, newest first, exactly `x`'s likes and `x`'s superchats |
| LikesDynamo.Handle | lambda_likes_dynamodb.js:14-79 | preflight writes nothing; every answer is 200 or 500; only `POST /likes` writes; a POST answers 200 exactly when the body yields a like and the write succeeds, and the created like is then in the table under its id with every other key unchanged; a failed POST is 500 and writes nothing; an unknown route is 200 |
| LikesDynamo.PostedLikeIsListed | lambda_likes_dynamodb.js:34-44 | after a successful POST, the sender's sent list holds the new like |
| LikesDebug.Handle | lambda_likes_debug.js:14-105 | there is no preflight or create route: nothing but GET reaches a list, every answer is 200 or 500, and nothing is written |
| LikesDebug.AgreesWithDynamo | lambda_likes_debug.js:24-79 | on every GET that reaches a list, the debugging function answers as the DynamoDB function does |
| MatchesHandler.OneMatchRoute | lambda_matches_handler.js:43-46 | a GET on `/matches/{x}` asks for the single match `x` |
| MatchesHandler.UserMatchesRoute | lambda_matches_handler.js:36-39 | a GET on `/matches/user/{x}` asks for the matches of user `x` |
| MatchesHandler.UserWithoutIdIsMatchId | lambda_matches_handler.js:36-46 | `/matches/user` with no user id falls through to the single-match rule and asks for the match whose id is "user" |
| MatchesHandler.LatestMessage | lambda_matches_handler.js:200-214 | the newest-first, limit-1 room query gives nothing exactly when the room has no message, and otherwise a message of that room no older than any other in it |
| MatchesHandler.Decorate | lambda_matches_handler.js:122-130 | decorating a match keeps every stored attribute (id, users, creation time, status, last activity, unread counts, update time) and rewrites only the last message and its sender |
| MatchesHandler.DecorateLastActivity | lambda_matches_handler.js:124-133 | the last activity is the newest message's time, the last message its content and the last sender its sender, each `null` when empty; an empty room, or a failed message query, gives the match's own creation time and neither a last message nor a sender |
| MatchesHandler.MatchesOf | lambda_matches_handler.js:95-116 | the user's match list is newest first and lists each match id once |
| MatchesHandler.MatchesOfExact | lambda_matches_handler.js:95-116 | in a table with unique ids, a match is listed exactly when the user is its user1 or its user2 |
| MatchesHandler.ParticipantQueries | lambda_matches_handler.js:74-107 | the user1 and user2 index queries together hold exactly the matches the user takes part in |
| MatchesHandler.Handle | lambda_matches_handler.js:15-198 | 404 "Not Found" exactly when no route matches; a single match is 404 exactly when its id is not stored, else 200 with exactly that match decorated (its newest message and last activity); a user's list is 200 and decorates each listed match in order |
| MessagesHandler.StripBearer | lambda_messages_handler.js:48 | a header beginning with "Bearer " is that prefix followed by the token; any other header is the token itself |
| MessagesHandler.StripBearerOnce | lambda_messages_handler.js:48 | the prefix is removed exactly once, even from a token that itself begins with "Bearer " |
| MessagesHandler.Caller | lambda_messages_handler.js:34-65 | the caller is a non-empty `sub` claim of the decoded token, read from `Authorization` when it is non-empty and otherwise from `authorization`; without either header there is no caller |
| MessagesHandler.NewMessage | lambda_messages_handler.js:110-184 | the stored message is sent by the caller, whatever the body says, to the named receiver in the named room, with status "sent", type "text" when none is given, and points only on a superchat with non-zero points |
| MessagesHandler.WithLastMessage | lambda_messages_handler.js:196-208 | the match update sets the last message, its sender and its time, and keeps the match's identity, users, creation time and status |
| MessagesHandler.SendMessage | lambda_messages_handler.js:105-231 | an unparsable body is 500; a body missing the match, receiver or content is 400; an unknown match is 404; a caller outside the match is 403; none of these writes. Otherwise a failed put is 500 and writes nothing, a failed match update is 500 with the message already stored, and success is 201 with the message built from the body in the caller's name, stored under its id, no other message changed; the Matches table changes only on a 201 |
| MessagesHandler.OnlyParticipantsPost | lambda_messages_handler.js:123-163 | nothing is written unless the match exists and the caller is one of its two users, and what is written is sent by the caller |
| MessagesHandler.PostUpdatesMatch | lambda_messages_handler.js:195-209 | after a successful post the match summarises the new message (content, sender, time) and no other match changes |
| MessagesHandler.RoomPage | lambda_messages_handler.js:296-311 | the page holds messages of the room only, newest first, as many as the limit allows or all of them |
| MessagesHandler.RoomPageIsNewest | lambda_messages_handler.js:303-304 | a message of the room left off the page is no newer than anything on it |
| MessagesHandler.GetMessages | lambda_messages_handler.js:234-346 | 400 exactly when the last path piece is empty; 404 for an unknown match; 403 for a caller outside it; 200 exactly for a participant with a usable limit (`parseInt(limit) \|\| 50` at least 1). A 200 lists the room's page element by element, newest first, each flagged as from the caller exactly when the caller sent it, and holds the limit's worth or every message of the room when there are fewer |
| MessagesHandler.MarkRead | lambda_messages_handler.js:402-414 | a message marked read has status "read", its read time and update time set to `now`, and every other attribute unchanged |
| MessagesHandler.UpdateMessage | lambda_messages_handler.js:349-440 | an unparsable body is 500, an empty id 400, an unknown message 404 and a caller who is not its receiver 403, none of them writing; the receiver of an existing message always can mark it read (200); then exactly that message is replaced by its read form; any other outcome writes nothing |
| MessagesHandler.MarkReadTwice | lambda_messages_handler.js:401-417 | marking a message read twice leaves the table as marking it once at the later time does |
| MessagesHandler.Handle | lambda_messages_handler.js:20-102 | preflight writes nothing; a missing headers object is 500; a header without a valid caller is 401 and writes nothing; for an authenticated caller an unknown route is 404 "Not Found" and writes nothing, and the send, list and read routes answer exactly as `sendMessage`, `getMessages` and `updateMessage` do; a write happens only on the send route or on a successful read route |
| MessagesHandler.ListPath | lambda_messages_handler.js:76 | `GET /messages/match/{room}` takes the list route, and the last path piece is the room |
| MessagesHandler.ReadPath | lambda_messages_handler.js:78 | `PUT /messages/read/{id}` takes the read route, and the last path piece is the message id |
| MessagesHandler.ListRouteAnswersRoom | lambda_messages_handler.js:76-77 | `GET /messages/match/{room}` by a participant, with no limit, is 200 with the room's newest 50 messages in order and writes nothing |
| MessagesHandler.ReadRouteMarksMessage | lambda_messages_handler.js:78-79 | `PUT /messages/read/{id}` by the message's receiver is 200, marks exactly that message read and leaves the matches alone |
| Notifications.ByUser | lambda_notifications_dynamodb.js:116-125 | the `notificationsByUserId` index lists exactly the user's notifications, newest first |
| Notifications.UserNotifications | lambda_notifications_dynamodb.js:112-141 | at most 50 of the user's notifications, newest first; fewer than 50 means all of them |
| Notifications.UnreadCount | lambda_notifications_dynamodb.js:161-177 | the unread count never exceeds the number of stored notifications |
| Notifications.UnreadCountZero | lambda_notifications_dynamodb.js:165-177 | the count is 0 exactly when the user has no unread notification |
| Notifications.Recent | lambda_notifications_dynamodb.js:211-235 | at most 20 of the user's notifications, and with `since` only ones created after it |
| Notifications.RecentIsNewestNewer | lambda_notifications_dynamodb.js:225-233 | because `Limit` applies before the filter, the polling list is the user's newest 20 notifications with the older-than-`since` ones dropped |
| Notifications.RecentMissesOnlyWhenFull | lambda_notifications_dynamodb.js:225-233 | a notification newer than `since` can be missing from the polling list only when that list is full (20 items) |
| Notifications.Read | lambda_notifications_dynamodb.js:276-280 | a notification marked read is read and updated at `now`, and every other attribute is unchanged |
| Notifications.MarkOne | lambda_notifications_dynamodb.js:269-331 | an undefined user id is 500; otherwise 200 exactly when the notification exists and belongs to the user, and then only that notification becomes read; any other answer for a defined user is 403 and writes nothing |
| Notifications.MarkOneTwice | lambda_notifications_dynamodb.js:273-283 | marking a notification read twice leaves the table as marking it once at the later time does |
| Notifications.MarkAll | lambda_notifications_dynamodb.js:334-380 | every unread notification of the user, and nothing else, becomes read; afterwards the user has none unread, and the count reported is how many there were |
| Notifications.ReadAllWithIdMarksOne | lambda_notifications_dynamodb.js:54-77 | "/read-all" contains "/read", so a read-all request carrying a notification id marks only that one, and read-all happens only without an id |
| Notifications.Handle | lambda_notifications_dynamodb.js:4-109 | 404 exactly when no route matches; only the two read routes write; the count, polling and list routes answer their query; mark-one with a `null` body is 500 and writes nothing, with a `userId` that is present but not a string is 403 and writes nothing, and with any other body answers exactly as `markNotificationAsRead` does for the body's user; read-all is 200 exactly when the body names a user by a string, is 500 and writes nothing otherwise, and a 200 leaves that user with nothing unread and reports how many were unread |
| Sms.Digits | aws_lambda/send_sms_function.js:340 | stripping every non-digit leaves only digits |
| Sms.NormalizePhoneNumber | aws_lambda/send_sms_function.js:338-352 | the result is `+` followed by digits only; a mobile number (010, 011, 016-019) becomes +82 and the number without its leading 0; a number starting with 82 just gains `+`; any other number gets +82 in front |
| Sms.IgnoresNonDigits | aws_lambda/send_sms_function.js:340 | inserting a non-digit anywhere in the input does not change the normalised number |
| Sms.LandlineKeepsZero | aws_lambda/send_sms_function.js:347-350 | a Seoul landline (02...) keeps its leading 0 after +82 |
| Sms.NormalizeIdempotent | aws_lambda/send_sms_function.js:338-352 | normalising a normalised number gives it back |
| Sms.ProviderFor | aws_lambda/send_sms_function.js:68-92 | Twilio, KT, SKT and LG U+ are chosen exactly by their names, in any ASCII letter case |
| Sms.SnsIsDefault | aws_lambda/send_sms_function.js:68-92 | every other name, "sns" and "aws_sns" included, goes to SNS |
| Sms.Send | aws_lambda/send_sms_function.js:286-333 | SKT and LG U+ always report failure with an error; the other carriers report what their API answers |
| Sms.FillTemplate | aws_lambda/send_sms_function.js:391-396 | the id keeps the template's length and fixed characters, puts a hex digit at each `x` and one of 8, 9, a, b at each `y` |
| Sms.UuidShape | aws_lambda/send_sms_function.js:391-396 | a generated log id has the version-4 UUID shape: 36 characters, dashes at 8, 13, 18 and 23, `4` at 14, one of 8, 9, a, b at 19 |
| Sms.SaveLog | aws_lambda/send_sms_function.js:366-386 | a successful write appends exactly the entry; a failed write leaves the log as it was |
| Sms.Handle | aws_lambda/send_sms_function.js:18-131 | preflight writes nothing; a request without a phone number or message is 400 and writes nothing; a malformed body is 500; a valid request answers with the result of sending through the carrier chosen by `provider \|\| 'sns'` (its success, message id and error, with the provider as written), 200 exactly when the carrier reports success and 500 otherwise; only a send writes the log |
| Sms.LogFailureInvisible | aws_lambda/send_sms_function.js:382-385 | a failing log write changes nothing in the response and leaves the log as it was |
| Sms.ValidRequestIsLogged | aws_lambda/send_sms_function.js:94-103 | a valid request adds one log entry, holding the normalised number, the provider name as written (default "sns") and the carrier's success |
| Sms.StubCarriersFail | aws_lambda/send_sms_function.js:82-106 | a valid request for SKT or LG U+ always answers 500 |
| Json.Field | lambda_profile_handler.js:316 | a property is read exactly when the value is an object that has it |
| Json.Or | lambda_profile_handler.js:316 | `a \|\| b` is truthy exactly when one operand is, and is the first operand when that one is truthy |
| Json.IntToString | lambda_profile_handler.js:340 | a rendered integer is non-empty, and is all digits exactly when the integer is not negative |
| Json.ToStr | lambda_profile_handler.js:346-369 | `String` keeps a string as it is and renders a number as its decimal digits |
| Json.TrimStart | lambda_profile_handler.js:59 | trimming removes a prefix, leaves no leading white space, and leaves a string without white space alone |
| Json.TrimEnd | lambda_profile_handler.js:347 | trimming removes a suffix, leaves no trailing white space, and leaves a string without white space alone |
| Json.NumberOfString | lambda_profile_handler.js:347 | `Number` on a string of digits is the value of those digits |
| Json.LeadingDigits | lambda_profile_handler.js:59 | the digit run `parseInt` reads is a digit prefix of the input, followed by a non-digit or the end |
| Json.ToNumber | lambda_profile_handler.js:347-353 | `Number(undefined)` is NaN and `Number(null)` is 0 |
| Json.KeyCount | lambda_profile_handler.js:283-301 | `Object.keys` throws exactly on `null`, and counts an object's own properties |
| Json.RenderingHasNoSpace | lambda_profile_handler.js:347 | a rendered integer has no white space for `Number` to trim |
| Json.NumberOfIntString | lambda_profile_handler.js:347 | `Number(String(n))` is `n` for every integer |
| Json.LeadingAllDigits | lambda_profile_handler.js:59 | the digits `parseInt` reads from a digit string followed by a non-digit are that digit string |
| Json.ParseIntPrefix | lambda_profile_handler.js:59 | `parseInt(String(n) + rest)` is `n` whenever `rest` does not go on with a digit, nor, after a lone `0`, with the `x` of a hexadecimal prefix |
| Json.LeadingHexDigits | lambda_profile_handler.js:59 | the hexadecimal run `parseInt` reads after `0x` is a prefix of what follows, ended by a non-hex character or the end |
| Json.LeadingAllHex | lambda_profile_handler.js:59 | the hexadecimal digits read from a hex-digit string followed by a non-hex character are that string |
| Json.NoHexPrefix | lambda_profile_handler.js:59 | the decimal rendering of a number never begins a `0x` prefix, unless it is `0` and an `x` follows |
| Json.ReadRendering | lambda_profile_handler.js:59 | the unsigned digits `parseInt` reads from `String(m)` followed by a non-digit are `m` |
| Json.ParseIntSigned | lambda_profile_handler.js:59 | `parseInt` of a sign and a body is the body's value, negated after `-` |
| Json.ReadHex | lambda_profile_handler.js:59 | after `0x` or `0X` the hexadecimal digits are read in base 16 |
| Json.ParseIntHex | lambda_profile_handler.js:59 | `parseInt` with no radix reads `0x` and `-0x` followed by hexadecimal digits in base 16, ignoring what follows them |
| ProfileHandler.OrStr | lambda_profile_handler.js:13-17 | the first non-empty of two strings is chosen, and the result is non-empty exactly when one of them is |
| ProfileHandler.MethodOf | lambda_profile_handler.js:13-17 | the first non-empty of the REST method field, the two request-context fields and the override header is the method, in that order; only when all four are empty does the first word of the route key count; the method is undefined exactly when all five sources are empty |
| ProfileHandler.RouteKeyGivesMethod | lambda_profile_handler.js:17 | an HTTP API event known only by its route key "VERB /path" has the method VERB |
| ProfileHandler.DiscoverLimit | lambda_profile_handler.js:59 | the discovery limit is never 0: an absent, unreadable or zero `limit` is 20, and any other number `parseInt` reads is kept |
| ProfileHandler.SpacedLimitIsRead | lambda_profile_handler.js:59 | any run of ECMAScript white space before a non-zero integer is skipped, and the integer is the limit (so a vertical tab or a no-break space before `5` gives 5) |
| ProfileHandler.HexLimitIsRead | lambda_profile_handler.js:59 | `?limit=0x` with hexadecimal digits is read in base 16, as `parseInt` with no radix does |
| ProfileHandler.Slice | lambda_profile_handler.js:82 | `slice(0, limit)` is a prefix, of length `limit` capped by the list, or with a negative `limit` that many items fewer than the list |
| ProfileHandler.Discover | lambda_profile_handler.js:65-98 | the discovery list is a prefix, in scan order, of the stored profiles other than the caller's that match the gender filter; it holds the limit's worth of them or all when there are fewer, and for a negative limit all but the last that many |
| ProfileHandler.DiscoverMembers | lambda_profile_handler.js:65-98 | a discovered profile is a stored profile that is not the caller's and has the asked gender; a list shorter than a positive limit holds every such profile |
| ProfileHandler.AnonymousDiscoverNeedsUserId | lambda_profile_handler.js:57-80 | without `currentUserId` the filter compares with undefined, so only profiles that have a `userId` attribute are discovered |
| ProfileHandler.ZeroLimitIsDefault | lambda_profile_handler.js:59 | `?limit=0` means 20 |
| ProfileHandler.NegativeLimitDropsTail | lambda_profile_handler.js:59-82 | `?limit=-n` drops the last `n` eligible profiles |
| ProfileHandler.FirstOfUser | lambda_profile_handler.js:196-225 | the full scan finds nothing exactly when no stored profile has the id as `id` or `userId`, and otherwise the first one that does |
| ProfileHandler.Lookup | lambda_profile_handler.js:138-240 | the lookup fails exactly when no profile belongs to the id; a found profile is stored and belongs to it; the key get wins whenever some profile has the id as its key; the limited scan only ever returns the table's first item |
| ProfileHandler.LimitedScanSeesFirstItemOnly | lambda_profile_handler.js:166-225 | a profile known only by its `userId` that is not the table's first item is missed by the `Limit: 1` scan and found by the full scan |
| ProfileHandler.FirstAt | lambda_profile_handler.js:196-225 | the full scan returns the first item that belongs to the user |
| ProfileHandler.BodyOrEvent | lambda_profile_handler.js:263-289 | the body read fails exactly when the body parses to `null`, and never yields `null` |
| ProfileHandler.RequestBody | lambda_profile_handler.js:263-295 | after all three attempts, the body read fails exactly when the body parses to `null` |
| ProfileHandler.NestedBodyInert | lambda_profile_handler.js:291-295 | the nested-`body` attempt never changes the body the first two attempts produced |
| ProfileHandler.StrOr | lambda_profile_handler.js:346 | `String(x \|\| '')` is "" for a falsy value and the string itself for a string |
| ProfileHandler.NumOr0 | lambda_profile_handler.js:365-366 | `Number(x) \|\| 0` is 0 when the value is unreadable, and the number itself for a number |
| ProfileHandler.ArrOr | lambda_profile_handler.js:349-360 | an absent list becomes the empty list |
| ProfileHandler.Coerce | lambda_profile_handler.js:343-373 | the stored profile carries the chosen id and user id; it is online unless `isOnline` is literally false; it has a height exactly when one was given, and then `Number` of it; the three flags are the truthiness of the body's; age and the two counts are `Number(x) \|\| 0`; every text field is `String(x \|\| '')`; the three lists are the body's arrays or empty; creation and update time are the request time |
| ProfileHandler.ToJson | lambda_profile_handler.js:343-373 | the item written carries the id, the user id and the gender the lookups and the discovery filter read |
| ProfileHandler.Save | lambda_profile_handler.js:260-396 | every answer is 200, 400 or 500, and only a 200 writes; no recoverable body is 500; a body with no keys is 400 "no request data"; a falsy `userId \|\| id` is 400 "userId required"; 200 exactly when the body has data, a truthy user id and a readable height, every number of the item lies within `±Number.MAX_SAFE_INTEGER`, and the put succeeds; an unsafe number or a failed put is 500 and writes nothing; a 200 saves the coerced profile of the body, under its id (the body's id or a generated one), and changes no other key |
| ProfileHandler.MinimalBodyDefaults | lambda_profile_handler.js:340-373 | a body holding only a user id saves a profile with a generated id, every one of the thirteen text fields empty, age, like count and superchat count zero, no height, the three lists empty, online, and none of VIP, premium or verified |
| ProfileHandler.Handle | lambda_profile_handler.js:4-427 | preflight writes nothing; 405 exactly for methods other than OPTIONS, GET and POST; only a successful POST writes; a POST answers exactly as the save does; discovery answers the discovery list; a GET that is not discovery and has no path user id is 400 "userId required"; a lookup is 404 exactly when no profile belongs to the id, and otherwise 200 with the profile the three-step lookup finds, which is stored and belongs to that user |
| ProfileHandler.OversizedCountRefused | lambda_profile_handler.js:365-380 | a body whose `likeCount` is beyond `Number.MAX_SAFE_INTEGER` is not written: the POST answers 500 and the table is unchanged |
| ProfileHandler.SavedProfileIsFound | lambda_profile_handler.js:138-162 | a profile saved under a text id is found again by a GET on that id, through the key get |
| ServiceWorker.Drop | admin/flutter_service_worker.js:428 | `substring(n)` drops `n` characters, or everything when the string is shorter |
| ServiceWorker.KeyOf | admin/flutter_service_worker.js:427-435 | every request URL has a non-empty key |
| ServiceWorker.RootKeys | admin/flutter_service_worker.js:433-435 | the origin itself, the origin with a slash, and every `origin/#...` URL map to the index key "/" |
| ServiceWorker.VersionedKey | admin/flutter_service_worker.js:428-432 | a cache-busting `?v=` suffix is dropped: `origin/path?v=x` has the key `path` |
| ServiceWorker.PlainKey | admin/flutter_service_worker.js:428 | `origin/path` has the key `path` |
| ServiceWorker.Dispatch | admin/flutter_service_worker.js:423-444 | non-GET requests are ignored; the browser handles exactly the GETs whose key is not listed with a hash; the index key goes online-first and every other listed file cache-first |
| ServiceWorker.Fetch | admin/flutter_service_worker.js:423-459 | built on the corrected own-key dispatch (`ServiceWorker.Dispatch`), not the lookup as written: unhandled requests change no cache; only the requested URL's entry can change; a cached file is served from the cache; an uncached file is fetched and cached exactly when the response is ok; the index page is always refetched and cached |
| ServiceWorker.CachedFileServedOffline | admin/flutter_service_worker.js:445-458 | a file fetched once with an ok response is served from the cache afterwards, whatever the network does |
| ServiceWorker.IndexFallsBackToCache | admin/flutter_service_worker.js:494-512 | after one successful fetch, the index page is still served when the network fails |
| ServiceWorker.CachedKey | admin/flutter_service_worker.js:389-392 | the key of a cached URL is never empty: an empty key is "/" |
| ServiceWorker.CachedKeyOfUrl | admin/flutter_service_worker.js:479-482 | a listed key ("/" or a relative path) read back from the URL it resolves to is the key again |
| ServiceWorker.Install | admin/flutter_service_worker.js:351-360 | installation succeeds exactly when every shell file is fetched ok; it then puts all of them in the temporary cache and touches nothing else |
| ServiceWorker.Activate | admin/flutter_service_worker.js:364-420 | a failure deletes all three caches; otherwise the temporary cache is moved into the content cache over everything else and deleted, the new table is saved, and without a saved manifest nothing else is kept, while with one an older entry is kept exactly when its file is still listed with the same hash |
| ServiceWorker.ReactivationKeepsFiles | admin/flutter_service_worker.js:386-399 | activating again with the same build keeps every cached file of the build |
| ServiceWorker.InstallThenActivate | admin/flutter_service_worker.js:351-411 | after installing and activating, every shell file is in the content cache |
| ServiceWorker.Missing | admin/flutter_service_worker.js:474-489 | a file is missing exactly when it is listed and no cached URL has its key |
| ServiceWorker.DownloadOffline | admin/flutter_service_worker.js:474-491 | the download never removes a cached file and touches only the content cache |
| ServiceWorker.DownloadCompletes | admin/flutter_service_worker.js:474-491 | when every fetch succeeds, nothing listed is missing afterwards |
| ServiceWorker.OnMessage | admin/flutter_service_worker.js:460-471 | "skipWaiting" and only it activates the waiting worker; "downloadOffline" runs the download; only the download changes a cache |
| ServiceWorker.DispatchAsWritten | admin/flutter_service_worker.js:438-440 | with the lookup as written, the browser handles exactly the GETs whose key is neither listed with a hash nor a name every object inherits |
| ServiceWorker.InheritedNameIsServed | admin/flutter_service_worker.js:438 | a GET for `origin/constructor`, which the build does not list, is taken over cache-first by the lookup as written, while the intended dispatch leaves it to the browser |
| ServiceWorker.ConstructorKey | admin/flutter_service_worker.js:428 | `origin/constructor` has the key "constructor" |
| ServiceWorker.DispatchesAgreeOnPaths | admin/flutter_service_worker.js:438 | the two dispatches differ only on inherited names |
| UserPoints.InitializeUserPoints | init_user_points.js:8-42 | a failing store call rethrows and writes nothing; an existing record is returned unchanged and nothing is written; otherwise a record with the given balance (1000 when none is given) is created and is the user's record afterwards; other users' records never change |
| UserPoints.InitializeIdempotent | init_user_points.js:11-19 | initialising twice is initialising once: the second call returns the first record and writes nothing, whatever balance it asks for |
| UserPoints.ExistingBalanceKept | init_user_points.js:11-19 | a recorded balance is never reset |
| UserPoints.InitializeTestUserPoints | init_user_points.js:45-58 | it succeeds exactly when no test user's call fails; every test user before the first failure has their existing record or their own starting balance (2000 and 1500); no other record changes; a failure at the first user writes nothing |
| UserPoints.InitializeUsers | init_user_points.js:55-57 | the loop over any users with distinct ids succeeds exactly when no call fails; each user up to the first failure keeps an existing record or gets its own starting balance; ids of no listed user are untouched; a failure on the first user writes nothing |
| UserPoints.InitializeOne | init_user_points.js:56 | one call of the loop gives the user its existing record or a new one with its own balance, and leaves every other id alone |
| Table.Get | lambda_messages_handler.js:124-130 | a get by key finds a stored item with that key, and nothing exactly when no item has it |
| Table.Put | lambda_likes_handler.js:193-198 | a put by key makes the item the one found under its key and changes no other key; a new key appends and a known key replaces in place |
| Table.PutPut | lambda_notifications_dynamodb.js:273-283 | two puts under one key leave what the second put alone leaves |
| Table.Collapse | lambda_matches_handler.js:110-115 | keying a list by id keeps, for each id, the last item with that id and lists each id once |
| Table.CollapseFromUnique | lambda_matches_handler.js:110-115 | items that all come from one table with unique ids all survive keying by id, however often the two queries repeat them |
| Text.Split | lambda_likes_handler.js:40 | `split` gives at least one piece and no piece holds the separator |
| Text.JoinSplit | lambda_likes_handler.js:40 | joining the pieces of a split gives back the string |
| Text.IndexOf | admin/flutter_service_worker.js:430 | `indexOf` finds the first occurrence, and finds one exactly when there is one |
| Text.BeforeFirst | admin/flutter_service_worker.js:431 | `split(p)[0]` is a prefix followed by the first occurrence of `p`, or the whole string when there is none |
| Text.NatToStringRoundTrip | lambda_likes_handler.js:181 | the decimal digits of a timestamp read back as the timestamp |
| Seqs.SortDesc | lambda_matches_handler.js:115-116 | a newest-first sort is sorted and a permutation of its input (stability is not stated) |
| Seqs.FilterTakeCommute | lambda_notifications_dynamodb.js:225-233 | on a list where the filter holds on a prefix only, limiting then filtering is filtering then limiting |

## Left out

- Logging, CORS headers and the exact message texts of response bodies are not modelled; responses carry a status and a body variant.
- Timestamps are integers, or a single `now` string where the source writes an ISO string. Two clock reads in one request are one value.
- Scan and query pagination (`LastEvaluatedKey`, the 1 MB page limit, the messages `nextToken`) is not modelled: a scan sees the whole table.
- `Promise.all` concurrency is sequentialised: the two match queries, the per-match message queries and the read-all updates run one after the other.
- Store failures are modelled only where a parameter names them: the likes put, the mutual-like scan and the match put of the main likes function; the like put of the DynamoDB and merging likes functions; the per-room message queries of the matches function; the message put and the match update of `sendMessage`; every DynamoDB call of the profile function together (`dbFails`); the single get-or-create call of the points initialiser; the log write of the SMS function (`logWriteFails`). Which of these fails is chosen by the caller of the model.
- Every other store call is taken to succeed, so its 500 answer is not modelled. These are:
  - the list scans of all four likes functions, the merging function's superchat scans among them;
  - the match get and the two participant queries of the matches function;
  - the match get of `sendMessage` and `getMessages`, and the room query of `getMessages`;
  - the message get and update of `updateMessage`;
  - the notifications queries, an update of `markNotificationAsRead` that throws for a reason other than its condition, and the read-all query and per-item updates. A read-all that completes only partly, with some updates written before one throws, is therefore not modelled.
- Table key types are not modelled: an item is found by key equality on the modelled values.
- Number parsing covers integers only. For `Number` (`Json.NumberOfString`), decimals, exponents, hexadecimal, binary and octal literals and `Infinity` read as NaN, though JavaScript reads them. `parseInt` (`Json.ParseInt`) reads decimal digits, and hexadecimal digits after a `0x` prefix as JavaScript does with no radix; it stops at a decimal point, as JavaScript does. Both skip the full ECMAScript white space and line terminator set (`Json.IsSpace`).
- Sms.ProviderFor: `toLowerCase` is modelled on the ASCII letters only (`Text.ToLower`). JavaScript also lowers non-ASCII letters, some of them to ASCII: U+212A KELVIN SIGN becomes `k`, so the provider "\u212AT" selects KT in the source but SNS in the model.
- The KT request signing, the Twilio and SNS client calls and the environment-variable configuration are not modelled; the carriers are the `gateway` parameter of `Sms.Send`.
- Sms.Handle: a `null` provider is read as absent, though the source's default applies only to `undefined` and `null.toLowerCase()` would answer 500; non-string phone numbers and providers are not modelled.
- LikesSimple.Merge: the order of two entries with the same creation time is not stated; the source's sort is stable, the model's sort is proved sorted and a permutation only. Superchats without a creation time are not modelled.
- MatchesHandler.Decorate: the fallback `lastMessage?.createdAt || match.createdAt` is modelled for a missing message; a message whose creation time is falsy cannot occur with ISO strings and is not modelled.
- The catch at lambda_matches_handler.js:131-134 is unreachable, because the message query catches its own errors; a failed message query reads as no message.
- MessagesHandler.Handle: a header that is not a string is not modelled; a missing `headers` object answers 500. A limit below 1 is refused by the query and answers 500.
- Notifications.Handle: failures of the list, count and polling queries (their 500 answers) are not modelled. `since` is an integer compared numerically, where DynamoDB compares the strings.
- ProfileHandler.ProfileEvent: string event fields are typed as strings. `own` stands for the event's own properties when the event itself becomes the body.
- ProfileHandler.Handle: `dbFails` makes every DynamoDB call of the request fail; a failure of only the second or third lookup step is not modelled. The debug block of the 400 answer is left out.
- ProfileHandler.Save: a truthy height that `Number` reads as NaN answers 500, because the document client refuses NaN. This is modelled as an error path, not as a stored NaN. A number beyond `±Number.MAX_SAFE_INTEGER` anywhere in the item is refused the same way. The other functions' puts do not check this bound: a body number that large there is covered only by their failure parameters, where they have one.
- Notifications.ByUser: the model takes the `notificationsByUserId` query to return the user's notifications newest first, as the handler's `ScanIndexForward: false` intends. The index defined in dynamodb_setup.js:161-170 has a partition key `userId` and no sort key, so DynamoDB gives no defined order and `Limit` keeps an arbitrary 20 or 50. `Notifications.UserNotifications`, `Notifications.Recent`, `Notifications.RecentIsNewestNewer` and `Notifications.RecentMissesOnlyWhenFull` hold under this assumption only.
- A missing `event.path` is not modelled: the likes, matches and messages functions read it with no default, and the model types it as a string. In the source, a request without a path throws and answers 500 at the first `path.match` or `path.startsWith` that its method reaches.
- Json.ToStr: the contract states the string and number cases only; the renderings of booleans, null, arrays and objects are in the body.
- Json.ToNumber: the contract states the `undefined` and `null` cases only; the others follow `Json.NumberOfString` in the body.
- ProfileHandler.ArrOr: the contract states the absent case only.
- ServiceWorker: the RESOURCES table (the build's file list with hashes) is a parameter rather than the 337 entries of one build.
- ServiceWorker.KeyOf: percent-encoding and URL normalisation are not modelled; requests are matched by URL string.
- ServiceWorker.Fetch: the fetch handler is modelled on the corrected `ServiceWorker.Dispatch`. For a name every object inherits, such as `constructor`, the source as written takes the request over, as `ServiceWorker.DispatchAsWritten` states, and the model leaves it to the browser (see Findings).
- ServiceWorker.Activate: the lookups of `activate` and `downloadOffline` are modelled as own-property lookups; the inherited-name case is analysed for the fetch handler only (see Findings).
- ServiceWorker.OnMessage: `skipWaiting` and `clients.claim` are effects without a model of the worker lifecycle.
- The direct-run guard of init_user_points.js (lines 60-63) is a command-line entry point and is not modelled.

## Findings

| source | as written | input that shows it | evidently intended | confidence | as-written member | corrected member |
|---|---|---|---|---|---|---|
| admin/flutter_service_worker.js:438 | `!RESOURCES[key]` also reads properties that every object inherits, so a key such as "constructor" counts as a listed file | a GET for `<origin>/constructor` when the build has no such file | keys not listed in the build's table are left to the browser | high (not executed) | ServiceWorker.DispatchAsWritten | ServiceWorker.Dispatch |

`ServiceWorker.InheritedNameIsServed` exhibits the discrepancy: for that
request the lookup as written takes the cache-first path, and so caches an
ok response for a file the build does not have, while `ServiceWorker.Dispatch`
hands the request to the browser. `ServiceWorker.Dispatch` is proved to
leave to the browser exactly the GETs whose key is not listed with a hash.
`ServiceWorker.DispatchesAgreeOnPaths` shows that the two dispatches differ
on inherited names only.

=== FILE: chat.dfy ===
/** The records of the chat side of the application: a Match (two users
    who liked each other, and the summary of their conversation) and a
    Message exchanged inside one. */
module Chat {
  import opened Wrappers

  datatype Match = Match(
    id: string,
    user1Id: string,
    user2Id: string,
    createdAt: int,
    status: string,
    lastMessageAt: int,
    unreadCount1: int,
    unreadCount2: int,
    lastMessage: Option<string>,
    lastMessageSenderId: Option<string>,
    updatedAt: Option<int>)

  datatype Message = Message(
    id: string,
    chatRoomId: string,
    senderId: string,
    receiverId: string,
    content: string,
    messageType: string,
    status: string,
    createdAt: int,
    updatedAt: int,
    superchatPoints: Option<int>,
    readAt: Option<int>)

  /** `user` is one of the two people in the match. */
  predicate IsParticipant(m: Match, user: string) {
    m.user1Id == user || m.user2Id == user
  }

  function MatchKey(m: Match): string { m.id }

  function MessageKey(m: Message): string { m.id }

  function MatchCreatedAt(m: Match): int { m.createdAt }

  function MessageCreatedAt(m: Message): int { m.createdAt }
}

=== FILE: json.dfy ===
/** The JavaScript values the profile function reads out of a request
    body, and the coercions it applies to them: truthiness, `a || b`,
    `String(x)`, `Number(x)`, `parseInt(s)` and `Object.keys(x).length`.
    Numbers are integers; `NaN` is `None` wherever a coercion can give it. */
module Json {
  import opened Wrappers
  import opened Text

  datatype Json =
    | JNull
    | JBool(b: bool)
    | JNum(n: int)
    | JStr(s: string)
    | JArr(items: seq<Json>)
    | JObj(fields: map<string, Json>)

  /** JavaScript truthiness: `null`, `false`, `0` and `""` are falsy. */
  predicate Truthy(j: Json) {
    match j
    case JNull => false
    case JBool(b) => b
    case JNum(n) => n != 0
    case JStr(s) => s != ""
    case _ => true
  }

  /** Truthiness of a property that may be `undefined` (`None`). */
  predicate TruthyOpt(o: Option<Json>) {
    o.Some? && Truthy(o.value)
  }

  /** `j[k]`: an object's own property; any other value has none of the
      properties the handlers read. */
  function Field(j: Json, k: string): (r: Option<Json>)
    ensures r.Some? <==> j.JObj? && k in j.fields
  {
    if j.JObj? && k in j.fields then Some(j.fields[k]) else None
  }

  /** `Number.MAX_SAFE_INTEGER`, 2^53 - 1. */
  const MaxSafeInteger: int := 9007199254740991

  /** Every number in `j`, at any depth, lies within
      `±Number.MAX_SAFE_INTEGER`: the document client's marshaller refuses
      to write any other number. */
  predicate NumbersSafe(j: Json)
    decreases j
  {
    match j
    case JNum(n) => -MaxSafeInteger <= n <= MaxSafeInteger
    case JArr(a) => forall i :: 0 <= i < |a| ==> NumbersSafe(a[i])
    case JObj(m) => forall k :: k in m ==> NumbersSafe(m[k])
    case _ => true
  }

  /** `a || b`: the first operand when it is truthy, else the second. */
  function Or(a: Option<Json>, b: Option<Json>): (r: Option<Json>)
    ensures TruthyOpt(r) <==> TruthyOpt(a) || TruthyOpt(b)
    ensures TruthyOpt(a) ==> r == a
    ensures !TruthyOpt(a) ==> r == b
  {
    if TruthyOpt(a) then a else b
  }

  /** `String(n)` for an integer. */
  function IntToString(n: int): (r: string)
    ensures |r| >= 1
    ensures n >= 0 <==> AllDigits(r)
  {
    if n < 0 then
      var r := "-" + NatToString(-n);
      assert !IsDigit(r[0]);
      r
    else NatToString(n)
  }

  /** `String(j)`; an array renders as its elements joined by commas, with
      `null` elements empty. */
  function ToStr(j: Json): (r: string)
    ensures j.JStr? ==> r == j.s
    ensures j.JNum? ==> r == IntToString(j.n)
    decreases j
  {
    match j
    case JNull => "null"
    case JBool(b) => if b then "true" else "false"
    case JNum(n) => IntToString(n)
    case JStr(s) => s
    case JArr(a) =>
      if |a| == 0 then ""
      else Join(seq(|a|, i requires 0 <= i < |a| => if a[i].JNull? then "" else ToStr(a[i])), ',')
    case JObj(_) => "[object Object]"
  }

  /** The white space `Number` and `parseInt` skip: the WhiteSpace and
      LineTerminator code points of ECMAScript (tab, line feed, vertical
      tab, form feed, carriage return, the byte order mark, the two
      Unicode line separators and every space separator). */
  predicate IsSpace(c: char) {
    || c == '\t' || c == '\n' || c == '\U{000B}' || c == '\U{000C}' || c == '\r' || c == ' '
    || c == '\U{00A0}' || c == '\U{1680}' || ('\U{2000}' <= c <= '\U{200A}')
    || c == '\U{2028}' || c == '\U{2029}' || c == '\U{202F}' || c == '\U{205F}'
    || c == '\U{3000}' || c == '\U{FEFF}'
  }

  function TrimStart(s: string): (r: string)
    ensures |r| <= |s| && r == s[|s| - |r|..]
    ensures |r| > 0 ==> !IsSpace(r[0])
    ensures (forall i :: 0 <= i < |s| ==> !IsSpace(s[i])) ==> r == s
  {
    if |s| > 0 && IsSpace(s[0]) then TrimStart(s[1..]) else s
  }

  function TrimEnd(s: string): (r: string)
    ensures |r| <= |s| && r == s[..|r|]
    ensures |r| > 0 ==> !IsSpace(r[|r| - 1])
    ensures (forall i :: 0 <= i < |s| ==> !IsSpace(s[i])) ==> r == s
  {
    if |s| > 0 && IsSpace(s[|s| - 1]) then TrimEnd(s[..|s| - 1]) else s
  }

  predicate NoSpace(s: string) {
    forall i :: 0 <= i < |s| ==> !IsSpace(s[i])
  }

  /** No digit is white space. */
  lemma DigitsHaveNoSpace(s: string)
    ensures AllDigits(s) ==> NoSpace(s)
  {
    if AllDigits(s) {
      forall i | 0 <= i < |s| ensures !IsSpace(s[i]) { assert IsDigit(s[i]); }
    }
  }

  /** An optional sign and what follows it. */
  function Unsign(t: string): (bool, string) {
    if |t| > 0 && t[0] == '-' then (true, t[1..])
    else if |t| > 0 && t[0] == '+' then (false, t[1..])
    else (false, t)
  }

  /** `Number(s)` on a string of integer syntax: surrounding white space
      is ignored, the empty string is 0, anything else unreadable is `NaN`. */
  function NumberOfString(s: string): (r: Option<int>)
    ensures AllDigits(s) && s != "" ==> r == Some(DigitsValue(s))
  {
    DigitsHaveNoSpace(s);
    var t := TrimEnd(TrimStart(s));
    if t == "" then Some(0)
    else
      var (neg, body) := Unsign(t);
      if body != "" && AllDigits(body) then
        var v: int := DigitsValue(body);
        Some(if neg then -v else v)
      else None
  }

  /** The longest run of digits `s` starts with. */
  function LeadingDigits(s: string): (r: string)
    ensures AllDigits(r) && StartsWith(s, r)
    ensures |r| < |s| ==> !IsDigit(s[|r|])
  {
    if |s| > 0 && IsDigit(s[0]) then [s[0]] + LeadingDigits(s[1..]) else ""
  }

  predicate IsHexDigit(c: char) {
    IsDigit(c) || 'a' <= c <= 'f' || 'A' <= c <= 'F'
  }

  predicate AllHexDigits(s: string) {
    forall i :: 0 <= i < |s| ==> IsHexDigit(s[i])
  }

  function HexDigitValue(c: char): (v: nat)
    requires IsHexDigit(c)
    ensures v < 16
  {
    if IsDigit(c) then c as int - '0' as int
    else if 'a' <= c <= 'f' then c as int - 'a' as int + 10
    else c as int - 'A' as int + 10
  }

  /** Value of a string of hexadecimal digits. */
  function HexValue(s: string): nat
    requires AllHexDigits(s)
  {
    if |s| == 0 then 0 else 16 * HexValue(s[..|s| - 1]) + HexDigitValue(s[|s| - 1])
  }

  /** The longest run of hexadecimal digits `s` starts with. */
  function LeadingHexDigits(s: string): (r: string)
    ensures AllHexDigits(r) && StartsWith(s, r)
    ensures |r| < |s| ==> !IsHexDigit(s[|r|])
  {
    if |s| > 0 && IsHexDigit(s[0]) then [s[0]] + LeadingHexDigits(s[1..]) else ""
  }

  /** `0x` or `0X`: with no radix given, `parseInt` reads what follows in base 16. */
  predicate HasHexPrefix(s: string) {
    |s| >= 2 && s[0] == '0' && (s[1] == 'x' || s[1] == 'X')
  }

  /** The unsigned part of `parseInt`: as many digits as there are,
      hexadecimal after a `0x` prefix; `None` when there are none. */
  function ReadDigits(body: string): (r: Option<nat>)
  {
    if HasHexPrefix(body) then
      var h := LeadingHexDigits(body[2..]);
      if h == "" then None else Some(HexValue(h))
    else
      var d := LeadingDigits(body);
      if d == "" then None else Some(DigitsValue(d))
  }

  /** A leading minus sign, or nothing. */
  function SignText(neg: bool): string {
    if neg then "-" else ""
  }

  /** `v` with the sign read before it. */
  function Signed(neg: bool, v: nat): int {
    if neg then -(v as int) else v as int
  }

  /** `parseInt(s)` with no radix: leading white space, an optional sign,
      then the digits `ReadDigits` takes; `NaN` when there are none. */
  function ParseInt(s: string): (r: Option<int>)
  {
    var (neg, body) := Unsign(TrimStart(s));
    match ReadDigits(body)
    case None => None
    case Some(v) => Some(Signed(neg, v))
  }

  /** `Number(x)`, with `None` for `NaN`; `undefined` is `NaN`, `null` is 0,
      an array is read through its string form. */
  function ToNumber(o: Option<Json>): (r: Option<int>)
    ensures o == None ==> r == None
    ensures o == Some(JNull) ==> r == Some(0)
  {
    match o
    case None => None
    case Some(JNull) => Some(0)
    case Some(JBool(b)) => Some(if b then 1 else 0)
    case Some(JNum(n)) => Some(n)
    case Some(JStr(s)) => NumberOfString(s)
    case Some(JArr(a)) => NumberOfString(ToStr(JArr(a)))
    case Some(JObj(_)) => None
  }

  /** `Object.keys(j).length`; `None` when `Object.keys` throws (on `null`). */
  function KeyCount(j: Json): (r: Option<nat>)
    ensures r.None? <==> j.JNull?
    ensures j.JObj? ==> r == Some(|j.fields|)
  {
    match j
    case JNull => None
    case JBool(_) => Some(0)
    case JNum(_) => Some(0)
    case JStr(s) => Some(|s|)
    case JArr(a) => Some(|a|)
    case JObj(m) => Some(|m|)
  }

  /** A rendered integer has no white space to trim. */
  lemma RenderingHasNoSpace(n: int)
    ensures NoSpace(IntToString(n))
    ensures TrimStart(IntToString(n)) == IntToString(n)
    ensures TrimEnd(IntToString(n)) == IntToString(n)
  {
    var d := NatToString(if n < 0 then -n else n);
    DigitsHaveNoSpace(d);
    if n < 0 {
      var r := "-" + d;
      assert r == IntToString(n);
      forall i | 0 <= i < |r| ensures !IsSpace(r[i]) {
        if i > 0 { assert r[i] == d[i - 1]; }
      }
    }
  }

  /** `Number(String(n)) == n`: the rendering of an integer reads back. */
  lemma NumberOfIntString(n: int)
    ensures NumberOfString(IntToString(n)) == Some(n)
  {
    RenderingHasNoSpace(n);
    var r := IntToString(n);
    var d := NatToString(if n < 0 then -n else n);
    UnsignRendering(n);
    NatToStringRoundTrip(if n < 0 then -n else n);
    NumberOfUntrimmed(r, n < 0, d);
  }

  /** `Number` of a string with no white space and a signed digit run. */
  lemma NumberOfUntrimmed(r: string, neg: bool, d: string)
    requires TrimEnd(TrimStart(r)) == r && r != ""
    requires Unsign(r) == (neg, d) && d != "" && AllDigits(d)
    ensures NumberOfString(r) == Some(if neg then -(DigitsValue(d) as int) else DigitsValue(d))
  {
  }

  /** The sign of a rendered integer is a leading `-` on its digits. */
  lemma UnsignRendering(n: int)
    ensures Unsign(IntToString(n)) == (n < 0, NatToString(if n < 0 then -n else n))
  {
    var r := IntToString(n);
    if n >= 0 {
      assert IsDigit(r[0]);
    } else {
      assert r[0] == '-' && r[1..] == NatToString(-n);
    }
  }

  /** The digits of a digit string are all leading digits. */
  lemma {:induction false} LeadingAllDigits(d: string, rest: string)
    requires AllDigits(d)
    requires |rest| > 0 ==> !IsDigit(rest[0])
    ensures LeadingDigits(d + rest) == d
    decreases |d|
  {
    if |d| > 0 {
      assert (d + rest)[1..] == d[1..] + rest;
      LeadingAllDigits(d[1..], rest);
    } else {
      assert d + rest == rest;
    }
  }

  /** A decimal rendering never starts a hexadecimal prefix, unless it is
      `0` and what follows it begins with `x`. */
  lemma NoHexPrefix(m: nat, rest: string)
    requires m == 0 && |rest| > 0 ==> rest[0] != 'x' && rest[0] != 'X'
    ensures !HasHexPrefix(NatToString(m) + rest)
  {
    var d := NatToString(m);
    if m >= 10 {
      assert |d| >= 2 && IsDigit(d[1]) && (d + rest)[1] == d[1];
    } else if m > 0 {
      assert d[0] == DigitChar(m) && DigitChar(m) != '0';
    } else {
      assert d == "0";
    }
  }

  /** The digits of `String(m)` read back as `m`, whatever non-digit follows. */
  lemma ReadRendering(m: nat, rest: string)
    requires |rest| > 0 ==> !IsDigit(rest[0])
    requires m == 0 && |rest| > 0 ==> rest[0] != 'x' && rest[0] != 'X'
    ensures ReadDigits(NatToString(m) + rest) == Some(m)
  {
    NoHexPrefix(m, rest);
    LeadingAllDigits(NatToString(m), rest);
    NatToStringRoundTrip(m);
  }

  /** `parseInt` on a sign and an unsigned body: the body's digits, negated
      after a `-`. */
  lemma ParseIntSigned(neg: bool, body: string, v: nat)
    requires |body| > 0 && !IsSpace(body[0]) && body[0] != '-' && body[0] != '+'
    requires ReadDigits(body) == Some(v)
    ensures ParseInt(SignText(neg) + body) == Some(Signed(neg, v))
  {
    var s := SignText(neg) + body;
    assert TrimStart(s) == s by { assert !IsSpace(s[0]); }
    if neg {
      assert s[1..] == body;
    } else {
      assert s == body;
    }
    assert Unsign(s) == (neg, body);
  }

  /** `parseInt(String(n) + rest) == n` when `rest` does not go on with a
      digit (nor, after `0`, with an `x`): `parseInt` reads the number and
      ignores whatever follows. */
  lemma ParseIntPrefix(n: int, rest: string)
    requires |rest| > 0 ==> !IsDigit(rest[0])
    requires n == 0 && |rest| > 0 ==> rest[0] != 'x' && rest[0] != 'X'
    ensures ParseInt(IntToString(n) + rest) == Some(n)
  {
    var m: nat := if n < 0 then -n else n;
    var d := NatToString(m);
    assert IntToString(n) + rest == SignText(n < 0) + (d + rest);
    assert IsDigit(d[0]) && (d + rest)[0] == d[0];
    ReadRendering(m, rest);
    ParseIntSigned(n < 0, d + rest, m);
  }

  /** With no radix, `parseInt` reads `0x` and the hexadecimal digits after
      it, up to the first character that is not one, with its sign. */
  lemma ParseIntHex(neg: bool, x: char, h: string, rest: string)
    requires x == 'x' || x == 'X'
    requires h != "" && AllHexDigits(h)
    requires |rest| > 0 ==> !IsHexDigit(rest[0])
    ensures ParseInt(SignText(neg) + HexText(x, h, rest)) == Some(Signed(neg, HexValue(h)))
  {
    ReadHex(x, h, rest);
    ParseIntSigned(neg, HexText(x, h, rest), HexValue(h));
  }

  /** `0x`, the digits `h` and whatever follows them. */
  function HexText(x: char, h: string, rest: string): (t: string)
    ensures |t| > 0 && t[0] == '0'
  {
    "0" + [x] + h + rest
  }

  /** After a `0x` prefix the hexadecimal digits are read in base 16. */
  lemma ReadHex(x: char, h: string, rest: string)
    requires x == 'x' || x == 'X'
    requires h != "" && AllHexDigits(h)
    requires |rest| > 0 ==> !IsHexDigit(rest[0])
    ensures ReadDigits(HexText(x, h, rest)) == Some(HexValue(h))
  {
    var body := HexText(x, h, rest);
    assert HasHexPrefix(body);
    assert body[2..] == h + rest;
    LeadingAllHex(h, rest);
  }

  /** The hexadecimal digits of a hex-digit string are all leading digits. */
  lemma {:induction false} LeadingAllHex(h: string, rest: string)
    requires AllHexDigits(h)
    requires |rest| > 0 ==> !IsHexDigit(rest[0])
    ensures LeadingHexDigits(h + rest) == h
    decreases |h|
  {
    if |h| > 0 {
      assert (h + rest)[1..] == h[1..] + rest;
      LeadingAllHex(h[1..], rest);
    } else {
      assert h + rest == rest;
    }
  }
}

=== FILE: likes.dfy ===
/** The Like record shared by the four likes handlers, the item their
    `createLike` builds from a POST body, and the two scans every handler
    uses: the likes a user sent and the likes a user received. */
module Likes {
  import opened Wrappers
  import opened Text
  import Seqs

  datatype Like = Like(
    id: string,
    fromUserId: string,
    toProfileId: string,
    actionType: string,
    message: Option<string>,
    createdAt: int,
    updatedAt: int)

  /** The parsed POST body of a like. */
  datatype LikeBody = LikeBody(
    fromUserId: Option<string>,
    toProfileId: Option<string>,
    likeType: Option<string>,
    message: Option<string>)

  function LikeKey(l: Like): string { l.id }

  function LikeCreatedAt(l: Like): int { l.createdAt }

  /** `${fromUserId}_${toProfileId}_${Date.now()}`. */
  function LikeId(from: string, to: string, now: nat): string {
    from + "_" + to + "_" + NatToString(now)
  }

  /** Two likes between the same users at different instants get different ids. */
  lemma LikeIdsDiffer(from: string, to: string, t1: nat, t2: nat)
    requires t1 != t2
    ensures LikeId(from, to, t1) != LikeId(from, to, t2)
  {
    var prefix := from + "_" + to + "_";
    if LikeId(from, to, t1) == LikeId(from, to, t2) {
      assert LikeId(from, to, t1)[|prefix|..] == NatToString(t1);
      assert LikeId(from, to, t2)[|prefix|..] == NatToString(t2);
      NatToStringRoundTrip(t1);
      NatToStringRoundTrip(t2);
      assert false;
    }
  }

  /** The item `createLike` stores. The document client refuses an item with
      an undefined attribute, so a body without both user ids yields `None`
      (the handler then answers 500). */
  function NewLike(body: LikeBody, now: nat): (r: Option<Like>)
    ensures r.Some? <==> body.fromUserId.Some? && body.toProfileId.Some?
    ensures r.Some? ==> r.value.fromUserId == body.fromUserId.value
    ensures r.Some? ==> r.value.toProfileId == body.toProfileId.value
    ensures r.Some? ==> r.value.id == LikeId(body.fromUserId.value, body.toProfileId.value, now)
    ensures r.Some? ==> r.value.createdAt == now && r.value.updatedAt == now
    ensures r.Some? && Present(body.likeType) ==> r.value.actionType == body.likeType.value
    ensures r.Some? && !Present(body.likeType) ==> r.value.actionType == "LIKE"
    ensures r.Some? && Present(body.message) ==> r.value.message == body.message
    ensures r.Some? && !Present(body.message) ==> r.value.message.None?
  {
    if body.fromUserId.None? || body.toProfileId.None? then None
    else
      var from := body.fromUserId.value;
      var to := body.toProfileId.value;
      Some(Like(
        LikeId(from, to, now), from, to,
        if Present(body.likeType) then body.likeType.value else "LIKE",
        if Present(body.message) then body.message else None,
        now, now))
  }

  /** Scan with `fromUserId = :userId`. */
  function SentBy(likes: seq<Like>, user: string): (r: seq<Like>)
    ensures forall l :: l in r <==> l in likes && l.fromUserId == user
    ensures forall l :: multiset(r)[l] == if l.fromUserId == user then multiset(likes)[l] else 0
  {
    var p := (l: Like) => l.fromUserId == user;
    Seqs.FilterExact(likes, p);
    Seqs.Filter(likes, p)
  }

  /** Scan with `toProfileId = :userId`. */
  function ReceivedBy(likes: seq<Like>, user: string): (r: seq<Like>)
    ensures forall l :: l in r <==> l in likes && l.toProfileId == user
    ensures forall l :: multiset(r)[l] == if l.toProfileId == user then multiset(likes)[l] else 0
  {
    var p := (l: Like) => l.toProfileId == user;
    Seqs.FilterExact(likes, p);
    Seqs.Filter(likes, p)
  }
}

=== FILE: likes_debug.dfy ===
/** The debugging likes function (lambda_likes_debug.js): the two list
    routes of the DynamoDB variant and nothing else. It has no preflight and
    no POST route, and it never writes. */
module LikesDebug {
  import opened Wrappers
  import opened Likes
  import opened LikesRoutes
  import LikesDynamo

  /** `exports.handler`: a response only, since nothing is written. */
  function Handle(httpMethod: Option<string>, path: Option<string>, likes: seq<Like>): (r: PlainResponse)
    ensures r.status == 200 || r.status == 500
    ensures !(r.body.NoContent? || r.body.CreatedLike?)
    ensures httpMethod != Some("GET") ==> r.status == 200 && r.body.Unmatched?
  {
    var verb := httpMethod.GetOr("");
    var p := path.GetOr("");
    match PrefixRouteOf(verb, p, false)
    case Sent(_) => PlainScan(likes, PrefixRouteOf(verb, p, false))
    case Received(_) => PlainScan(likes, PrefixRouteOf(verb, p, false))
    case _ => PlainResponse(200, Unmatched("Debug version - no matching route", verb, p))
  }

  /** On every GET that reaches a list, the debugging function answers
      exactly as the DynamoDB function does. */
  lemma AgreesWithDynamo(path: Option<string>, likes: seq<Like>, now: nat, fails: bool, body: Option<LikeBody>)
    ensures var route := PrefixRouteOf("GET", path.GetOr(""), false);
      route.Sent? || route.Received? ==>
        Handle(Some("GET"), path, likes) == LikesDynamo.Handle(LikesDynamo.DynamoEvent(Some("GET"), path, body), likes, now, fails).0
  {
  }
}

=== FILE: likes_dynamodb.dfy ===
/** The plain DynamoDB likes function (lambda_likes_dynamodb.js): the
    prefix routes of `LikesRoutes`, scans answered as stored, and
    `createLike` without match detection. */
module LikesDynamo {
  import opened Wrappers
  import opened Likes
  import opened LikesRoutes
  import Table
  import Text

  datatype DynamoEvent = DynamoEvent(httpMethod: Option<string>, path: Option<string>, body: Option<LikeBody>)

  /** `exports.handler`: the response and the Likes table afterwards. */
  function Handle(ev: DynamoEvent, likes: seq<Like>, now: nat, writeFails: bool): (out: (PlainResponse, seq<Like>))
    ensures ev.httpMethod == Some("OPTIONS") ==> out == (PlainResponse(200, NoContent), likes)
    ensures out.0.status == 200 || out.0.status == 500
    ensures out.1 != likes ==> ev.httpMethod == Some("POST") && ev.path == Some("/likes")
    ensures ev.httpMethod != Some("OPTIONS") ==>
      var route := PrefixRouteOf(ev.httpMethod.GetOr(""), ev.path.GetOr(""), true);
      && (route.Sent? || route.Received? ==> out == (PlainScan(likes, route), likes))
      && (route.Unrouted? ==> out.0.status == 200 && out.0.body.Unmatched?)
      && (route.Create? ==>
            (out.0.status == 200 <==> ev.body.Some? && NewLike(ev.body.value, now).Some? && !writeFails))
      && (route.Create? && out.0.status != 200 ==> out == (PlainResponse(500, Failure), likes))
      && (route.Create? && out.0.status == 200 ==>
            && ev.body.Some?
            && NewLike(ev.body.value, now).Some?
            && out.0.body == CreatedLike(NewLike(ev.body.value, now).value)
            && Table.Get(out.1, out.0.body.like.id, LikeKey) == Some(out.0.body.like)
            && forall k :: k != out.0.body.like.id ==> Table.Get(out.1, k, LikeKey) == Table.Get(likes, k, LikeKey))
  {
    if ev.httpMethod == Some("OPTIONS") then (PlainResponse(200, NoContent), likes)
    else
      var verb := ev.httpMethod.GetOr("");
      var path := ev.path.GetOr("");
      match PrefixRouteOf(verb, path, true)
      case Create =>
        assert ev.httpMethod == Some("POST") && ev.path == Some("/likes");
        if ev.body.None? then (PlainResponse(500, Failure), likes)
        else
          var (created, likes') := StoreLike(likes, ev.body.value, now, writeFails);
          if created.None? then (PlainResponse(500, Failure), likes)
          else (PlainResponse(200, CreatedLike(created.value)), likes')
      case Unrouted => (PlainResponse(200, Unmatched("No matching route", verb, path)), likes)
      case _ => (PlainScan(likes, PrefixRouteOf(verb, path, true)), likes)
  }

  /** A like posted and then listed: after a successful POST, the sender's
      sent list holds the new like. */
  lemma PostedLikeIsListed(body: LikeBody, likes: seq<Like>, now: nat, path: string)
    requires body.fromUserId.Some? && body.toProfileId.Some?
    requires path == "/likes/" + body.fromUserId.value
    requires '/' !in body.fromUserId.value && !Text.StartsWith(body.fromUserId.value, "received")
    ensures var (resp, likes') := Handle(DynamoEvent(Some("POST"), Some("/likes"), Some(body)), likes, now, false);
      var like := NewLike(body, now).value;
      var listed := Handle(DynamoEvent(Some("GET"), Some(path), None), likes', now, false).0;
      && resp.status == 200
      && listed.body.Items?
      && like in listed.body.items
  {
    var like := NewLike(body, now).value;
    var likes' := Handle(DynamoEvent(Some("POST"), Some("/likes"), Some(body)), likes, now, false).1;
    Table.PutMembers(likes, like, LikeKey);
    PrefixSentRoute(body.fromUserId.value, true);
  }
}

=== FILE: likes_handler.dfy ===
/** The main likes function (lambda_likes_handler.js): routing on method
    and path, the sent/received scans, and `createLike`, which always stores
    the like, then scans for a reciprocal LIKE and, when one exists, writes a
    Match record. There is no duplicate check, no daily limit (the reported
    `remaining` is the constant 19) and no canonical ordering of the two
    users of a match. */
module LikesHandler {
  import opened Wrappers
  import opened Text
  import opened Likes
  import opened Chat
  import Seqs
  import Table
  import LikesRoutes

  /** `body` is `None` when `JSON.parse(event.body)` fails or yields `null`. */
  datatype LikesEvent = LikesEvent(httpMethod: Option<string>, path: string, body: Option<LikeBody>)

  datatype Route =
    | Preflight
    | SentLikes(userId: string)
    | ReceivedLikes(userId: string)
    | AllLikes
    | CreateLike
    | NoRoute

  /** `path.match(/^\/likes\/[^\/]+$/)`. */
  predicate IsUserPath(path: string) {
    var parts := Split(path, '/');
    |parts| == 3 && parts[0] == "" && parts[1] == "likes" && parts[2] != ""
  }

  /** `path.match(/^\/likes\/[^\/]+\/received$/)`. */
  predicate IsReceivedPath(path: string) {
    var parts := Split(path, '/');
    |parts| == 4 && parts[0] == "" && parts[1] == "likes" && parts[2] != "" && parts[3] == "received"
  }

  /** The `if` chain of `exports.handler`, in its order. */
  function RouteOf(verb: Option<string>, path: string): Route {
    if verb == Some("OPTIONS") then Preflight
    else if verb == Some("GET") && IsUserPath(path) && !Contains(path, "/received") then
      SentLikes(Split(path, '/')[2])
    else if verb == Some("GET") && IsReceivedPath(path) then ReceivedLikes(Split(path, '/')[2])
    else if verb == Some("GET") && path == "/likes/all" then AllLikes
    else if verb == Some("POST") && path == "/likes" then CreateLike
    else NoRoute
  }

  /** `/likes/all` is caught by the sent-likes rule first, so the debugging
      route that lists every like can never be reached. */
  lemma AllLikesUnreachable(verb: Option<string>, path: string)
    ensures RouteOf(verb, path) != AllLikes
  {
    if verb == Some("GET") && path == "/likes/all" {
      LikesRoutes.UserPathSplit("all");
      assert "/likes/all" == "/likes/" + "all";
      forall j | 0 <= j <= |path|
        ensures !OccursAt(path, "/received", j)
      {
        if j + 9 <= |path| {
          assert path[1] == 'l';
        }
      }
      ContainsAt(path, "/received");
    }
  }

  /** A GET on `/likes/{x}` lists the likes `x` sent, unless `x` begins with
      "received" (then the path contains "/received" and nothing matches). */
  lemma SentRoute(x: string)
    requires x != "" && '/' !in x && !StartsWith(x, "received")
    ensures RouteOf(Some("GET"), "/likes/" + x) == SentLikes(x)
  {
    LikesRoutes.UserPathSplit(x);
    LikesRoutes.NoReceivedMarker(x);
  }

  /** A GET on `/likes/{x}/received` lists the likes `x` received. */
  lemma ReceivedRoute(x: string)
    requires x != "" && '/' !in x
    ensures RouteOf(Some("GET"), "/likes/" + x + "/received") == ReceivedLikes(x)
  {
    LikesRoutes.ReceivedPathSplit(x);
  }

  datatype LikesBody =
    | NoContent
    | NotFoundBody(verb: Option<string>, path: string)
    | InternalError
    | LikeList(items: seq<Like>)
    | AllList(items: seq<Like>, count: nat)
    | Created(like: Like, isMatch: bool, matchId: Option<string>, remaining: int)

  datatype LikesResponse = LikesResponse(status: int, body: LikesBody)

  datatype LikesStore = LikesStore(likes: seq<Like>, matches: seq<Match>)

  /** Store failures during `createLike`: the like write (fatal), the mutual
      scan and the match write (both swallowed). */
  datatype Faults = Faults(likeWriteFails: bool, mutualCheckFails: bool, matchWriteFails: bool)

  /** Some stored LIKE goes from `to` back to `from`. */
  predicate Reciprocated(likes: seq<Like>, from: string, to: string) {
    exists l :: l in likes && l.fromUserId == to && l.toProfileId == from && l.actionType == "LIKE"
  }

  function MatchId(from: string, to: string, now: nat): string {
    "match_" + from + "_" + to + "_" + NatToString(now)
  }

  /** The Match record written on a mutual like. */
  function NewMatch(from: string, to: string, now: nat): (m: Match)
    ensures m.user1Id == from && m.user2Id == to && m.status == "ACTIVE"
    ensures m.unreadCount1 == 0 && m.unreadCount2 == 0
    ensures m.createdAt == now && m.lastMessageAt == m.createdAt
    ensures m.id == MatchId(from, to, now)
  {
    Match(MatchId(from, to, now), from, to, now, "ACTIVE", now, 0, 0, None, None, None)
  }

  /** `createLike(body)`. */
  function CreateLikeOp(body: LikeBody, now: nat, store: LikesStore, faults: Faults): (out: (LikesResponse, LikesStore))
    ensures NewLike(body, now).None? || faults.likeWriteFails ==> out == (LikesResponse(500, InternalError), store)
    ensures NewLike(body, now).Some? && !faults.likeWriteFails ==>
      var like := NewLike(body, now).value;
      && out.0.status == 200
      && out.0.body.Created?
      && out.0.body.like == like
      && out.0.body.remaining == 19
      && Table.Get(out.1.likes, like.id, LikeKey) == Some(like)
      && (forall k :: k != like.id ==> Table.Get(out.1.likes, k, LikeKey) == Table.Get(store.likes, k, LikeKey))
      && (out.0.body.isMatch <==> !faults.mutualCheckFails && Reciprocated(out.1.likes, like.fromUserId, like.toProfileId))
      && (out.0.body.matchId.Some? <==> out.0.body.isMatch)
  {
    match NewLike(body, now)
    case None => (LikesResponse(500, InternalError), store)
    case Some(like) =>
      if faults.likeWriteFails then (LikesResponse(500, InternalError), store)
      else
        var likes' := Table.Put(store.likes, like, LikeKey);
        var isMatch := !faults.mutualCheckFails && Reciprocated(likes', like.fromUserId, like.toProfileId);
        var matchId := if isMatch then Some(MatchId(like.fromUserId, like.toProfileId, now)) else None;
        var matches' :=
          if isMatch && !faults.matchWriteFails then
            Table.Put(store.matches, NewMatch(like.fromUserId, like.toProfileId, now), MatchKey)
          else store.matches;
        (LikesResponse(200, Created(like, isMatch, matchId, 19)), LikesStore(likes', matches'))
  }

  /** The Match table changes exactly when a mutual like is detected and its
      write succeeds; then it gains the match named in the response, with the
      liker as user1 and the liked profile as user2. */
  lemma MatchWritten(body: LikeBody, now: nat, store: LikesStore, faults: Faults)
    requires NewLike(body, now).Some? && !faults.likeWriteFails
    ensures var (resp, store') := CreateLikeOp(body, now, store, faults);
      var like := NewLike(body, now).value;
      && (resp.body.isMatch && !faults.matchWriteFails ==>
            resp.body.matchId == Some(MatchId(like.fromUserId, like.toProfileId, now))
            && Table.Get(store'.matches, resp.body.matchId.value, MatchKey)
               == Some(NewMatch(like.fromUserId, like.toProfileId, now)))
      && (!resp.body.isMatch || faults.matchWriteFails ==> store'.matches == store.matches)
  {
  }

  /** A failure of the mutual scan or of the match write does not fail the
      request: the like is stored and reported with status 200. */
  lemma SideFailuresSwallowed(body: LikeBody, now: nat, store: LikesStore, mutualFails: bool, matchFails: bool)
    requires NewLike(body, now).Some?
    ensures var (resp, store') := CreateLikeOp(body, now, store, Faults(false, mutualFails, matchFails));
      && resp.status == 200
      && store'.likes == CreateLikeOp(body, now, store, Faults(false, false, false)).1.likes
  {
  }

  /** A LIKE to oneself finds itself as the reciprocal like. */
  lemma SelfLikeMatches(body: LikeBody, now: nat, store: LikesStore, matchFails: bool)
    requires body.fromUserId.Some? && body.fromUserId == body.toProfileId
    requires !Present(body.likeType) || body.likeType == Some("LIKE")
    ensures CreateLikeOp(body, now, store, Faults(false, false, matchFails)).0.body.isMatch
  {
    var like := NewLike(body, now).value;
    Table.PutMembers(store.likes, like, LikeKey);
  }

  /** Once B has liked A, A liking B is a match. */
  lemma ReciprocalLikeMatches(body: LikeBody, now: nat, store: LikesStore, earlier: Like, matchFails: bool)
    requires body.fromUserId.Some? && body.toProfileId.Some?
    requires earlier in store.likes
    requires earlier.fromUserId == body.toProfileId.value && earlier.toProfileId == body.fromUserId.value
    requires earlier.actionType == "LIKE"
    requires earlier.id != LikeId(body.fromUserId.value, body.toProfileId.value, now)
    ensures CreateLikeOp(body, now, store, Faults(false, false, matchFails)).0.body.isMatch
  {
    var like := NewLike(body, now).value;
    Table.PutMembers(store.likes, like, LikeKey);
  }

  /** There is no duplicate check: liking the same profile twice, at two
      different instants, leaves both likes in the table. */
  lemma RepeatedLikesAccumulate(body: LikeBody, t1: nat, t2: nat, store: LikesStore)
    requires body.fromUserId.Some? && body.toProfileId.Some?
    requires t1 != t2
    ensures var s1 := CreateLikeOp(body, t1, store, Faults(false, false, false)).1;
      var s2 := CreateLikeOp(body, t2, s1, Faults(false, false, false)).1;
      && NewLike(body, t1).value in s2.likes
      && NewLike(body, t2).value in s2.likes
      && NewLike(body, t1).value != NewLike(body, t2).value
  {
    var l1 := NewLike(body, t1).value;
    var l2 := NewLike(body, t2).value;
    LikeIdsDiffer(body.fromUserId.value, body.toProfileId.value, t1, t2);
    var s1 := CreateLikeOp(body, t1, store, Faults(false, false, false)).1;
    var s2 := CreateLikeOp(body, t2, s1, Faults(false, false, false)).1;
    assert Table.Get(s2.likes, l1.id, LikeKey) == Some(l1);
  }

  /** `exports.handler`: the response and the tables afterwards. */
  function Handle(ev: LikesEvent, store: LikesStore, now: nat, faults: Faults): (out: (LikesResponse, LikesStore))
    ensures ev.httpMethod == Some("OPTIONS") ==> out == (LikesResponse(200, NoContent), store)
    ensures RouteOf(ev.httpMethod, ev.path) == NoRoute <==> out.0.status == 404
    ensures RouteOf(ev.httpMethod, ev.path) != CreateLike ==> out.1 == store
    ensures RouteOf(ev.httpMethod, ev.path).SentLikes? ==>
      out.0 == LikesResponse(200, LikeList(SentBy(store.likes, RouteOf(ev.httpMethod, ev.path).userId)))
    ensures RouteOf(ev.httpMethod, ev.path).ReceivedLikes? ==>
      out.0 == LikesResponse(200, LikeList(ReceivedBy(store.likes, RouteOf(ev.httpMethod, ev.path).userId)))
    ensures RouteOf(ev.httpMethod, ev.path) == CreateLike && ev.body.None? ==>
      out == (LikesResponse(500, InternalError), store)
    ensures RouteOf(ev.httpMethod, ev.path) == CreateLike && ev.body.Some? ==>
      out == CreateLikeOp(ev.body.value, now, store, faults)
  {
    match RouteOf(ev.httpMethod, ev.path)
    case Preflight => (LikesResponse(200, NoContent), store)
    case SentLikes(u) => (LikesResponse(200, LikeList(SentBy(store.likes, u))), store)
    case ReceivedLikes(u) => (LikesResponse(200, LikeList(ReceivedBy(store.likes, u))), store)
    case AllLikes =>
      var items := Seqs.Take(store.likes, 100);
      (LikesResponse(200, AllList(items, |items|)), store)
    case CreateLike =>
      if ev.body.None? then (LikesResponse(500, InternalError), store)
      else CreateLikeOp(ev.body.value, now, store, faults)
    case NoRoute => (LikesResponse(404, NotFoundBody(ev.httpMethod, ev.path)), store)
  }
}

=== FILE: likes_routes.dfy ===
/** What the three prefix-routed likes functions (lambda_likes_simple.js,
    lambda_likes_dynamodb.js, lambda_likes_debug.js) share: method and path
    default to the empty string, `/likes/{id}` is matched with `startsWith`
    and `includes('/received')` rather than a regular expression, the user id
    is the third `/`-separated piece of the path, and an unknown route is
    answered with 200 and an empty list. The shapes of the likes paths are
    also proved here, for every handler to use. */
module LikesRoutes {
  import opened Wrappers
  import opened Text
  import opened Likes
  import Table

  /** `"/likes/" + x` splits into its three pieces. */
  lemma UserPathSplit(x: string)
    requires '/' !in x
    ensures Split("/likes/" + x, '/') == ["", "likes", x]
  {
    assert "/likes/" + x == ['/'] + "likes" + ['/'] + x;
    SplitThree("likes", x, '/');
  }

  /** `"/likes/" + x + "/received"` splits into its four pieces. */
  lemma ReceivedPathSplit(x: string)
    requires '/' !in x
    ensures Split("/likes/" + x + "/received", '/') == ["", "likes", x, "received"]
  {
    assert "/likes/" + x + "/received" == ['/'] + "likes" + ['/'] + x + ['/'] + "received";
    SplitFour("likes", x, "received", '/');
  }

  /** `"/likes/" + x` contains "/received" only when `x` begins with "received". */
  lemma NoReceivedMarker(x: string)
    requires '/' !in x && !StartsWith(x, "received")
    ensures !Contains("/likes/" + x, "/received")
  {
    var path := "/likes/" + x;
    forall j | 0 <= j <= |path|
      ensures !OccursAt(path, "/received", j)
    {
      if j + 9 <= |path| {
        var w := path[j..j + 9];
        if j == 0 {
          assert w[1] == 'l' != "/received"[1];
        } else if j < 6 {
          assert w[0] == path[j] != '/';
        } else if j == 6 {
          assert w[1..] == x[..8] != "received";
        } else {
          assert w[0] == x[j - 7] != '/';
        }
        assert w != "/received";
      }
    }
    ContainsAt(path, "/received");
  }

  /** `"/likes/" + x + "/received"` contains "/received". */
  lemma HasReceivedMarker(x: string)
    ensures Contains("/likes/" + x + "/received", "/received")
  {
    var path := "/likes/" + x + "/received";
    assert OccursAt(path, "/received", |"/likes/" + x|);
    ContainsAt(path, "/received");
  }

  datatype PrefixRoute =
    | Create
    | Sent(userId: Option<string>)
    | Received(userId: Option<string>)
    | Unrouted

  /** The `if` chain of the prefix-routed handlers; `withCreate` is false for
      the debugging function, which has no POST route. */
  function PrefixRouteOf(verb: string, path: string, withCreate: bool): PrefixRoute {
    if withCreate && verb == "POST" && path == "/likes" then Create
    else if verb == "GET" && StartsWith(path, "/likes/") && !Contains(path, "/received") then
      Sent(Segment(path, '/', 2))
    else if verb == "GET" && Contains(path, "/received") then Received(Segment(path, '/', 2))
    else Unrouted
  }

  /** A path that starts with "/likes/" always has a third piece, so the
      sent-likes route always has a user id (possibly empty). */
  lemma SentRouteHasUser(path: string, withCreate: bool)
    ensures PrefixRouteOf("GET", path, withCreate).Sent? ==> PrefixRouteOf("GET", path, withCreate).userId.Some?
  {
    if StartsWith(path, "/likes/") {
      var rest := path[7..];
      assert path == ['/'] + "likes" + ['/'] + rest;
      SplitAtLeastThree("likes", rest, '/');
    }
  }

  /** A GET on `/likes/{x}` lists the likes sent by `x`. */
  lemma PrefixSentRoute(x: string, withCreate: bool)
    requires '/' !in x && !StartsWith(x, "received")
    ensures PrefixRouteOf("GET", "/likes/" + x, withCreate) == Sent(Some(x))
  {
    UserPathSplit(x);
    NoReceivedMarker(x);
  }

  /** A GET on `/likes/{x}/received` lists the likes received by `x`. */
  lemma PrefixReceivedRoute(x: string, withCreate: bool)
    requires '/' !in x
    ensures PrefixRouteOf("GET", "/likes/" + x + "/received", withCreate) == Received(Some(x))
  {
    ReceivedPathSplit(x);
    HasReceivedMarker(x);
  }

  /** Any path containing "/received" is routed to received likes, even one
      with no user piece: `/received` asks for the likes of `undefined`,
      which fails. */
  lemma ReceivedWithoutUser(withCreate: bool)
    ensures PrefixRouteOf("GET", "/received", withCreate) == Received(None)
  {
    LoneReceivedSegment();
    assert "/received"[1] != "/likes/"[1];
    assert StartsWith("/received", "/received");
  }

  /** "/received" splits into two pieces, so it has no third one. */
  lemma LoneReceivedSegment()
    ensures Segment("/received", '/', 2) == None
  {
    assert "/received" == ['/'] + "received";
    SplitTwo("received", '/');
  }

  /** The response bodies of the DynamoDB and debugging variants. */
  datatype PlainBody =
    | NoContent
    | Unmatched(message: string, verb: string, path: string)
    | Failure
    | Items(items: seq<Like>)
    | CreatedLike(like: Like)

  datatype PlainResponse = PlainResponse(status: int, body: PlainBody)

  /** The sent/received scans of the plain variants; `None` as the user id
      makes the document client throw, which is answered with 500. */
  function PlainScan(likes: seq<Like>, route: PrefixRoute): (r: PlainResponse)
    requires route.Sent? || route.Received?
    ensures r.status == 200 <==> route.userId.Some?
    ensures r.status != 200 ==> r == PlainResponse(500, Failure)
    ensures r.status == 200 && route.Sent? ==>
      r.body.Items? && forall l :: l in r.body.items <==> l in likes && l.fromUserId == route.userId.value
    ensures r.status == 200 && route.Received? ==>
      r.body.Items? && forall l :: l in r.body.items <==> l in likes && l.toProfileId == route.userId.value
  {
    match route
    case Sent(Some(u)) => PlainResponse(200, Items(SentBy(likes, u)))
    case Received(Some(u)) => PlainResponse(200, Items(ReceivedBy(likes, u)))
    case _ => PlainResponse(500, Failure)
  }

  /** `createLike` without match detection: the like is put by id, or the
      request fails with nothing written. */
  function StoreLike(likes: seq<Like>, body: LikeBody, now: nat, writeFails: bool): (out: (Option<Like>, seq<Like>))
    ensures out.0.Some? <==> NewLike(body, now).Some? && !writeFails
    ensures out.0.None? ==> out.1 == likes
    ensures out.0.Some? ==> out.0 == NewLike(body, now)
    ensures out.0.Some? ==> Table.Get(out.1, out.0.value.id, LikeKey) == out.0
    ensures out.0.Some? ==> forall k :: k != out.0.value.id ==> Table.Get(out.1, k, LikeKey) == Table.Get(likes, k, LikeKey)
  {
    match NewLike(body, now)
    case None => (None, likes)
    case Some(like) =>
      if writeFails then (None, likes) else (Some(like), Table.Put(likes, like, LikeKey))
  }
}

=== FILE: likes_simple.dfy ===
/** The likes function that merges superchats into the like lists
    (lambda_likes_simple.js): the sent and received lists are the user's
    likes together with the user's superchats, each superchat retagged with
    the action type "SUPERCHAT", sorted newest first. */
module LikesSimple {
  import opened Wrappers
  import opened Likes
  import LikesRoutes
  import Seqs
  import Table

  /** An item of the Superchats table, as far as the lists read it. */
  datatype Superchat = Superchat(
    id: string,
    fromUserId: string,
    toProfileId: string,
    message: Option<string>,
    createdAt: int,
    updatedAt: int,
    pointsUsed: Option<int>,
    priority: Option<int>,
    status: Option<string>,
    isRead: Option<bool>,
    expiresAt: Option<int>)

  /** The superchat attributes a list entry carries beyond a like's. */
  datatype SuperchatExtras = SuperchatExtras(
    pointsUsed: Option<int>,
    priority: Option<int>,
    status: Option<string>,
    isRead: Option<bool>,
    expiresAt: Option<int>)

  /** One entry of a merged list: a like as stored, or a retagged superchat. */
  datatype FeedItem = FeedItem(
    id: string,
    fromUserId: string,
    toProfileId: string,
    actionType: string,
    message: Option<string>,
    createdAt: int,
    updatedAt: int,
    extras: Option<SuperchatExtras>)

  function FromLike(l: Like): FeedItem {
    FeedItem(l.id, l.fromUserId, l.toProfileId, l.actionType, l.message, l.createdAt, l.updatedAt, None)
  }

  function FromSuperchat(s: Superchat): FeedItem {
    FeedItem(s.id, s.fromUserId, s.toProfileId, "SUPERCHAT", s.message, s.createdAt, s.updatedAt,
      Some(SuperchatExtras(s.pointsUsed, s.priority, s.status, s.isRead, s.expiresAt)))
  }

  function FeedCreatedAt(x: FeedItem): int { x.createdAt }

  predicate IsPlainLike(x: FeedItem) { x.extras.None? }

  function SuperchatsSentBy(scs: seq<Superchat>, user: string): (r: seq<Superchat>)
    ensures forall s :: s in r <==> s in scs && s.fromUserId == user
  {
    var p := (s: Superchat) => s.fromUserId == user;
    Seqs.FilterExact(scs, p);
    Seqs.Filter(scs, p)
  }

  function SuperchatsReceivedBy(scs: seq<Superchat>, user: string): (r: seq<Superchat>)
    ensures forall s :: s in r <==> s in scs && s.toProfileId == user
  {
    var p := (s: Superchat) => s.toProfileId == user;
    Seqs.FilterExact(scs, p);
    Seqs.Filter(scs, p)
  }

  /** `[...likes, ...superchats].sort(newest first)`: a permutation of the
      two scans' entries, sorted by creation time. */
  function Merge(likes: seq<Like>, scs: seq<Superchat>): (r: seq<FeedItem>)
    ensures Seqs.SortedDesc(r, FeedCreatedAt)
    ensures multiset(r) == multiset(Seqs.Map(likes, FromLike)) + multiset(Seqs.Map(scs, FromSuperchat))
    ensures |r| == |likes| + |scs|
  {
    Seqs.SortDesc(Seqs.Map(likes, FromLike) + Seqs.Map(scs, FromSuperchat), FeedCreatedAt)
  }

  /** An entry of a merged list is one of the likes, or one of the
      superchats retagged, and every one of them is listed. */
  lemma MergeMembers(likes: seq<Like>, scs: seq<Superchat>, x: FeedItem)
    ensures x in Merge(likes, scs) <==>
      (exists l :: l in likes && x == FromLike(l)) || (exists s :: s in scs && x == FromSuperchat(s))
  {
    var r := Merge(likes, scs);
    assert x in r <==> x in multiset(r);
    Seqs.MapMembers(likes, FromLike, x);
    Seqs.MapMembers(scs, FromSuperchat, x);
  }

  /** Keeping only the plain likes of a merged list gives back the likes
      scan, up to order: this variant lists the same likes as the plain
      DynamoDB variant, plus the superchats. */
  lemma {:induction false} MergeKeepsLikes(likes: seq<Like>, scs: seq<Superchat>)
    ensures multiset(Seqs.Filter(Merge(likes, scs), IsPlainLike)) == multiset(Seqs.Map(likes, FromLike))
  {
    var r := Merge(likes, scs);
    var ls := Seqs.Map(likes, FromLike);
    var ss := Seqs.Map(scs, FromSuperchat);
    assert multiset(r) == multiset(ls) + multiset(ss);
    Seqs.FilterExact(r, IsPlainLike);
    TaggedApart(likes, scs);
    forall x
      ensures multiset(Seqs.Filter(r, IsPlainLike))[x] == multiset(ls)[x]
    {
      if IsPlainLike(x) {
        assert multiset(ss)[x] == 0;
      } else {
        assert multiset(ls)[x] == 0;
      }
    }
  }

  /** Likes and superchats stay apart in a merged list: only likes are plain. */
  lemma TaggedApart(likes: seq<Like>, scs: seq<Superchat>)
    ensures forall x :: x in Seqs.Map(likes, FromLike) ==> IsPlainLike(x)
    ensures forall x :: x in Seqs.Map(scs, FromSuperchat) ==> !IsPlainLike(x)
  {
  }

  datatype SimpleEvent = SimpleEvent(httpMethod: Option<string>, path: Option<string>, body: Option<LikeBody>)

  datatype SimpleBody =
    | NoContent
    | Unmatched(verb: string, path: string)
    | Failure
    | Feed(items: seq<FeedItem>)
    | CreatedLike(like: Like)

  datatype SimpleResponse = SimpleResponse(status: int, body: SimpleBody)

  datatype SimpleStore = SimpleStore(likes: seq<Like>, superchats: seq<Superchat>)

  /** `exports.handler` of the merging variant. */
  function Handle(ev: SimpleEvent, store: SimpleStore, now: nat, likeWriteFails: bool): (out: (SimpleResponse, SimpleStore))
    ensures ev.httpMethod == Some("OPTIONS") ==> out == (SimpleResponse(200, NoContent), store)
    ensures out.0.status == 200 || out.0.status == 500
    ensures out.1 != store ==> ev.httpMethod == Some("POST") && ev.path == Some("/likes")
    ensures out.1.superchats == store.superchats
    ensures ev.httpMethod != Some("OPTIONS") ==>
      var route := LikesRoutes.PrefixRouteOf(ev.httpMethod.GetOr(""), ev.path.GetOr(""), true);
      && (route.Sent? && route.userId.Some? ==>
            out.0 == SimpleResponse(200, Feed(Merge(SentBy(store.likes, route.userId.value),
                                                    SuperchatsSentBy(store.superchats, route.userId.value)))))
      && (route.Received? && route.userId.Some? ==>
            out.0 == SimpleResponse(200, Feed(Merge(ReceivedBy(store.likes, route.userId.value),
                                                    SuperchatsReceivedBy(store.superchats, route.userId.value)))))
      && (route.Unrouted? ==> out.0.status == 200 && out.0.body.Unmatched?)
      && (route.Create? ==>
            && (out.0.status == 200 <==> ev.body.Some? && NewLike(ev.body.value, now).Some? && !likeWriteFails)
            && (out.0.status != 200 ==> out == (SimpleResponse(500, Failure), store))
            && (out.0.status == 200 ==>
                  && out.0.body == CreatedLike(NewLike(ev.body.value, now).value)
                  && Table.Get(out.1.likes, out.0.body.like.id, LikeKey) == Some(out.0.body.like)
                  && forall k :: k != out.0.body.like.id ==>
                       Table.Get(out.1.likes, k, LikeKey) == Table.Get(store.likes, k, LikeKey)))
  {
    if ev.httpMethod == Some("OPTIONS") then (SimpleResponse(200, NoContent), store)
    else
      var verb := ev.httpMethod.GetOr("");
      var path := ev.path.GetOr("");
      match LikesRoutes.PrefixRouteOf(verb, path, true)
      case Create =>
        assert ev.httpMethod == Some("POST") && ev.path == Some("/likes");
        if ev.body.None? then (SimpleResponse(500, Failure), store)
        else
          var (created, likes') := LikesRoutes.StoreLike(store.likes, ev.body.value, now, likeWriteFails);
          if created.None? then (SimpleResponse(500, Failure), store)
          else (SimpleResponse(200, CreatedLike(created.value)), store.(likes := likes'))
      case Sent(user) =>
        if user.None? then (SimpleResponse(500, Failure), store)
        else
          var items := Merge(SentBy(store.likes, user.value), SuperchatsSentBy(store.superchats, user.value));
          (SimpleResponse(200, Feed(items)), store)
      case Received(user) =>
        if user.None? then (SimpleResponse(500, Failure), store)
        else
          var items := Merge(ReceivedBy(store.likes, user.value), SuperchatsReceivedBy(store.superchats, user.value));
          (SimpleResponse(200, Feed(items)), store)
      case Unrouted => (SimpleResponse(200, Unmatched(verb, path)), store)
  }

  /** The sent list of `/likes/{x}` holds exactly `x`'s likes and `x`'s
      retagged superchats, newest first. */
  lemma SentListContents(x: string, store: SimpleStore, now: nat, fails: bool, body: Option<LikeBody>, item: FeedItem)
    requires '/' !in x && !Text.StartsWith(x, "received")
    ensures var out := Handle(SimpleEvent(Some("GET"), Some("/likes/" + x), body), store, now, fails).0;
      && out.status == 200
      && out.body.Feed?
      && Seqs.SortedDesc(out.body.items, FeedCreatedAt)
      && (item in out.body.items <==>
            (exists l :: l in store.likes && l.fromUserId == x && item == FromLike(l))
            || (exists s :: s in store.superchats && s.fromUserId == x && item == FromSuperchat(s)))
  {
    LikesRoutes.PrefixSentRoute(x, true);
    var ls := SentBy(store.likes, x);
    var ss := SuperchatsSentBy(store.superchats, x);
    MergeMembers(ls, ss, item);
  }
}

=== FILE: matches.dfy ===
/** The matches function (lambda_matches_handler.js): a user's matches,
    gathered from the user1Id and user2Id indexes, deduplicated by id and
    sorted newest first, and a single match by id; each decorated with the
    newest message of its chat room. */
module MatchesHandler {
  import opened Wrappers
  import opened Text
  import opened Chat
  import Seqs
  import Table

  datatype Route =
    | Preflight
    | UserMatches(userId: string)
    | OneMatch(matchId: string)
    | NoRoute

  /** The `if` chain of `exports.handler`: `^/matches/user/[^/]+$`, then
      `^/matches/[^/]+$`. */
  function RouteOf(verb: Option<string>, path: string): Route {
    var parts := Split(path, '/');
    if verb == Some("OPTIONS") then Preflight
    else if verb == Some("GET") && |parts| == 4 && parts[0] == "" && parts[1] == "matches"
            && parts[2] == "user" && parts[3] != "" then
      UserMatches(parts[3])
    else if verb == Some("GET") && |parts| == 3 && parts[0] == "" && parts[1] == "matches" && parts[2] != "" then
      OneMatch(parts[2])
    else NoRoute
  }

  /** `/matches/{x}` asks for one match. */
  lemma OneMatchRoute(x: string)
    requires x != "" && '/' !in x
    ensures RouteOf(Some("GET"), "/matches/" + x) == OneMatch(x)
  {
    assert "/matches/" + x == ['/'] + "matches" + ['/'] + x;
    SplitThree("matches", x, '/');
  }

  /** `/matches/user/{x}` asks for the matches of user `x`. */
  lemma UserMatchesRoute(x: string)
    requires x != "" && '/' !in x
    ensures RouteOf(Some("GET"), "/matches/user/" + x) == UserMatches(x)
  {
    assert "/matches/user/" + x == ['/'] + "matches" + ['/'] + "user" + ['/'] + x;
    SplitFour("matches", "user", x, '/');
  }

  /** `/matches/user` alone asks for the match whose id is "user". */
  lemma UserWithoutIdIsMatchId()
    ensures RouteOf(Some("GET"), "/matches/user") == OneMatch("user")
  {
    assert "/matches/" + "user" == "/matches/user";
    OneMatchRoute("user");
  }

  /** The newest message of a chat room: the first item of the
      `chatRoomId-createdAt-index` query, newest first, `Limit: 1`. */
  function LatestMessage(messages: seq<Message>, room: string): (r: Option<Message>)
    ensures r.None? <==> forall msg :: msg in messages ==> msg.chatRoomId != room
    ensures r.Some? ==> r.value in messages && r.value.chatRoomId == room
    ensures r.Some? ==> forall msg :: msg in messages && msg.chatRoomId == room ==> msg.createdAt <= r.value.createdAt
  {
    var p := (msg: Message) => msg.chatRoomId == room;
    var q := Seqs.SortDesc(Seqs.Filter(messages, p), MessageCreatedAt);
    Seqs.SortFilterMembers(messages, p, MessageCreatedAt);
    if |q| == 0 then None
    else
      Seqs.HeadIsNewest(q, MessageCreatedAt);
      assert q[0] in q;
      Some(q[0])
  }

  /** A match as returned: the stored match with the newest message's
      content and sender written over, and the time of the last activity. */
  datatype MatchView = MatchView(item: Match, lastMessageTime: int)

  /** The spread `{...match, lastMessage, lastMessageTime,
      lastMessageSenderId}`; a failed message query reads as no message. */
  function Decorate(m: Match, messages: seq<Message>, queryFails: set<string>): (v: MatchView)
    ensures v.item.id == m.id && v.item.user1Id == m.user1Id && v.item.user2Id == m.user2Id
    ensures v.item.createdAt == m.createdAt && v.item.status == m.status
    ensures v.item.(lastMessage := m.lastMessage, lastMessageSenderId := m.lastMessageSenderId) == m
  {
    var last := if m.id in queryFails then None else LatestMessage(messages, m.id);
    match last
    case None => MatchView(m.(lastMessage := None, lastMessageSenderId := None), m.createdAt)
    case Some(msg) =>
      MatchView(
        m.(lastMessage := if msg.content != "" then Some(msg.content) else None,
           lastMessageSenderId := if msg.senderId != "" then Some(msg.senderId) else None),
        msg.createdAt)
  }

  /** The time of the last activity is that of the newest message of the
      room, or the match's own creation time when the room is empty or its
      query failed; the last message and its sender are that message's
      content and sender, `null` when empty. */
  lemma DecorateLastActivity(m: Match, messages: seq<Message>, queryFails: set<string>)
    ensures var v := Decorate(m, messages, queryFails);
      && (m.id in queryFails || (forall msg :: msg in messages ==> msg.chatRoomId != m.id) ==>
            v.lastMessageTime == m.createdAt && v.item.lastMessage.None? && v.item.lastMessageSenderId.None?)
      && (m.id !in queryFails ==>
            forall msg :: msg in messages && msg.chatRoomId == m.id ==>
              msg.createdAt <= v.lastMessageTime
              && exists newest :: newest in messages && newest.chatRoomId == m.id
                   && newest.createdAt == v.lastMessageTime
                   && v.item.lastMessage == (if newest.content != "" then Some(newest.content) else None)
                   && v.item.lastMessageSenderId == (if newest.senderId != "" then Some(newest.senderId) else None))
  {
    if m.id !in queryFails && LatestMessage(messages, m.id).Some? {
      assert LatestMessage(messages, m.id).value in messages;
    }
  }

  /** The matches of a user, before decoration: both index queries (each
      newest first), concatenated, collapsed by id, sorted newest first. */
  function MatchesOf(matches: seq<Match>, user: string): (r: seq<Match>)
    ensures Seqs.SortedDesc(r, MatchCreatedAt)
    ensures Table.UniqueKeys(r, MatchKey)
  {
    var q1 := Seqs.SortDesc(Seqs.Filter(matches, (m: Match) => m.user1Id == user), MatchCreatedAt);
    var q2 := Seqs.SortDesc(Seqs.Filter(matches, (m: Match) => m.user2Id == user), MatchCreatedAt);
    var unique := Table.Collapse(q1 + q2, MatchKey);
    var r := Seqs.SortDesc(unique, MatchCreatedAt);
    Table.PermutationKeepsUnique(unique, r, MatchKey);
    r
  }

  /** In a table whose ids are unique, the list holds exactly the matches the
      user takes part in, whichever side of the match the user is on. */
  lemma MatchesOfExact(matches: seq<Match>, user: string, m: Match)
    requires Table.UniqueKeys(matches, MatchKey)
    ensures m in MatchesOf(matches, user) <==> m in matches && IsParticipant(m, user)
  {
    var q1 := Seqs.SortDesc(Seqs.Filter(matches, (m: Match) => m.user1Id == user), MatchCreatedAt);
    var q2 := Seqs.SortDesc(Seqs.Filter(matches, (m: Match) => m.user2Id == user), MatchCreatedAt);
    var all := q1 + q2;
    var unique := Table.Collapse(all, MatchKey);
    var r := Seqs.SortDesc(unique, MatchCreatedAt);
    assert r == MatchesOf(matches, user);
    assert m in r <==> m in unique by {
      assert m in r <==> m in multiset(r);
      assert m in unique <==> m in multiset(unique);
    }
    forall x | x in all ensures x in matches {
      ParticipantQueries(matches, user, x);
    }
    Table.CollapseFromUnique(all, matches, MatchKey, m);
    ParticipantQueries(matches, user, m);
  }

  /** The two index queries together hold the matches the user is in. */
  lemma ParticipantQueries(matches: seq<Match>, user: string, m: Match)
    ensures var q1 := Seqs.SortDesc(Seqs.Filter(matches, (m: Match) => m.user1Id == user), MatchCreatedAt);
      var q2 := Seqs.SortDesc(Seqs.Filter(matches, (m: Match) => m.user2Id == user), MatchCreatedAt);
      m in q1 + q2 <==> m in matches && IsParticipant(m, user)
  {
    Seqs.SortFilterMembers(matches, (m: Match) => m.user1Id == user, MatchCreatedAt);
    Seqs.SortFilterMembers(matches, (m: Match) => m.user2Id == user, MatchCreatedAt);
  }

  datatype MatchesBody =
    | NoContent
    | NotFound(verb: Option<string>, path: string)
    | MatchNotFound
    | MatchList(items: seq<MatchView>)
    | Single(view: MatchView)

  datatype MatchesResponse = MatchesResponse(status: int, body: MatchesBody)

  datatype MatchesEvent = MatchesEvent(httpMethod: Option<string>, path: string)

  /** `exports.handler`; the function only reads, so only a response is
      produced. `queryFails` names the chat rooms whose message query fails. */
  function Handle(ev: MatchesEvent, matches: seq<Match>, messages: seq<Message>, queryFails: set<string>): (r: MatchesResponse)
    ensures RouteOf(ev.httpMethod, ev.path) == NoRoute <==> r.status == 404 && r.body.NotFound?
    ensures RouteOf(ev.httpMethod, ev.path).OneMatch? ==>
      var id := RouteOf(ev.httpMethod, ev.path).matchId;
      && (Table.Get(matches, id, MatchKey).None? <==> r == MatchesResponse(404, MatchNotFound))
      && (Table.Get(matches, id, MatchKey).Some? ==>
            r.status == 200 && r.body.Single? && r.body.view.item.id == id
            && r.body.view == Decorate(Table.Get(matches, id, MatchKey).value, messages, queryFails))
    ensures RouteOf(ev.httpMethod, ev.path).UserMatches? ==>
      var list := MatchesOf(matches, RouteOf(ev.httpMethod, ev.path).userId);
      && r.status == 200 && r.body.MatchList?
      && |r.body.items| == |list|
      && forall i :: 0 <= i < |list| ==> r.body.items[i] == Decorate(list[i], messages, queryFails)
  {
    match RouteOf(ev.httpMethod, ev.path)
    case Preflight => MatchesResponse(200, NoContent)
    case UserMatches(u) =>
      var list := MatchesOf(matches, u);
      MatchesResponse(200, MatchList(Seqs.Map(list, (m: Match) => Decorate(m, messages, queryFails))))
    case OneMatch(id) =>
      (match Table.Get(matches, id, MatchKey)
       case None => MatchesResponse(404, MatchNotFound)
       case Some(m) => MatchesResponse(200, Single(Decorate(m, messages, queryFails))))
    case NoRoute => MatchesResponse(404, NotFound(ev.httpMethod, ev.path))
  }
}

=== FILE: messages.dfy ===
/** The messages function (lambda_messages_handler.js): every request but
    a preflight carries a bearer token whose `sub` claim names the caller;
    a participant of a match may post to it and read its messages newest
    first, and only the receiver of a message may mark it read. */
module MessagesHandler {
  import opened Wrappers
  import opened Text
  import opened Chat
  import Seqs
  import Table

  /** The two spellings of the authorization header the function reads. */
  datatype Headers = Headers(authorization: Option<string>, authorizationLower: Option<string>)

  /** The parsed POST body of a message. `messageType` is `None` when the
      attribute is absent, which is the only case its default applies to. */
  datatype SendBody = SendBody(
    matchId: Option<string>,
    receiverId: Option<string>,
    content: Option<string>,
    messageType: Option<string>,
    superchatPoints: Option<int>)

  /** `JSON.parse(event.body)`: a syntax error, `null`, or an object. */
  datatype ParsedBody = Unparsable | NullBody | Parsed(fields: SendBody)

  /** `limit` is the result of `parseInt` on the query parameter, `None`
      for NaN or an absent parameter. */
  datatype MessagesEvent = MessagesEvent(
    httpMethod: Option<string>,
    path: string,
    headers: Option<Headers>,
    body: ParsedBody,
    limit: Option<int>)

  datatype MessagesStore = MessagesStore(matches: seq<Match>, messages: seq<Message>)

  /** A listed message and whether the caller sent it. */
  datatype Listed = Listed(message: Message, isFromCurrentUser: bool)

  datatype MessagesBody =
    | Preflight
    | AuthRequired
    | InvalidToken
    | NotFound
    | BadRequest
    | MatchNotFound
    | MessageNotFound
    | Forbidden
    | Failed
    | SentMessage(message: Message)
    | MessageList(messages: seq<Listed>)
    | Updated(message: Message)

  datatype MessagesResponse = MessagesResponse(status: int, body: MessagesBody)

  /** `authToken.startsWith('Bearer ') ? authToken.slice(7) : authToken`. */
  function StripBearer(h: string): (t: string)
    ensures StartsWith(h, "Bearer ") ==> h == "Bearer " + t
    ensures !StartsWith(h, "Bearer ") ==> t == h
  {
    if StartsWith(h, "Bearer ") then h[7..] else h
  }

  /** The prefix is removed once, whatever the token looks like. */
  lemma StripBearerOnce(t: string)
    ensures StripBearer("Bearer " + t) == t
  {
    assert ("Bearer " + t)[..7] == "Bearer ";
  }

  /** The authenticated caller: the `sub` claim of the bearer token, which
      `decode` reads without checking any signature. */
  function Caller(headers: Headers, decode: string -> Option<string>): (r: Option<string>)
    ensures r.Some? ==> r.value != ""
    ensures !Present(headers.authorization) && !Present(headers.authorizationLower) ==> r.None?
    ensures Present(headers.authorization) ==> r == (if Present(decode(StripBearer(headers.authorization.value))) then decode(StripBearer(headers.authorization.value)) else None)
    ensures !Present(headers.authorization) && Present(headers.authorizationLower) ==>
      r == (if Present(decode(StripBearer(headers.authorizationLower.value))) then decode(StripBearer(headers.authorizationLower.value)) else None)
  {
    var h := if Present(headers.authorization) then headers.authorization
             else headers.authorizationLower;
    if !Present(h) then None
    else
      var sub := decode(StripBearer(h.value));
      if Present(sub) then sub else None
  }

  /** The message item of `sendMessage`: the caller is the sender whatever
      the body says, and the points are kept only on a superchat. */
  function NewMessage(b: SendBody, caller: string, id: string, now: int): (m: Message)
    requires b.matchId.Some? && b.receiverId.Some? && b.content.Some?
    ensures m.senderId == caller && m.chatRoomId == b.matchId.value && m.receiverId == b.receiverId.value
    ensures m.content == b.content.value && m.status == "sent" && m.readAt.None?
    ensures m.createdAt == now && m.updatedAt == now
    ensures b.messageType.None? ==> m.messageType == "text"
    ensures b.messageType.Some? ==> m.messageType == b.messageType.value
    ensures m.superchatPoints.Some? <==>
      m.messageType == "superchat" && b.superchatPoints.Some? && b.superchatPoints.value != 0
  {
    var kind := b.messageType.GetOr("text");
    var points := if kind == "superchat" && b.superchatPoints.Some? && b.superchatPoints.value != 0
                  then b.superchatPoints else None;
    Message(id, b.matchId.value, caller, b.receiverId.value, b.content.value, kind, "sent", now, now, points, None)
  }

  /** The match after a message is posted to it: the conversation summary
      names the new message. */
  function WithLastMessage(m: Match, content: string, sender: string, now: int): (r: Match)
    ensures r.id == m.id && r.user1Id == m.user1Id && r.user2Id == m.user2Id
    ensures r.lastMessage == Some(content) && r.lastMessageSenderId == Some(sender)
    ensures r.lastMessageAt == now && r.updatedAt == Some(now)
    ensures r.createdAt == m.createdAt && r.status == m.status
  {
    m.(lastMessage := Some(content), lastMessageAt := now, lastMessageSenderId := Some(sender), updatedAt := Some(now))
  }

  /** The body names the match, the receiver and the content. */
  predicate Complete(b: SendBody) {
    Present(b.matchId) && Present(b.receiverId) && Present(b.content)
  }

  /** The match a complete body names, if it exists. */
  function TargetMatch(b: SendBody, store: MessagesStore): Option<Match>
    requires Complete(b)
  {
    Table.Get(store.matches, b.matchId.value, MatchKey)
  }

  /** The checks `sendMessage` makes before writing: a parsed, complete
      body naming an existing match the caller takes part in. */
  predicate MayPost(body: ParsedBody, caller: string, store: MessagesStore) {
    && body.Parsed?
    && Complete(body.fields)
    && TargetMatch(body.fields, store).Some?
    && IsParticipant(TargetMatch(body.fields, store).value, caller)
  }

  /** `sendMessage`: the message put comes before the match update, so a
      failing update leaves the message stored and answers 500. */
  function SendMessage(body: ParsedBody, caller: string, store: MessagesStore, id: string, now: int,
                       putFails: bool, updateFails: bool): (out: (MessagesResponse, MessagesStore))
    ensures !body.Parsed? ==> out == (MessagesResponse(500, Failed), store)
    ensures body.Parsed? && !Complete(body.fields) ==> out == (MessagesResponse(400, BadRequest), store)
    ensures body.Parsed? && Complete(body.fields) && TargetMatch(body.fields, store).None? ==>
      out == (MessagesResponse(404, MatchNotFound), store)
    ensures body.Parsed? && Complete(body.fields) && TargetMatch(body.fields, store).Some?
            && !IsParticipant(TargetMatch(body.fields, store).value, caller) ==>
      out == (MessagesResponse(403, Forbidden), store)
    ensures MayPost(body, caller, store) && putFails ==> out == (MessagesResponse(500, Failed), store)
    ensures MayPost(body, caller, store) && !putFails && updateFails ==>
      && out.0 == MessagesResponse(500, Failed)
      && out.1.matches == store.matches
      && Table.Get(out.1.messages, id, MessageKey) == Some(NewMessage(body.fields, caller, id, now))
    ensures MayPost(body, caller, store) && !putFails && !updateFails ==>
      && out.0 == MessagesResponse(201, SentMessage(NewMessage(body.fields, caller, id, now)))
      && Table.Get(out.1.messages, id, MessageKey) == Some(out.0.body.message)
      && forall k :: k != id ==> Table.Get(out.1.messages, k, MessageKey) == Table.Get(store.messages, k, MessageKey)
    ensures out.1.matches != store.matches || out.0.status == 201 ==>
      MayPost(body, caller, store) && !putFails && !updateFails && out.0.status == 201
  {
    if !body.Parsed? then (MessagesResponse(500, Failed), store)
    else
      var b := body.fields;
      if !Present(b.matchId) || !Present(b.receiverId) || !Present(b.content) then
        (MessagesResponse(400, BadRequest), store)
      else
        match Table.Get(store.matches, b.matchId.value, MatchKey)
        case None => (MessagesResponse(404, MatchNotFound), store)
        case Some(m) =>
          if !IsParticipant(m, caller) then (MessagesResponse(403, Forbidden), store)
          else if putFails then (MessagesResponse(500, Failed), store)
          else
            var msg := NewMessage(b, caller, id, now);
            var messages' := Table.Put(store.messages, msg, MessageKey);
            if updateFails then (MessagesResponse(500, Failed), store.(messages := messages'))
            else
              var matches' := Table.Put(store.matches, WithLastMessage(m, b.content.value, caller, now), MatchKey);
              (MessagesResponse(201, SentMessage(msg)), MessagesStore(matches', messages'))
  }

  /** Only a participant of the match can add a message to it, and the
      message is posted in the caller's name. */
  lemma OnlyParticipantsPost(body: ParsedBody, caller: string, store: MessagesStore, id: string, now: int,
                             putFails: bool, updateFails: bool)
    ensures var out := SendMessage(body, caller, store, id, now, putFails, updateFails);
      out.1 != store ==>
        && body.Parsed?
        && Present(body.fields.matchId)
        && Table.Get(store.matches, body.fields.matchId.value, MatchKey).Some?
        && IsParticipant(Table.Get(store.matches, body.fields.matchId.value, MatchKey).value, caller)
        && Table.Get(out.1.messages, id, MessageKey).Some?
        && Table.Get(out.1.messages, id, MessageKey).value.senderId == caller
  {
  }

  /** A successful post leaves the match summarising the new message, and
      no other match changes. */
  lemma PostUpdatesMatch(body: ParsedBody, caller: string, store: MessagesStore, id: string, now: int, k: string)
    requires SendMessage(body, caller, store, id, now, false, false).0.status == 201
    ensures var matches' := SendMessage(body, caller, store, id, now, false, false).1.matches;
      var matchId := body.fields.matchId.value;
      && Table.Get(matches', matchId, MatchKey).Some?
      && Table.Get(matches', matchId, MatchKey).value.lastMessage == body.fields.content
      && Table.Get(matches', matchId, MatchKey).value.lastMessageSenderId == Some(caller)
      && Table.Get(matches', matchId, MatchKey).value.lastMessageAt == now
      && (k != matchId ==> Table.Get(matches', k, MatchKey) == Table.Get(store.matches, k, MatchKey))
  {
  }

  /** `parseInt(limit) || 50`. */
  function EffectiveLimit(limit: Option<int>): (n: int)
    ensures limit.None? || limit == Some(0) ==> n == 50
    ensures limit.Some? && limit.value != 0 ==> n == limit.value
  {
    if limit.None? || limit.value == 0 then 50 else limit.value
  }

  /** How many messages the chat room holds. */
  function RoomSize(messages: seq<Message>, room: string): nat {
    |Seqs.Filter(messages, (msg: Message) => msg.chatRoomId == room)|
  }

  /** The newest `limit` messages of a chat room, newest first. */
  function RoomPage(messages: seq<Message>, room: string, limit: nat): (r: seq<Message>)
    ensures Seqs.SortedDesc(r, MessageCreatedAt)
    ensures forall msg :: msg in r ==> msg in messages && msg.chatRoomId == room
    ensures |r| == if limit <= RoomSize(messages, room) then limit else RoomSize(messages, room)
  {
    var p := (msg: Message) => msg.chatRoomId == room;
    var q := Seqs.SortDesc(Seqs.Filter(messages, p), MessageCreatedAt);
    Seqs.SortFilterMembers(messages, p, MessageCreatedAt);
    Seqs.TakeSorted(q, limit, MessageCreatedAt);
    Seqs.Take(q, limit)
  }

  /** A page leaves out only messages no newer than everything it shows. */
  lemma RoomPageIsNewest(messages: seq<Message>, room: string, limit: nat, msg: Message)
    requires msg in messages && msg.chatRoomId == room
    requires msg !in RoomPage(messages, room, limit)
    ensures forall shown :: shown in RoomPage(messages, room, limit) ==> shown.createdAt >= msg.createdAt
  {
    var p := (msg: Message) => msg.chatRoomId == room;
    var q := Seqs.SortDesc(Seqs.Filter(messages, p), MessageCreatedAt);
    Seqs.SortFilterMembers(messages, p, MessageCreatedAt);
    var page := Seqs.Take(q, limit);
    assert msg in q;
    var j :| 0 <= j < |q| && q[j] == msg;
    assert j >= |page|;
    forall shown | shown in page
      ensures shown.createdAt >= msg.createdAt
    {
      var i :| 0 <= i < |page| && page[i] == shown;
      assert q[i] == shown;
    }
  }

  /** `getMessages`: the id is the last piece of the path; the index query
      rejects a limit below one. */
  function GetMessages(path: string, limit: Option<int>, caller: string, store: MessagesStore): (r: MessagesResponse)
    ensures LastSegment(path, '/') == "" <==> r == MessagesResponse(400, BadRequest)
    ensures LastSegment(path, '/') != "" && Table.Get(store.matches, LastSegment(path, '/'), MatchKey).None? ==>
      r == MessagesResponse(404, MatchNotFound)
    ensures LastSegment(path, '/') != "" && Table.Get(store.matches, LastSegment(path, '/'), MatchKey).Some?
            && !IsParticipant(Table.Get(store.matches, LastSegment(path, '/'), MatchKey).value, caller) ==>
      r == MessagesResponse(403, Forbidden)
    ensures r.status == 200 <==>
      && LastSegment(path, '/') != ""
      && Table.Get(store.matches, LastSegment(path, '/'), MatchKey).Some?
      && IsParticipant(Table.Get(store.matches, LastSegment(path, '/'), MatchKey).value, caller)
      && EffectiveLimit(limit) >= 1
    ensures r.status == 200 ==>
      var room := LastSegment(path, '/');
      var page := RoomPage(store.messages, room, EffectiveLimit(limit));
      var inRoom := RoomSize(store.messages, room);
      && r.body.MessageList?
      && |r.body.messages| == |page|
      && |r.body.messages| == (if EffectiveLimit(limit) <= inRoom then EffectiveLimit(limit) else inRoom)
      && (forall i :: 0 <= i < |page| ==>
            r.body.messages[i] == Listed(page[i], page[i].senderId == caller))
      && (forall i, j :: 0 <= i < j < |page| ==>
            r.body.messages[i].message.createdAt >= r.body.messages[j].message.createdAt)
  {
    var room := LastSegment(path, '/');
    if room == "" then MessagesResponse(400, BadRequest)
    else
      match Table.Get(store.matches, room, MatchKey)
      case None => MessagesResponse(404, MatchNotFound)
      case Some(m) =>
        if !IsParticipant(m, caller) then MessagesResponse(403, Forbidden)
        else
          var n := EffectiveLimit(limit);
          if n < 1 then MessagesResponse(500, Failed)
          else
            var page := RoomPage(store.messages, room, n);
            var listed := Seqs.Map(page, (msg: Message) => Listed(msg, msg.senderId == caller));
            assert forall i :: 0 <= i < |listed| ==> listed[i].message == page[i] && page[i] in page;
            MessagesResponse(200, MessageList(listed))
  }

  /** The message after `updateMessage`: read, at `now`. */
  function MarkRead(m: Message, now: int): (r: Message)
    ensures r.status == "read" && r.readAt == Some(now) && r.updatedAt == now
    ensures r.(status := m.status, readAt := m.readAt, updatedAt := m.updatedAt) == m
  {
    m.(status := "read", readAt := Some(now), updatedAt := now)
  }

  /** `updateMessage`: the body is parsed, and may fail, before anything
      else is checked. */
  function UpdateMessage(path: string, body: ParsedBody, caller: string, messages: seq<Message>, now: int): (out: (MessagesResponse, seq<Message>))
    ensures body.Unparsable? ==> out == (MessagesResponse(500, Failed), messages)
    ensures !body.Unparsable? && LastSegment(path, '/') == "" ==> out == (MessagesResponse(400, BadRequest), messages)
    ensures !body.Unparsable? && LastSegment(path, '/') != "" && Table.Get(messages, LastSegment(path, '/'), MessageKey).None? ==>
      out == (MessagesResponse(404, MessageNotFound), messages)
    ensures !body.Unparsable? && LastSegment(path, '/') != "" && Table.Get(messages, LastSegment(path, '/'), MessageKey).Some?
            && Table.Get(messages, LastSegment(path, '/'), MessageKey).value.receiverId != caller ==>
      out == (MessagesResponse(403, Forbidden), messages)
    ensures !body.Unparsable? && LastSegment(path, '/') != "" && Table.Get(messages, LastSegment(path, '/'), MessageKey).Some?
            && Table.Get(messages, LastSegment(path, '/'), MessageKey).value.receiverId == caller ==>
      out.0.status == 200
    ensures out.1 != messages ==> out.0.status == 200
    ensures out.0.status == 200 ==>
      var id := LastSegment(path, '/');
      && Table.Get(messages, id, MessageKey).Some?
      && Table.Get(messages, id, MessageKey).value.receiverId == caller
      && out.0.body == Updated(MarkRead(Table.Get(messages, id, MessageKey).value, now))
      && Table.Get(out.1, id, MessageKey) == Some(out.0.body.message)
      && forall k :: k != id ==> Table.Get(out.1, k, MessageKey) == Table.Get(messages, k, MessageKey)
  {
    if body.Unparsable? then (MessagesResponse(500, Failed), messages)
    else
      var id := LastSegment(path, '/');
      if id == "" then (MessagesResponse(400, BadRequest), messages)
      else
        match Table.Get(messages, id, MessageKey)
        case None => (MessagesResponse(404, MessageNotFound), messages)
        case Some(m) =>
          if m.receiverId != caller then (MessagesResponse(403, Forbidden), messages)
          else
            var m' := MarkRead(m, now);
            (MessagesResponse(200, Updated(m')), Table.Put(messages, m', MessageKey))
  }

  /** Marking a message read twice gives the same table as marking it once
      at the later time. */
  lemma MarkReadTwice(path: string, body: ParsedBody, caller: string, messages: seq<Message>, t1: int, t2: int)
    ensures var once := UpdateMessage(path, body, caller, messages, t1).1;
      UpdateMessage(path, body, caller, once, t2).1 == UpdateMessage(path, body, caller, messages, t2).1
  {
    var id := LastSegment(path, '/');
    var once := UpdateMessage(path, body, caller, messages, t1).1;
    if UpdateMessage(path, body, caller, messages, t1).0.status == 200 {
      var m := Table.Get(messages, id, MessageKey).value;
      Table.PutPut(messages, MarkRead(m, t1), MarkRead(m, t2), MessageKey);
    }
  }

  datatype Route = Send | List | Read | NoRoute

  function RouteOf(verb: Option<string>, path: string): Route {
    if verb == Some("POST") && path == "/messages" then Send
    else if verb == Some("GET") && StartsWith(path, "/messages/match/") then List
    else if verb == Some("PUT") && StartsWith(path, "/messages/read/") then Read
    else NoRoute
  }

  /** `exports.handler`. `decode` reads the `sub` claim of a token, `id` is
      the generated message id. A missing `headers` object throws and is
      answered with 500. */
  function Handle(ev: MessagesEvent, decode: string -> Option<string>, store: MessagesStore, id: string, now: int,
                  putFails: bool, updateFails: bool): (out: (MessagesResponse, MessagesStore))
    ensures ev.httpMethod == Some("OPTIONS") ==> out == (MessagesResponse(200, Preflight), store)
    ensures ev.httpMethod != Some("OPTIONS") && ev.headers.Some? && Caller(ev.headers.value, decode).None? ==>
      out.0.status == 401 && out.1 == store
    ensures ev.httpMethod != Some("OPTIONS") && ev.headers.None? ==> out == (MessagesResponse(500, Failed), store)
    ensures ev.httpMethod != Some("OPTIONS") && ev.headers.Some? && Caller(ev.headers.value, decode).Some? ==>
      var caller := Caller(ev.headers.value, decode).value;
      var route := RouteOf(ev.httpMethod, ev.path);
      && (route == NoRoute ==> out == (MessagesResponse(404, NotFound), store))
      && (route == Send ==> out == SendMessage(ev.body, caller, store, id, now, putFails, updateFails))
      && (route == List ==> out == (GetMessages(ev.path, ev.limit, caller, store), store))
      && (route == Read ==>
            && out.0 == UpdateMessage(ev.path, ev.body, caller, store.messages, now).0
            && out.1 == store.(messages := UpdateMessage(ev.path, ev.body, caller, store.messages, now).1))
    ensures out.1 != store ==>
      && ev.headers.Some?
      && Caller(ev.headers.value, decode).Some?
      && ((RouteOf(ev.httpMethod, ev.path) == Send && (out.0.status == 201 || out.1.matches == store.matches))
          || (RouteOf(ev.httpMethod, ev.path) == Read && out.0.status == 200 && out.1.matches == store.matches))
  {
    if ev.httpMethod == Some("OPTIONS") then (MessagesResponse(200, Preflight), store)
    else if ev.headers.None? then (MessagesResponse(500, Failed), store)
    else
      var hs := ev.headers.value;
      if !Present(hs.authorization) && !Present(hs.authorizationLower) then (MessagesResponse(401, AuthRequired), store)
      else
        match Caller(hs, decode)
        case None => (MessagesResponse(401, InvalidToken), store)
        case Some(caller) =>
          match RouteOf(ev.httpMethod, ev.path)
          case Send => SendMessage(ev.body, caller, store, id, now, putFails, updateFails)
          case List => (GetMessages(ev.path, ev.limit, caller, store), store)
          case Read =>
            var (resp, messages') := UpdateMessage(ev.path, ev.body, caller, store.messages, now);
            (resp, store.(messages := messages'))
          case NoRoute => (MessagesResponse(404, NotFound), store)
  }

  /** The last piece of `/messages/{kind}/{x}` is `x`. */
  lemma LastPiece(kind: string, x: string)
    requires '/' !in kind && '/' !in x
    ensures LastSegment("/messages/" + kind + "/" + x, '/') == x
  {
    assert "/messages/" + kind + "/" + x == ['/'] + "messages" + ['/'] + kind + ['/'] + x;
    SplitFour("messages", kind, x, '/');
  }

  /** `GET /messages/match/{room}` is the list route, for that room. */
  lemma ListPath(room: string)
    requires '/' !in room
    ensures RouteOf(Some("GET"), "/messages/match/" + room) == List
    ensures LastSegment("/messages/match/" + room, '/') == room
  {
    assert "/messages/match/" + room == "/messages/" + "match" + "/" + room;
    LastPiece("match", room);
    assert StartsWith("/messages/match/" + room, "/messages/match/");
  }

  /** `PUT /messages/read/{id}` is the read route, for that message. */
  lemma ReadPath(mid: string)
    requires '/' !in mid
    ensures RouteOf(Some("PUT"), "/messages/read/" + mid) == Read
    ensures LastSegment("/messages/read/" + mid, '/') == mid
  {
    assert "/messages/read/" + mid == "/messages/" + "read" + "/" + mid;
    LastPiece("read", mid);
    assert StartsWith("/messages/read/" + mid, "/messages/read/");
  }

  /** `GET /messages/match/{room}` by a participant of the match pages
      that room: its newest messages, newest first, each marked with
      whether the caller sent it. */
  lemma ListRouteAnswersRoom(ev: MessagesEvent, decode: string -> Option<string>, store: MessagesStore, id: string,
                             now: int, putFails: bool, updateFails: bool, room: string)
    requires ev.httpMethod == Some("GET") && ev.path == "/messages/match/" + room
    requires room != "" && '/' !in room
    requires ev.headers.Some? && Caller(ev.headers.value, decode).Some?
    requires Table.Get(store.matches, room, MatchKey).Some?
    requires IsParticipant(Table.Get(store.matches, room, MatchKey).value, Caller(ev.headers.value, decode).value)
    requires ev.limit.None?
    ensures var out := Handle(ev, decode, store, id, now, putFails, updateFails);
      var page := RoomPage(store.messages, room, 50);
      && out.1 == store
      && out.0.status == 200
      && |out.0.body.messages| == |page|
      && forall i :: 0 <= i < |page| ==> out.0.body.messages[i].message == page[i]
  {
    ListPath(room);
    assert EffectiveLimit(ev.limit) == 50;
  }

  /** `PUT /messages/read/{id}` by the message's receiver marks exactly
      that message read and leaves the matches alone. */
  lemma ReadRouteMarksMessage(ev: MessagesEvent, decode: string -> Option<string>, store: MessagesStore, id: string,
                              now: int, putFails: bool, updateFails: bool, mid: string, k: string)
    requires ev.httpMethod == Some("PUT") && ev.path == "/messages/read/" + mid
    requires mid != "" && '/' !in mid && !ev.body.Unparsable?
    requires ev.headers.Some? && Caller(ev.headers.value, decode).Some?
    requires Table.Get(store.messages, mid, MessageKey).Some?
    requires Table.Get(store.messages, mid, MessageKey).value.receiverId == Caller(ev.headers.value, decode).value
    ensures var out := Handle(ev, decode, store, id, now, putFails, updateFails);
      && out.0.status == 200
      && out.1.matches == store.matches
      && Table.Get(out.1.messages, mid, MessageKey) == Some(MarkRead(Table.Get(store.messages, mid, MessageKey).value, now))
      && (k != mid ==> Table.Get(out.1.messages, k, MessageKey) == Table.Get(store.messages, k, MessageKey))
  {
    ReadPath(mid);
  }
}

=== FILE: notifications.dfy ===
/** The notifications function (lambda_notifications_dynamodb.js): a
    user's latest fifty notifications, the count of unread ones, the recent
    ones for polling, and marking one or all of them read. Lists come from
    the `notificationsByUserId` index, newest first; a query's `Limit` is
    applied before its `FilterExpression`. */
module Notifications {
  import opened Wrappers
  import opened Text
  import Seqs
  import Table

  datatype Notification = Notification(
    id: string,
    userId: string,
    fromUserId: Option<string>,
    kind: string,
    message: string,
    isRead: bool,
    createdAt: int,
    updatedAt: Option<int>)

  function NotificationKey(n: Notification): string { n.id }

  function NotificationCreatedAt(n: Notification): int { n.createdAt }

  /** The key condition `userId = :userId`. */
  function OwnedBy(user: string): Notification -> bool {
    (n: Notification) => n.userId == user
  }

  /** The key condition together with the filter `isRead = false`. */
  function UnreadOf(user: string): Notification -> bool {
    (n: Notification) => n.userId == user && !n.isRead
  }

  /** The filter `createdAt > :since`. */
  function NewerThan(since: int): Notification -> bool {
    (n: Notification) => n.createdAt > since
  }

  /** The user's notifications, newest first, as the index returns them. */
  function ByUser(ns: seq<Notification>, user: string): (r: seq<Notification>)
    ensures Seqs.SortedDesc(r, NotificationCreatedAt)
    ensures forall n :: n in r <==> n in ns && n.userId == user
  {
    Seqs.SortFilterMembers(ns, OwnedBy(user), NotificationCreatedAt);
    Seqs.SortDesc(Seqs.Filter(ns, OwnedBy(user)), NotificationCreatedAt)
  }

  /** `getUserNotifications`: `Limit: 50`. */
  function UserNotifications(ns: seq<Notification>, user: string): (r: seq<Notification>)
    ensures |r| <= 50
    ensures Seqs.SortedDesc(r, NotificationCreatedAt)
    ensures forall n :: n in r ==> n in ns && n.userId == user
    ensures |r| < 50 ==> forall n :: n in ns && n.userId == user ==> n in r
  {
    var all := ByUser(ns, user);
    Seqs.TakeSorted(all, 50, NotificationCreatedAt);
    Seqs.Take(all, 50)
  }

  /** `getUnreadNotificationCount`: the `Count` of a `Select: 'COUNT'` query. */
  function UnreadCount(ns: seq<Notification>, user: string): (c: nat)
    ensures c <= |ns|
  {
    |Seqs.Filter(ns, UnreadOf(user))|
  }

  /** The count is zero exactly when the user has nothing unread. */
  lemma UnreadCountZero(ns: seq<Notification>, user: string)
    ensures UnreadCount(ns, user) == 0 <==> forall n :: n in ns ==> !(n.userId == user && !n.isRead)
  {
    Seqs.FilterExact(ns, UnreadOf(user));
    var f := Seqs.Filter(ns, UnreadOf(user));
    if |f| > 0 {
      assert f[0] in f;
    }
  }

  /** `getRecentNotifications`: twenty notifications are read, newest first,
      and only then are those not newer than `since` dropped. `since` is
      `None` when the parameter is absent or empty. */
  function Recent(ns: seq<Notification>, user: string, since: Option<int>): (r: seq<Notification>)
    ensures |r| <= 20
    ensures forall n :: n in r ==> n in ns && n.userId == user
    ensures since.Some? ==> forall n :: n in r ==> n.createdAt > since.value
  {
    var page := Seqs.Take(ByUser(ns, user), 20);
    if since.None? then page
    else
      Seqs.FilterExact(page, NewerThan(since.value));
      Seqs.Filter(page, NewerThan(since.value))
  }

  /** Because the index is read newest first, filtering after the limit
      loses nothing: the result is the newest twenty of the user's
      notifications newer than `since`. */
  lemma RecentIsNewestNewer(ns: seq<Notification>, user: string, since: int)
    ensures Recent(ns, user, Some(since)) == Seqs.Take(Seqs.Filter(ByUser(ns, user), NewerThan(since)), 20)
  {
    var all := ByUser(ns, user);
    Seqs.NewerIsPrefix(all, NotificationCreatedAt, since);
    assert Seqs.PrefixClosed(all, NewerThan(since)) by {
      forall i, j | 0 <= i < j < |all| && NewerThan(since)(all[j])
        ensures NewerThan(since)(all[i])
      {
        assert all[j].createdAt > since;
      }
    }
    Seqs.FilterTakeCommute(all, 20, NewerThan(since));
  }

  /** A notification of the user newer than `since` is left out of the
      recent list only when the list is full. */
  lemma RecentMissesOnlyWhenFull(ns: seq<Notification>, user: string, since: int, n: Notification)
    requires n in ns && n.userId == user && n.createdAt > since
    requires n !in Recent(ns, user, Some(since))
    ensures |Recent(ns, user, Some(since))| == 20
  {
    RecentIsNewestNewer(ns, user, since);
    var newer := Seqs.Filter(ByUser(ns, user), NewerThan(since));
    Seqs.FilterExact(ByUser(ns, user), NewerThan(since));
    assert n in newer;
  }

  /** A notification after it is marked read at `now`. */
  function Read(n: Notification, now: int): (r: Notification)
    ensures r.isRead && r.updatedAt == Some(now)
    ensures r.(isRead := n.isRead, updatedAt := n.updatedAt) == n
  {
    n.(isRead := true, updatedAt := Some(now))
  }

  /** The parsed request body: absent or unparsable (both read as `{}`),
      the JSON literal `null`, an object with an optional string `userId`,
      or an object whose `userId` is there but is not a string (`null`, a
      number, a boolean, an array or an object). */
  datatype RequestBody = Missing | Invalid | JsonNull | Object(userId: Option<string>) | OtherUserValue

  datatype NotificationsBody =
    | NoContent
    | NotSupported
    | ServerError
    | Forbidden
    | List(items: seq<Notification>)
    | Count(unreadCount: nat)
    | MarkedOne(notificationId: string)
    | MarkedAll(updatedCount: nat)

  datatype NotificationsResponse = NotificationsResponse(status: int, body: NotificationsBody)

  /** `markNotificationAsRead`: an update conditioned on the owner. An
      undefined `userId` makes the document client throw (500); a missing
      item or another owner fails the condition (403). */
  function MarkOne(ns: seq<Notification>, id: string, user: Option<string>, now: int): (out: (NotificationsResponse, seq<Notification>))
    ensures out.1 != ns ==> out.0.status == 200
    ensures user.None? ==> out == (NotificationsResponse(500, ServerError), ns)
    ensures user.Some? ==>
      (out.0.status == 200 <==>
         Table.Get(ns, id, NotificationKey).Some? && Table.Get(ns, id, NotificationKey).value.userId == user.value)
    ensures user.Some? && out.0.status != 200 ==> out == (NotificationsResponse(403, Forbidden), ns)
    ensures out.0.status == 200 ==>
      && Table.Get(out.1, id, NotificationKey) == Some(Read(Table.Get(ns, id, NotificationKey).value, now))
      && forall k :: k != id ==> Table.Get(out.1, k, NotificationKey) == Table.Get(ns, k, NotificationKey)
  {
    if user.None? then (NotificationsResponse(500, ServerError), ns)
    else
      match Table.Get(ns, id, NotificationKey)
      case None => (NotificationsResponse(403, Forbidden), ns)
      case Some(n) =>
        if n.userId != user.value then (NotificationsResponse(403, Forbidden), ns)
        else (NotificationsResponse(200, MarkedOne(id)), Table.Put(ns, Read(n, now), NotificationKey))
  }

  /** Marking a notification read twice leaves the table as marking it once
      at the later time. */
  lemma MarkOneTwice(ns: seq<Notification>, id: string, user: Option<string>, t1: int, t2: int)
    ensures MarkOne(MarkOne(ns, id, user, t1).1, id, user, t2).1 == MarkOne(ns, id, user, t2).1
  {
    if MarkOne(ns, id, user, t1).0.status == 200 {
      var n := Table.Get(ns, id, NotificationKey).value;
      Table.PutPut(ns, Read(n, t1), Read(n, t2), NotificationKey);
    }
  }

  /** `markAllNotificationsAsRead` for a defined `userId`: every unread
      notification of the user is updated, and their number reported. */
  method MarkAll(ns: seq<Notification>, user: string, now: int) returns (ns': seq<Notification>, updatedCount: nat)
    ensures |ns'| == |ns|
    ensures updatedCount == UnreadCount(ns, user)
    ensures forall i :: 0 <= i < |ns| ==>
      ns'[i] == if ns[i].userId == user && !ns[i].isRead then Read(ns[i], now) else ns[i]
    ensures UnreadCount(ns', user) == 0
  {
    ns' := [];
    updatedCount := 0;
    var i := 0;
    while i < |ns|
      invariant 0 <= i <= |ns|
      invariant |ns'| == i
      invariant forall j :: 0 <= j < i ==>
        ns'[j] == if ns[j].userId == user && !ns[j].isRead then Read(ns[j], now) else ns[j]
      invariant updatedCount == UnreadCount(ns[..i], user)
    {
      Seqs.FilterAppend(ns[..i], [ns[i]], UnreadOf(user));
      assert ns[..i + 1] == ns[..i] + [ns[i]];
      if ns[i].userId == user && !ns[i].isRead {
        ns' := ns' + [Read(ns[i], now)];
        updatedCount := updatedCount + 1;
      } else {
        ns' := ns' + [ns[i]];
      }
      i := i + 1;
    }
    assert ns[..i] == ns;
    assert forall j :: 0 <= j < |ns'| ==> !UnreadOf(user)(ns'[j]);
    Seqs.AllOrNone(ns', UnreadOf(user));
  }

  /** The three places the method may come from, and the path parameters,
      resource template and query the router reads. */
  datatype NotificationsEvent = NotificationsEvent(
    httpMethod: Option<string>,
    contextMethod: Option<string>,
    contextHttpMethod: Option<string>,
    userId: Option<string>,
    notificationId: Option<string>,
    resource: Option<string>,
    since: Option<int>,
    body: RequestBody)

  /** The first truthy of the three method fields, else "GET". */
  function Verb(ev: NotificationsEvent): string {
    if Present(ev.httpMethod) then ev.httpMethod.value
    else if Present(ev.contextMethod) then ev.contextMethod.value
    else if Present(ev.contextHttpMethod) then ev.contextHttpMethod.value
    else "GET"
  }

  datatype Route =
    | Preflight
    | UnreadCountOf(user: string)
    | RecentOf(user: string)
    | ListOf(user: string)
    | MarkOneRead(id: string)
    | MarkAllRead
    | NoRoute

  predicate ResourceHas(ev: NotificationsEvent, marker: string) {
    Present(ev.resource) && Contains(ev.resource.value, marker)
  }

  function RouteOf(ev: NotificationsEvent): Route {
    var verb := Verb(ev);
    if verb == "OPTIONS" then Preflight
    else if verb == "GET" then
      if !Present(ev.userId) then NoRoute
      else if ResourceHas(ev, "/unread-count/") then UnreadCountOf(ev.userId.value)
      else if ResourceHas(ev, "/recent/") then RecentOf(ev.userId.value)
      else ListOf(ev.userId.value)
    else if verb == "PUT" then
      if Present(ev.notificationId) && ResourceHas(ev, "/read") then MarkOneRead(ev.notificationId.value)
      else if ResourceHas(ev, "/read-all") then MarkAllRead
      else NoRoute
    else NoRoute
  }

  /** "/read-all" contains "/read", so a read-all request that also carries
      a notification id marks only that one notification, and the read-all
      route is taken only without an id. */
  lemma ReadAllWithIdMarksOne(ev: NotificationsEvent)
    requires Verb(ev) == "PUT" && ResourceHas(ev, "/read-all")
    ensures Present(ev.notificationId) ==> RouteOf(ev) == MarkOneRead(ev.notificationId.value)
    ensures !Present(ev.notificationId) ==> RouteOf(ev) == MarkAllRead
  {
    var r := ev.resource.value;
    ContainsAt(r, "/read-all");
    var j :| 0 <= j <= |r| && OccursAt(r, "/read-all", j);
    assert r[j..j + 5] == "/read-all"[..5];
    assert OccursAt(r, "/read", j);
    ContainsAt(r, "/read");
  }

  /** The user id a read request names; `None` when it is undefined, which
      the document client refuses, or not a string, which the read-all
      query on the string index key refuses. */
  function BodyUser(b: RequestBody): Option<string> {
    match b
    case Object(u) => u
    case _ => None
  }

  /** `exports.handler`: the response and the table afterwards. */
  method Handle(ev: NotificationsEvent, ns: seq<Notification>, now: int) returns (resp: NotificationsResponse, ns': seq<Notification>)
    ensures RouteOf(ev) == NoRoute <==> resp == NotificationsResponse(404, NotSupported)
    ensures ns' != ns ==> RouteOf(ev).MarkOneRead? || RouteOf(ev) == MarkAllRead
    ensures RouteOf(ev).UnreadCountOf? ==> resp == NotificationsResponse(200, Count(UnreadCount(ns, RouteOf(ev).user)))
    ensures RouteOf(ev).RecentOf? ==> resp == NotificationsResponse(200, List(Recent(ns, RouteOf(ev).user, ev.since)))
    ensures RouteOf(ev).ListOf? ==> resp == NotificationsResponse(200, List(UserNotifications(ns, RouteOf(ev).user)))
    ensures RouteOf(ev) == MarkAllRead && resp.status == 200 ==>
      BodyUser(ev.body).Some? && UnreadCount(ns', BodyUser(ev.body).value) == 0
      && resp.body == MarkedAll(UnreadCount(ns, BodyUser(ev.body).value))
    ensures RouteOf(ev) == MarkAllRead ==> (resp.status == 200 <==> BodyUser(ev.body).Some?)
    ensures RouteOf(ev) == MarkAllRead && BodyUser(ev.body).None? ==>
      resp == NotificationsResponse(500, ServerError) && ns' == ns
    ensures RouteOf(ev).MarkOneRead? && ev.body.JsonNull? ==>
      resp == NotificationsResponse(500, ServerError) && ns' == ns
    ensures RouteOf(ev).MarkOneRead? && ev.body.OtherUserValue? ==>
      resp == NotificationsResponse(403, Forbidden) && ns' == ns
    ensures RouteOf(ev).MarkOneRead? && !ev.body.JsonNull? && !ev.body.OtherUserValue? ==>
      (resp, ns') == MarkOne(ns, RouteOf(ev).id, BodyUser(ev.body), now)
  {
    ns' := ns;
    match RouteOf(ev)
    case Preflight => resp := NotificationsResponse(200, NoContent);
    case UnreadCountOf(u) => resp := NotificationsResponse(200, Count(UnreadCount(ns, u)));
    case RecentOf(u) => resp := NotificationsResponse(200, List(Recent(ns, u, ev.since)));
    case ListOf(u) => resp := NotificationsResponse(200, List(UserNotifications(ns, u)));
    case MarkOneRead(id) =>
      if ev.body.JsonNull? {
        resp := NotificationsResponse(500, ServerError);
      } else if ev.body.OtherUserValue? {
        // The stored owner is a string, so the condition cannot hold.
        resp := NotificationsResponse(403, Forbidden);
      } else {
        var out := MarkOne(ns, id, BodyUser(ev.body), now);
        resp, ns' := out.0, out.1;
      }
    case MarkAllRead =>
      match BodyUser(ev.body) {
        case None => resp := NotificationsResponse(500, ServerError);
        case Some(u) =>
          var count;
          ns', count := MarkAll(ns, u, now);
          resp := NotificationsResponse(200, MarkedAll(count));
      }
    case NoRoute => resp := NotificationsResponse(404, NotSupported);
  }
}

=== FILE: profile.dfy ===
/** The profile function (lambda_profile_handler.js): GET discovers other
    users' profiles or looks one profile up by id or by user id, POST
    builds a profile from whatever the request carries and puts it by id.
    Profiles are stored as JSON objects keyed by their "id" property. */
module ProfileHandler {
  import opened Wrappers
  import opened Text
  import opened Json
  import Seqs
  import Table

  /** The parts of an API Gateway event the function reads. Every string
      property may be absent; `own` holds the event's other top-level
      properties, which a caller may have used to pass the profile itself. */
  datatype ProfileEvent = ProfileEvent(
    httpMethod: Option<string>,
    contextMethod: Option<string>,
    contextHttpMethod: Option<string>,
    methodOverride: Option<string>,
    routeKey: Option<string>,
    path: Option<string>,
    rawPath: Option<string>,
    contextPath: Option<string>,
    resource: Option<string>,
    currentUserId: Option<string>,
    gender: Option<string>,
    limit: Option<string>,
    pathUserId: Option<string>,
    pathId: Option<string>,
    body: Option<Json>,
    own: map<string, Json>)

  /** The first truthy of two optional strings, as `a || b` reads them. */
  function OrStr(a: Option<string>, b: Option<string>): (r: Option<string>)
    ensures Present(r) <==> Present(a) || Present(b)
    ensures Present(a) ==> r == a
  {
    if Present(a) then a else b
  }

  /** The request method: the REST field, the two request-context fields,
      the override header, then the first word of the HTTP API route key. */
  function MethodOf(ev: ProfileEvent): (r: Option<string>)
    ensures Present(ev.httpMethod) ==> r == ev.httpMethod
    ensures !Present(ev.httpMethod) && Present(ev.contextMethod) ==> r == ev.contextMethod
    ensures !Present(ev.httpMethod) && !Present(ev.contextMethod) && Present(ev.contextHttpMethod) ==>
      r == ev.contextHttpMethod
    ensures !Present(ev.httpMethod) && !Present(ev.contextMethod) && !Present(ev.contextHttpMethod) && Present(ev.methodOverride) ==>
      r == ev.methodOverride
    ensures !Present(ev.httpMethod) && !Present(ev.contextMethod) && !Present(ev.contextHttpMethod) && !Present(ev.methodOverride) ==>
      (Present(ev.routeKey) ==> r == Some(Split(ev.routeKey.value, ' ')[0]))
    ensures r.None? <==> (!Present(ev.httpMethod) && !Present(ev.contextMethod)
      && !Present(ev.contextHttpMethod) && !Present(ev.methodOverride) && !Present(ev.routeKey))
  {
    var fromKey := if Present(ev.routeKey) then Some(Split(ev.routeKey.value, ' ')[0]) else None;
    OrStr(ev.httpMethod, OrStr(ev.contextMethod, OrStr(ev.contextHttpMethod, OrStr(ev.methodOverride, fromKey))))
  }

  /** An HTTP API event carries only a route key such as "GET /profiles/{userId}";
      its first word is the method. */
  lemma RouteKeyGivesMethod(ev: ProfileEvent, verb: string, route: string)
    requires ' ' !in verb && verb != ""
    requires !Present(ev.httpMethod) && !Present(ev.contextMethod)
    requires !Present(ev.contextHttpMethod) && !Present(ev.methodOverride)
    requires ev.routeKey == Some(verb + " " + route)
    ensures MethodOf(ev) == Some(verb)
  {
    assert verb + " " + route == verb + [' '] + route;
    SplitAppend(verb, ' ', route);
    SplitNoSep(verb, ' ');
  }

  // ---------------------------------------------------------------- discover

  /** The request path: `path`, `rawPath` or the request context's path. */
  function RequestPath(ev: ProfileEvent): string {
    OrStr(ev.path, OrStr(ev.rawPath, ev.contextPath)).GetOr("")
  }

  predicate IsDiscover(ev: ProfileEvent) {
    Contains(ev.resource.GetOr(""), "/discover") || Contains(RequestPath(ev), "/discover")
  }

  /** `parseInt(limit) || 20`: a missing, unreadable or zero limit is 20. */
  function DiscoverLimit(limit: Option<string>): (r: int)
    ensures r != 0
    ensures limit.None? ==> r == 20
    ensures limit.Some? && ParseInt(limit.value).None? ==> r == 20
    ensures limit.Some? && ParseInt(limit.value) == Some(0) ==> r == 20
    ensures limit.Some? && ParseInt(limit.value).Some? && ParseInt(limit.value).value != 0 ==>
      r == ParseInt(limit.value).value
  {
    match limit
    case None => 20
    case Some(s) =>
      match ParseInt(s)
      case None => 20
      case Some(n) => if n == 0 then 20 else n
  }

  /** `s.slice(0, limit)`: a negative limit counts back from the end. */
  function Slice<T>(s: seq<T>, limit: int): (r: seq<T>)
    ensures |r| == if limit >= 0 then (if limit < |s| then limit else |s|)
                   else (if |s| + limit > 0 then |s| + limit else 0)
    ensures r == s[..|r|]
  {
    if limit >= 0 then Seqs.Take(s, limit)
    else if |s| + limit > 0 then s[..|s| + limit]
    else []
  }

  function AsJson(o: Option<string>): Option<Json> {
    match o
    case None => None
    case Some(s) => Some(JStr(s))
  }

  /** `p.id !== currentUserId && p.userId !== currentUserId`. */
  predicate NotCurrent(cur: Option<string>, p: Json) {
    Field(p, "id") != AsJson(cur) && Field(p, "userId") != AsJson(cur)
  }

  function NotCurrentOf(cur: Option<string>): Json -> bool {
    (p: Json) => NotCurrent(cur, p)
  }

  function GenderIs(g: string): Json -> bool {
    (p: Json) => Field(p, "gender") == Some(JStr(g))
  }

  /** A profile the discovery list may show: not the caller's, and of the
      requested gender when one is given. */
  predicate Eligible(p: Json, cur: Option<string>, gender: Option<string>) {
    NotCurrent(cur, p) && (Present(gender) ==> Field(p, "gender") == Some(JStr(gender.value)))
  }

  /** The eligible profiles before the limit, in scan order. */
  function Candidates(store: seq<Json>, cur: Option<string>, gender: Option<string>): seq<Json> {
    var others := Seqs.Filter(store, NotCurrentOf(cur));
    if Present(gender) then Seqs.Filter(others, GenderIs(gender.value)) else others
  }

  /** The discovery list: every scanned profile, the caller's own removed,
      filtered by gender, cut to the limit. */
  function Discover(store: seq<Json>, cur: Option<string>, gender: Option<string>, limit: int): (r: seq<Json>)
    ensures limit > 0 ==> |r| <= limit
    ensures |r| <= |Candidates(store, cur, gender)| && r == Candidates(store, cur, gender)[..|r|]
    ensures limit >= 0 ==>
      |r| == if limit < |Candidates(store, cur, gender)| then limit else |Candidates(store, cur, gender)|
    ensures limit < 0 ==>
      |r| == if |Candidates(store, cur, gender)| + limit > 0 then |Candidates(store, cur, gender)| + limit else 0
  {
    Slice(Candidates(store, cur, gender), limit)
  }

  /** The list holds only eligible stored profiles, and when it is shorter
      than a positive limit it holds all of them. */
  lemma DiscoverMembers(store: seq<Json>, cur: Option<string>, gender: Option<string>, limit: int, p: Json)
    ensures p in Discover(store, cur, gender, limit) ==> p in store && Eligible(p, cur, gender)
    ensures limit > 0 && |Discover(store, cur, gender, limit)| < limit && p in store && Eligible(p, cur, gender) ==>
      p in Discover(store, cur, gender, limit)
  {
    var others := Seqs.Filter(store, NotCurrentOf(cur));
    Seqs.FilterExact(store, NotCurrentOf(cur));
    if Present(gender) {
      Seqs.FilterExact(others, GenderIs(gender.value));
    }
    var c := Candidates(store, cur, gender);
    assert forall q :: q in c <==> q in store && Eligible(q, cur, gender);
    var r := Discover(store, cur, gender, limit);
    if p in r {
      assert p in c;
    }
  }

  /** Without a `currentUserId` the filter compares with `undefined`, so
      profiles stored without a `userId` are never discovered. */
  lemma AnonymousDiscoverNeedsUserId(store: seq<Json>, gender: Option<string>, limit: int, p: Json)
    requires p in Discover(store, None, gender, limit)
    ensures Field(p, "userId").Some?
  {
    DiscoverMembers(store, None, gender, limit, p);
  }

  /** `?limit=0` is falsy after `parseInt`, so it means the default 20. */
  lemma ZeroLimitIsDefault()
    ensures DiscoverLimit(Some("0")) == 20
  {
    ParseIntPrefix(0, "");
    assert IntToString(0) + "" == "0";
  }

  /** `parseInt` skips any run of ECMAScript white space before the
      digits, the vertical tab and the no-break space among it:
      `?limit=%0B%C2%A05` shows five profiles. */
  lemma SpacedLimitIsRead(w: string, n: int)
    requires forall i :: 0 <= i < |w| ==> IsSpace(w[i])
    requires n != 0
    ensures DiscoverLimit(Some(w + IntToString(n))) == n
  {
    var r := IntToString(n);
    RenderingHasNoSpace(n);
    TrimSpaces(w, r);
    ParseIntAfterSpace(w + r, r);
    ParseIntPrefix(n, "");
    assert r + "" == r;
  }

  /** Trimming drops a run of white space and stops at the first other
      character. */
  lemma {:induction false} TrimSpaces(w: string, t: string)
    requires forall i :: 0 <= i < |w| ==> IsSpace(w[i])
    requires |t| > 0 ==> !IsSpace(t[0])
    ensures TrimStart(w + t) == t
  {
    if w == [] {
      assert w + t == t;
    } else {
      assert (w + t)[1..] == w[1..] + t;
      TrimSpaces(w[1..], t);
    }
  }

  /** `parseInt` reads only what follows the leading white space. */
  lemma ParseIntAfterSpace(s: string, t: string)
    requires TrimStart(s) == TrimStart(t)
    ensures ParseInt(s) == ParseInt(t)
  {
  }

  /** `?limit=0x` followed by hexadecimal digits is read in base 16, as
      `parseInt` with no radix does: `?limit=0x5` shows five profiles. */
  lemma HexLimitIsRead(h: string)
    requires h != "" && AllHexDigits(h) && HexValue(h) != 0
    ensures DiscoverLimit(Some("0x" + h)) == HexValue(h)
  {
    ParseIntHex(false, 'x', h, "");
    assert SignText(false) + HexText('x', h, "") == "0x" + h;
  }

  /** `?limit=-n` keeps all but the last `n` eligible profiles. */
  lemma NegativeLimitDropsTail(store: seq<Json>, cur: Option<string>, gender: Option<string>, n: nat)
    requires n > 0
    ensures var c := Candidates(store, cur, gender);
      var r := Discover(store, cur, gender, DiscoverLimit(Some("-" + NatToString(n))));
      |r| == (if |c| > n then |c| - n else 0) && r == c[..|r|]
  {
    var m: int := -(n as int);
    ParseIntPrefix(m, "");
    assert IntToString(m) + "" == "-" + NatToString(n);
  }

  // ---------------------------------------------------------------- lookup

  function IdOf(p: Json): Option<Json> {
    Field(p, "id")
  }

  /** `item.id === userId || item.userId === userId`. */
  predicate IsUser(p: Json, u: string) {
    Field(p, "id") == Some(JStr(u)) || Field(p, "userId") == Some(JStr(u))
  }

  /** The full-scan loop: the first item belonging to `u`. */
  function FirstOfUser(s: seq<Json>, u: string): (r: Option<Json>)
    ensures r.None? <==> forall p :: p in s ==> !IsUser(p, u)
    ensures r.Some? ==> r.value in s && IsUser(r.value, u)
    ensures |s| > 0 && IsUser(s[0], u) ==> r == Some(s[0])
  {
    if |s| == 0 then None
    else if IsUser(s[0], u) then Some(s[0])
    else
      var r := FirstOfUser(s[1..], u);
      assert forall p :: p in s ==> p == s[0] || p in s[1..];
      r
  }

  /** Which of the three reads found the profile; each has its own message. */
  datatype FoundBy = IdLookup | UserIdScan | FullScan

  /** The lookup chain: a `GetCommand` on the key; then a `userId` scan
      with `Limit: 1`, which reads one item and only then filters, so it
      finds the profile only when it is the first item of the table; then
      a full scan. */
  function Lookup(store: seq<Json>, u: string): (r: Option<(FoundBy, Json)>)
    ensures r.None? <==> forall p :: p in store ==> !IsUser(p, u)
    ensures r.Some? ==> r.value.1 in store && IsUser(r.value.1, u)
    ensures r.Some? && r.value.0 == IdLookup ==> IdOf(r.value.1) == Some(JStr(u))
    ensures r.Some? && r.value.0 == UserIdScan ==> r.value.1 == store[0]
    ensures (exists p :: p in store && IdOf(p) == Some(JStr(u))) ==> r.Some? && r.value.0 == IdLookup
  {
    match Table.Get(store, Some(JStr(u)), IdOf)
    case Some(p) => Some((IdLookup, p))
    case None =>
      assert forall p :: p in store ==> IdOf(p) != Some(JStr(u)) by {
        forall p | p in store ensures IdOf(p) != Some(JStr(u)) {
          var i :| 0 <= i < |store| && store[i] == p;
        }
      }
      if |store| > 0 && Field(store[0], "userId") == Some(JStr(u)) then Some((UserIdScan, store[0]))
      else
        match FirstOfUser(store, u)
        case Some(p) => Some((FullScan, p))
        case None => None
  }

  /** The `Limit: 1` scan misses a profile that is not the first item of the
      table: such a profile, known only by its `userId`, is found by the
      full scan instead. */
  lemma LimitedScanSeesFirstItemOnly(store: seq<Json>, u: string, i: nat)
    requires 0 < i < |store| && Field(store[i], "userId") == Some(JStr(u))
    requires forall j :: 0 <= j < i ==> !IsUser(store[j], u)
    requires forall p :: p in store ==> IdOf(p) != Some(JStr(u))
    ensures Lookup(store, u) == Some((FullScan, store[i]))
  {
    assert Table.Get(store, Some(JStr(u)), IdOf).None?;
    FirstAt(store, u, i);
  }

  /** `FirstOfUser` stops at the first item that belongs to the user. */
  lemma {:induction false} FirstAt(s: seq<Json>, u: string, i: nat)
    requires i < |s| && IsUser(s[i], u)
    requires forall j :: 0 <= j < i ==> !IsUser(s[j], u)
    ensures FirstOfUser(s, u) == Some(s[i])
  {
    if i > 0 {
      FirstAt(s[1..], u, i - 1);
    }
  }

  // ---------------------------------------------------------------- save

  function OwnField(ev: ProfileEvent, k: string): Option<Json> {
    if k in ev.own then Some(ev.own[k]) else None
  }

  /** The body as first read: a string body parsed (`parse` stands for
      `JSON.parse`, `None` for a syntax error, which leaves `{}`), an object
      or array body as it is, anything else `{}`. */
  function ReadBody(body: Option<Json>, parse: string -> Option<Json>): Json {
    if !TruthyOpt(body) then JObj(map[])
    else
      match body.value
      case JStr(s) => parse(s).GetOr(JObj(map[]))
      case JArr(_) => body.value
      case JObj(_) => body.value
      case _ => JObj(map[])
  }

  /** The body after the second attempt: an empty body is replaced by the
      event itself when the event has a truthy `userId`, `name` or `age`.
      `None` when `Object.keys` throws on a body that parsed to `null`. */
  function BodyOrEvent(ev: ProfileEvent, parse: string -> Option<Json>): (r: Option<Json>)
    ensures r.None? <==> ReadBody(ev.body, parse) == JNull
    ensures r.Some? ==> r.value != JNull
  {
    var rb := ReadBody(ev.body, parse);
    match KeyCount(rb)
    case None => None
    case Some(c) =>
      if c == 0 && (TruthyOpt(OwnField(ev, "userId")) || TruthyOpt(OwnField(ev, "name")) || TruthyOpt(OwnField(ev, "age")))
      then Some(JObj(ev.own))
      else Some(rb)
  }

  /** The three attempts in order; the third looks for a nested `body`
      property of an object body that still has no keys. */
  function RequestBody(ev: ProfileEvent, parse: string -> Option<Json>): (r: Option<Json>)
    ensures r.None? <==> ReadBody(ev.body, parse) == JNull
  {
    match BodyOrEvent(ev, parse)
    case None => None
    case Some(rb) =>
      if KeyCount(rb) == Some(0) && TruthyOpt(ev.body) && (ev.body.value.JObj? || ev.body.value.JArr?)
      then Or(Field(ev.body.value, "body"), ev.body)
      else Some(rb)
  }

  /** The third attempt never changes anything: a body object with no keys
      has no nested `body` either, and an event used as the body has keys. */
  lemma NestedBodyInert(ev: ProfileEvent, parse: string -> Option<Json>)
    ensures RequestBody(ev, parse) == BodyOrEvent(ev, parse)
  {
    var rb1 := ReadBody(ev.body, parse);
    match BodyOrEvent(ev, parse)
    case None =>
    case Some(rb) =>
      if KeyCount(rb) == Some(0) && TruthyOpt(ev.body) && (ev.body.value.JObj? || ev.body.value.JArr?) {
        assert rb1 == ev.body.value;
        assert Field(ev.body.value, "body").None? by {
          if ev.body.value.JObj? {
            assert |ev.body.value.fields| == 0;
            assert "body" !in ev.body.value.fields;
          }
        }
      }
  }

  /** `String(x || '')`. */
  function StrOr(o: Option<Json>): (r: string)
    ensures !TruthyOpt(o) ==> r == ""
    ensures o.Some? && o.value.JStr? ==> r == o.value.s
  {
    if TruthyOpt(o) then ToStr(o.value) else ""
  }

  /** `Number(x) || 0`: `NaN` and 0 are both 0. */
  function NumOr0(o: Option<Json>): (r: int)
    ensures ToNumber(o).None? ==> r == 0
    ensures o.Some? && o.value.JNum? ==> r == o.value.n
  {
    ToNumber(o).GetOr(0)
  }

  /** `Array.isArray(x) ? x : []`. */
  function ArrOr(o: Option<Json>): (r: seq<Json>)
    ensures o.None? ==> r == []
  {
    if o.Some? && o.value.JArr? then o.value.items else []
  }

  /** The `profileData` object before it is written, each attribute coerced
      to the type the app reads it as. `lastSeen` is always `null`. */
  datatype ProfileData = ProfileData(
    id: Json,
    userId: Json,
    name: string,
    age: int,
    location: string,
    profileImages: seq<Json>,
    bio: string,
    occupation: string,
    education: string,
    height: Option<int>,
    bodyType: string,
    smoking: string,
    drinking: string,
    religion: string,
    mbti: string,
    hobbies: seq<Json>,
    badges: seq<Json>,
    isVip: bool,
    isPremium: bool,
    isVerified: bool,
    isOnline: bool,
    likeCount: int,
    superChatCount: int,
    gender: string,
    meetingType: string,
    incomeCode: string,
    createdAt: string,
    updatedAt: string)

  /** The coercions of the POST branch, for a body whose `height` is falsy
      or readable as a number; `now` is the ISO time of the request. */
  function Coerce(rb: Json, profileId: Json, userId: Json, now: string): (d: ProfileData)
    requires TruthyOpt(Field(rb, "height")) ==> ToNumber(Field(rb, "height")).Some?
    ensures d.id == profileId && d.userId == userId
    ensures d.isOnline <==> Field(rb, "isOnline") != Some(JBool(false))
    ensures d.height.None? <==> !TruthyOpt(Field(rb, "height"))
    ensures d.isVip <==> TruthyOpt(Field(rb, "isVip"))
    ensures d.isPremium <==> TruthyOpt(Field(rb, "isPremium"))
    ensures d.isVerified <==> TruthyOpt(Field(rb, "isVerified"))
    ensures d.height.Some? ==> d.height == ToNumber(Field(rb, "height"))
    ensures d.age == NumOr0(Field(rb, "age"))
    ensures d.likeCount == NumOr0(Field(rb, "likeCount")) && d.superChatCount == NumOr0(Field(rb, "superChatCount"))
    ensures d.name == StrOr(Field(rb, "name")) && d.location == StrOr(Field(rb, "location"))
    ensures d.bio == StrOr(Field(rb, "bio")) && d.occupation == StrOr(Field(rb, "occupation"))
    ensures d.education == StrOr(Field(rb, "education")) && d.bodyType == StrOr(Field(rb, "bodyType"))
    ensures d.smoking == StrOr(Field(rb, "smoking")) && d.drinking == StrOr(Field(rb, "drinking"))
    ensures d.religion == StrOr(Field(rb, "religion")) && d.mbti == StrOr(Field(rb, "mbti"))
    ensures d.gender == StrOr(Field(rb, "gender")) && d.meetingType == StrOr(Field(rb, "meetingType"))
    ensures d.incomeCode == StrOr(Field(rb, "incomeCode"))
    ensures d.profileImages == ArrOr(Field(rb, "profileImages"))
    ensures d.hobbies == ArrOr(Field(rb, "hobbies")) && d.badges == ArrOr(Field(rb, "badges"))
    ensures d.createdAt == now && d.updatedAt == now
  {
    var h := Field(rb, "height");
    ProfileData(
      profileId, userId,
      StrOr(Field(rb, "name")), NumOr0(Field(rb, "age")), StrOr(Field(rb, "location")),
      ArrOr(Field(rb, "profileImages")),
      StrOr(Field(rb, "bio")), StrOr(Field(rb, "occupation")), StrOr(Field(rb, "education")),
      if TruthyOpt(h) then Some(ToNumber(h).value) else None,
      StrOr(Field(rb, "bodyType")), StrOr(Field(rb, "smoking")), StrOr(Field(rb, "drinking")),
      StrOr(Field(rb, "religion")), StrOr(Field(rb, "mbti")),
      ArrOr(Field(rb, "hobbies")), ArrOr(Field(rb, "badges")),
      TruthyOpt(Field(rb, "isVip")), TruthyOpt(Field(rb, "isPremium")), TruthyOpt(Field(rb, "isVerified")),
      Field(rb, "isOnline") != Some(JBool(false)),
      NumOr0(Field(rb, "likeCount")), NumOr0(Field(rb, "superChatCount")),
      StrOr(Field(rb, "gender")), StrOr(Field(rb, "meetingType")), StrOr(Field(rb, "incomeCode")),
      now, now)
  }

  /** The item as written: the key and the two attributes the GET branch
      filters on are read back unchanged. */
  function ToJson(d: ProfileData): (j: Json)
    ensures Field(j, "id") == Some(d.id)
    ensures Field(j, "userId") == Some(d.userId)
    ensures Field(j, "gender") == Some(JStr(d.gender))
  {
    JObj(map[
      "name" := JStr(d.name),
      "age" := JNum(d.age),
      "location" := JStr(d.location),
      "profileImages" := JArr(d.profileImages),
      "bio" := JStr(d.bio),
      "occupation" := JStr(d.occupation),
      "education" := JStr(d.education),
      "height" := (match d.height case Some(n) => JNum(n) case None => JNull),
      "bodyType" := JStr(d.bodyType),
      "smoking" := JStr(d.smoking),
      "drinking" := JStr(d.drinking),
      "religion" := JStr(d.religion),
      "mbti" := JStr(d.mbti),
      "hobbies" := JArr(d.hobbies),
      "badges" := JArr(d.badges),
      "isVip" := JBool(d.isVip),
      "isPremium" := JBool(d.isPremium),
      "isVerified" := JBool(d.isVerified),
      "isOnline" := JBool(d.isOnline),
      "likeCount" := JNum(d.likeCount),
      "superChatCount" := JNum(d.superChatCount),
      "meetingType" := JStr(d.meetingType),
      "incomeCode" := JStr(d.incomeCode),
      "createdAt" := JStr(d.createdAt),
      "updatedAt" := JStr(d.updatedAt),
      "lastSeen" := JNull,
      "gender" := JStr(d.gender),
      "userId" := d.userId,
      "id" := d.id])
  }

  datatype ProfileBody =
    | NoContent
    | Profiles(items: seq<Json>)
    | DiscoverFailed
    | UserIdRequired
    | Found(via: FoundBy, profile: Json)
    | NotFound
    | QueryFailed
    | NoRequestData
    | Saved(profile: Json)
    | Failure
    | NotAllowed(verb: Option<string>)

  datatype ProfileResponse = ProfileResponse(status: int, body: ProfileBody)

  /** The id a new profile gets when the body has none: the time in
      milliseconds, a dash, and random base-36 characters. */
  function GeneratedId(nowMs: nat, suffix: string): Json {
    JStr(IntToString(nowMs) + "-" + suffix)
  }

  /** What the POST branch needs of a recovered body before it writes: some
      data, a truthy `userId || id`, and a `height` that is falsy or
      readable as a number. */
  predicate Writable(rb: Json) {
    && KeyCount(rb) != Some(0)
    && TruthyOpt(Or(Field(rb, "userId"), Field(rb, "id")))
    && (TruthyOpt(Field(rb, "height")) ==> ToNumber(Field(rb, "height")).Some?)
  }

  /** `requestBody.id || <generated id>`. */
  function ProfileIdOf(rb: Json, nowMs: nat, suffix: string): Json {
    Or(Field(rb, "id"), Some(GeneratedId(nowMs, suffix))).value
  }

  /** The item the POST branch hands to `PutCommand`. */
  function Item(rb: Json, nowMs: nat, suffix: string, now: string): Json
    requires Writable(rb)
  {
    ToJson(Coerce(rb, ProfileIdOf(rb, nowMs, suffix), Or(Field(rb, "userId"), Field(rb, "id")).value, now))
  }

  /** The POST branch. `putFails` is a `PutCommand` that throws; a truthy
      `height` that `Number` cannot read is stored as `NaN`, and a number
      beyond `±Number.MAX_SAFE_INTEGER` anywhere in the item is refused
      too: the document client writes neither. All three end in the outer
      500. */
  function Save(ev: ProfileEvent, parse: string -> Option<Json>, store: seq<Json>, now: string,
                nowMs: nat, suffix: string, putFails: bool): (out: (ProfileResponse, seq<Json>))
    ensures out.0.status in {200, 400, 500}
    ensures out.0.status != 200 ==> out.1 == store
    ensures out.0.status == 200 ==>
      && RequestBody(ev, parse).Some?
      && var rb := RequestBody(ev, parse).value;
      && var userId := Or(Field(rb, "userId"), Field(rb, "id"));
      && TruthyOpt(userId)
      && out.0.body.Saved?
      && var saved := out.0.body.profile;
      && Field(saved, "userId") == userId
      && Field(saved, "id") == (if TruthyOpt(Field(rb, "id")) then Field(rb, "id") else Some(GeneratedId(nowMs, suffix)))
      && Table.Get(out.1, IdOf(saved), IdOf) == Some(saved)
      && (forall k :: k != IdOf(saved) ==> Table.Get(out.1, k, IdOf) == Table.Get(store, k, IdOf))
    ensures RequestBody(ev, parse).Some? && KeyCount(RequestBody(ev, parse).value) == Some(0) ==>
      out.0 == ProfileResponse(400, NoRequestData)
    ensures RequestBody(ev, parse).None? ==> out.0 == ProfileResponse(500, Failure)
    ensures RequestBody(ev, parse).Some? && KeyCount(RequestBody(ev, parse).value) != Some(0)
            && !TruthyOpt(Or(Field(RequestBody(ev, parse).value, "userId"), Field(RequestBody(ev, parse).value, "id"))) ==>
      out.0 == ProfileResponse(400, UserIdRequired)
    ensures out.0.status == 200 <==>
      && RequestBody(ev, parse).Some? && Writable(RequestBody(ev, parse).value)
      && NumbersSafe(Item(RequestBody(ev, parse).value, nowMs, suffix, now)) && !putFails
    ensures out.0.status == 200 ==> out.0.body == Saved(Item(RequestBody(ev, parse).value, nowMs, suffix, now))
    ensures RequestBody(ev, parse).Some? && Writable(RequestBody(ev, parse).value)
            && (!NumbersSafe(Item(RequestBody(ev, parse).value, nowMs, suffix, now)) || putFails) ==>
      out == (ProfileResponse(500, Failure), store)
  {
    match RequestBody(ev, parse)
    case None => (ProfileResponse(500, Failure), store)
    case Some(rb) =>
      if KeyCount(rb) == Some(0) then (ProfileResponse(400, NoRequestData), store)
      else
        var userId := Or(Field(rb, "userId"), Field(rb, "id"));
        if !TruthyOpt(userId) then (ProfileResponse(400, UserIdRequired), store)
        else
          var profileId := Or(Field(rb, "id"), Some(GeneratedId(nowMs, suffix))).value;
          var h := Field(rb, "height");
          if TruthyOpt(h) && ToNumber(h).None? then (ProfileResponse(500, Failure), store)
          else
            var data := ToJson(Coerce(rb, profileId, userId.value, now));
            if !NumbersSafe(data) || putFails then (ProfileResponse(500, Failure), store)
            else (ProfileResponse(200, Saved(data)), Table.Put(store, data, IdOf))
  }

  /** A body carrying nothing but a user id saves a profile with every
      default: a generated id, empty text, zero counts, no height, online. */
  lemma MinimalBodyDefaults(ev: ProfileEvent, parse: string -> Option<Json>, store: seq<Json>, now: string,
                            nowMs: nat, suffix: string, u: string)
    requires u != ""
    requires ev.body == Some(JObj(map["userId" := JStr(u)]))
    ensures var out := Save(ev, parse, store, now, nowMs, suffix, false);
      var d := Coerce(JObj(map["userId" := JStr(u)]), GeneratedId(nowMs, suffix), JStr(u), now);
      && out.0 == ProfileResponse(200, Saved(ToJson(d)))
      && d.id == GeneratedId(nowMs, suffix) && d.userId == JStr(u)
      && Defaults(d)
  {
    var rb := JObj(map["userId" := JStr(u)]);
    assert ReadBody(ev.body, parse) == rb;
    assert KeyCount(rb) == Some(1);
    NestedBodyInert(ev, parse);
    assert RequestBody(ev, parse) == Some(rb);
    assert Field(rb, "id") == None && Field(rb, "height") == None;
    assert Or(Field(rb, "userId"), Field(rb, "id")) == Some(JStr(u));
    assert Or(Field(rb, "id"), Some(GeneratedId(nowMs, suffix))).value == GeneratedId(nowMs, suffix);
    var d := Coerce(rb, GeneratedId(nowMs, suffix), JStr(u), now);
    MinimalCoerce(u, GeneratedId(nowMs, suffix), now);
    DataNumbersSafe(d);
  }

  /** Every text attribute empty, every count zero, no height, no list
      entries, online, and none of the three flags. */
  predicate Defaults(d: ProfileData) {
    TextDefaults(d) && OtherDefaults(d)
  }

  predicate TextDefaults(d: ProfileData) {
    && d.name == "" && d.location == "" && d.bio == "" && d.occupation == "" && d.education == ""
    && d.bodyType == "" && d.smoking == "" && d.drinking == "" && d.religion == "" && d.mbti == ""
    && d.gender == "" && d.meetingType == "" && d.incomeCode == ""
  }

  predicate OtherDefaults(d: ProfileData) {
    && d.age == 0 && d.likeCount == 0 && d.superChatCount == 0 && d.height.None?
    && d.profileImages == [] && d.hobbies == [] && d.badges == []
    && d.isOnline && !d.isVip && !d.isPremium && !d.isVerified
  }

  /** The coercions of a body holding only `userId` give every default. */
  lemma MinimalCoerce(u: string, id: Json, now: string)
    ensures Defaults(Coerce(JObj(map["userId" := JStr(u)]), id, JStr(u), now))
  {
    MinimalText(u, id, now);
    MinimalOther(u, id, now);
  }

  /** The counts, lists and flags half of `MinimalCoerce`. */
  lemma MinimalOther(u: string, id: Json, now: string)
    ensures OtherDefaults(Coerce(JObj(map["userId" := JStr(u)]), id, JStr(u), now))
  {
    var rb := JObj(map["userId" := JStr(u)]);
    assert Field(rb, "age") == None && Field(rb, "likeCount") == None && Field(rb, "superChatCount") == None;
    assert Field(rb, "height") == None && Field(rb, "profileImages") == None;
    assert Field(rb, "hobbies") == None && Field(rb, "badges") == None && Field(rb, "isOnline") == None;
    assert Field(rb, "isVip") == None && Field(rb, "isPremium") == None && Field(rb, "isVerified") == None;
  }

  /** The text half of `MinimalCoerce`. */
  lemma MinimalText(u: string, id: Json, now: string)
    ensures TextDefaults(Coerce(JObj(map["userId" := JStr(u)]), id, JStr(u), now))
  {
    var rb := JObj(map["userId" := JStr(u)]);
    assert forall k :: k != "userId" ==> Field(rb, k) == None;
  }

  /** An item whose counts, height, keys and lists hold only safe numbers
      is one the document client writes. */
  lemma DataNumbersSafe(d: ProfileData)
    requires NumbersSafe(JNum(d.age)) && NumbersSafe(JNum(d.likeCount)) && NumbersSafe(JNum(d.superChatCount))
    requires d.height.Some? ==> NumbersSafe(JNum(d.height.value))
    requires NumbersSafe(d.id) && NumbersSafe(d.userId)
    requires NumbersSafe(JArr(d.profileImages)) && NumbersSafe(JArr(d.hobbies)) && NumbersSafe(JArr(d.badges))
    ensures NumbersSafe(ToJson(d))
  {
    var m := ToJson(d).fields;
    forall k | k in m ensures NumbersSafe(m[k]) {}
  }

  /** A count beyond `Number.MAX_SAFE_INTEGER` is not written: the POST
      answers 500 and the table is unchanged. */
  lemma OversizedCountRefused(ev: ProfileEvent, parse: string -> Option<Json>, store: seq<Json>, now: string,
                              nowMs: nat, suffix: string, u: string, n: int)
    requires u != "" && n > MaxSafeInteger
    requires ev.body == Some(JObj(map["userId" := JStr(u), "likeCount" := JNum(n)]))
    ensures Save(ev, parse, store, now, nowMs, suffix, false) == (ProfileResponse(500, Failure), store)
  {
    var rb := JObj(map["userId" := JStr(u), "likeCount" := JNum(n)]);
    assert ReadBody(ev.body, parse) == rb;
    assert KeyCount(rb) == Some(2);
    NestedBodyInert(ev, parse);
    assert RequestBody(ev, parse) == Some(rb);
    assert Field(rb, "height") == None;
    assert Or(Field(rb, "userId"), Field(rb, "id")) == Some(JStr(u));
    assert Writable(rb);
    CountInItem(rb, nowMs, suffix, now);
  }

  /** The item carries the body's `likeCount` when it is a number. */
  lemma CountInItem(rb: Json, nowMs: nat, suffix: string, now: string)
    requires Writable(rb)
    requires Field(rb, "likeCount").Some? && Field(rb, "likeCount").value.JNum?
    ensures NumbersSafe(Item(rb, nowMs, suffix, now)) ==> NumbersSafe(Field(rb, "likeCount").value)
  {
    var item := Item(rb, nowMs, suffix, now);
    assert "likeCount" in item.fields;
    assert item.fields["likeCount"] == Field(rb, "likeCount").value;
  }

  // ---------------------------------------------------------------- handler

  /** `exports.handler`. `dbFails` is a DynamoDB call that throws. */
  function Handle(ev: ProfileEvent, store: seq<Json>, parse: string -> Option<Json>, now: string,
                  nowMs: nat, suffix: string, dbFails: bool): (out: (ProfileResponse, seq<Json>))
    ensures MethodOf(ev) == Some("OPTIONS") ==> out == (ProfileResponse(200, NoContent), store)
    ensures out.0.status == 405 <==> MethodOf(ev) !in {Some("OPTIONS"), Some("GET"), Some("POST")}
    ensures out.1 != store ==> MethodOf(ev) == Some("POST") && out.0.status == 200
    ensures MethodOf(ev) == Some("POST") ==> out == Save(ev, parse, store, now, nowMs, suffix, dbFails)
    ensures MethodOf(ev) == Some("GET") && IsDiscover(ev) && !dbFails ==>
      out.0 == ProfileResponse(200, Profiles(Discover(store, ev.currentUserId, ev.gender, DiscoverLimit(ev.limit))))
    ensures MethodOf(ev) == Some("GET") && !IsDiscover(ev) && !Present(OrStr(ev.pathUserId, ev.pathId)) ==>
      out == (ProfileResponse(400, UserIdRequired), store)
    ensures MethodOf(ev) == Some("GET") && !IsDiscover(ev) && !dbFails && Present(OrStr(ev.pathUserId, ev.pathId)) ==>
      var u := OrStr(ev.pathUserId, ev.pathId).value;
      && (out.0.status == 404 <==> forall p :: p in store ==> !IsUser(p, u))
      && (out.0.status == 200 ==> out.0.body.Found? && out.0.body.profile in store && IsUser(out.0.body.profile, u))
      && (Lookup(store, u).Some? ==>
            out == (ProfileResponse(200, Found(Lookup(store, u).value.0, Lookup(store, u).value.1)), store))
      && (Lookup(store, u).None? ==> out == (ProfileResponse(404, NotFound), store))
  {
    var verb := MethodOf(ev);
    if verb == Some("OPTIONS") then (ProfileResponse(200, NoContent), store)
    else if verb == Some("GET") then
      if IsDiscover(ev) then
        if dbFails then (ProfileResponse(500, DiscoverFailed), store)
        else (ProfileResponse(200, Profiles(Discover(store, ev.currentUserId, ev.gender, DiscoverLimit(ev.limit)))), store)
      else
        var u := OrStr(ev.pathUserId, ev.pathId);
        if !Present(u) then (ProfileResponse(400, UserIdRequired), store)
        else if dbFails then (ProfileResponse(500, QueryFailed), store)
        else
          match Lookup(store, u.value)
          case Some((via, p)) => (ProfileResponse(200, Found(via, p)), store)
          case None => (ProfileResponse(404, NotFound), store)
    else if verb == Some("POST") then Save(ev, parse, store, now, nowMs, suffix, dbFails)
    else (ProfileResponse(405, NotAllowed(verb)), store)
  }

  /** A profile saved with a text id is found again by a GET on that id,
      through the key lookup. */
  lemma SavedProfileIsFound(ev: ProfileEvent, parse: string -> Option<Json>, store: seq<Json>, now: string,
                            nowMs: nat, suffix: string, get: ProfileEvent, id: string)
    requires Save(ev, parse, store, now, nowMs, suffix, false).0.status == 200
    requires IdOf(Save(ev, parse, store, now, nowMs, suffix, false).0.body.profile) == Some(JStr(id))
    requires id != "" && MethodOf(get) == Some("GET") && !IsDiscover(get) && get.pathUserId == Some(id)
    ensures var out := Save(ev, parse, store, now, nowMs, suffix, false);
      Handle(get, out.1, parse, now, nowMs, suffix, false).0 == ProfileResponse(200, Found(IdLookup, out.0.body.profile))
  {
    var out := Save(ev, parse, store, now, nowMs, suffix, false);
    assert Table.Get(out.1, Some(JStr(id)), IdOf) == Some(out.0.body.profile);
  }
}

=== FILE: seqs.dfy ===
/** Sequence operations shared by the handlers: the filter a scan with a
    `FilterExpression` applies, `slice(0, n)`, and the newest-first sort
    that `Array.prototype.sort((a, b) => b.createdAt - a.createdAt)` performs
    (and that a `ScanIndexForward: false` index query returns). */
module Seqs {

  /** Keep the elements satisfying `p`, in their original order. */
  function Filter<T>(s: seq<T>, p: T -> bool): (r: seq<T>)
    ensures |r| <= |s|
    ensures forall i :: 0 <= i < |r| ==> p(r[i])
  {
    if |s| == 0 then []
    else if p(s[0]) then [s[0]] + Filter(s[1..], p)
    else Filter(s[1..], p)
  }

  /** `Filter` keeps exactly the satisfying elements, each as often as it occurs. */
  lemma {:induction false} FilterExact<T(!new)>(s: seq<T>, p: T -> bool)
    ensures forall x :: x in Filter(s, p) <==> x in s && p(x)
    ensures forall x :: multiset(Filter(s, p))[x] == if p(x) then multiset(s)[x] else 0
  {
    if |s| > 0 {
      FilterExact(s[1..], p);
      assert s == [s[0]] + s[1..];
    }
  }

  /** Filtering distributes over concatenation. */
  lemma {:induction false} FilterAppend<T>(a: seq<T>, b: seq<T>, p: T -> bool)
    ensures Filter(a + b, p) == Filter(a, p) + Filter(b, p)
  {
    if |a| == 0 {
      assert a + b == b;
    } else {
      assert (a + b)[1..] == a[1..] + b;
      FilterAppend(a[1..], b, p);
    }
  }

  /** `s.map(f)`. */
  function Map<A, B>(s: seq<A>, f: A -> B): (r: seq<B>)
    ensures |r| == |s|
    ensures forall i :: 0 <= i < |s| ==> r[i] == f(s[i])
  {
    seq(|s|, i requires 0 <= i < |s| => f(s[i]))
  }

  /** The elements of a mapped sequence are the images of the elements. */
  lemma MapMembers<A, B>(s: seq<A>, f: A -> B, x: B)
    ensures x in Map(s, f) <==> exists y :: y in s && x == f(y)
  {
    var r := Map(s, f);
    if x in r {
      var i :| 0 <= i < |r| && r[i] == x;
      assert s[i] in s;
    }
    if exists y :: y in s && x == f(y) {
      var y :| y in s && x == f(y);
      var i :| 0 <= i < |s| && s[i] == y;
      assert r[i] == x;
    }
  }

  /** `s.slice(0, n)` for `n >= 0`. */
  function Take<T>(s: seq<T>, n: nat): (r: seq<T>)
    ensures |r| <= n && |r| <= |s|
    ensures |s| <= n ==> r == s
    ensures n <= |s| ==> |r| == n
    ensures forall i :: 0 <= i < |r| ==> r[i] == s[i]
  {
    if n <= |s| then s[..n] else s
  }

  /** Newest first: keys never increase along the sequence. */
  predicate SortedDesc<T>(s: seq<T>, key: T -> int) {
    forall i, j :: 0 <= i < j < |s| ==> key(s[i]) >= key(s[j])
  }

  /** Place `x` in front of the first element whose key is not greater than
      its own, so that `x` precedes the elements it ties with. */
  function InsertDesc<T>(x: T, s: seq<T>, key: T -> int): (r: seq<T>)
    requires SortedDesc(s, key)
    ensures SortedDesc(r, key)
    ensures multiset(r) == multiset(s) + multiset{x}
    ensures |r| == |s| + 1
  {
    if |s| == 0 || key(s[0]) <= key(x) then [x] + s
    else
      SortedSplit(s, key);
      var rest := InsertDesc(x, s[1..], key);
      ConsSorted(s[0], rest, x, s[1..], key);
      assert s == [s[0]] + s[1..];
      [s[0]] + rest
  }

  /** The tail of a sorted sequence is sorted and no newer than its head. */
  lemma SortedSplit<T>(s: seq<T>, key: T -> int)
    requires SortedDesc(s, key) && |s| > 0
    ensures SortedDesc(s[1..], key)
    ensures forall i :: 0 <= i < |s[1..]| ==> key(s[0]) >= key(s[1..][i])
  {
    var t := s[1..];
    forall i | 0 <= i < |t| ensures key(s[0]) >= key(t[i]) {
      assert t[i] == s[i + 1];
    }
    forall i, j | 0 <= i < j < |t| ensures key(t[i]) >= key(t[j]) {
      assert t[i] == s[i + 1] && t[j] == s[j + 1];
    }
  }

  /** Putting `h` back in front of a sorted insertion into `t` stays sorted
      when `h` is not older than `x` nor than anything in `t`. */
  lemma ConsSorted<T>(h: T, rest: seq<T>, x: T, t: seq<T>, key: T -> int)
    requires SortedDesc(rest, key) && multiset(rest) == multiset(t) + multiset{x}
    requires key(h) > key(x)
    requires forall i :: 0 <= i < |t| ==> key(h) >= key(t[i])
    ensures SortedDesc([h] + rest, key)
  {
    forall j | 0 <= j < |rest| ensures key(h) >= key(rest[j]) {
      var y := rest[j];
      assert y in multiset(rest);
      if y != x {
        assert y in multiset(t);
        var i :| 0 <= i < |t| && t[i] == y;
      }
    }
  }

  /** Insertion sort, newest first. */
  function SortDesc<T>(s: seq<T>, key: T -> int): (r: seq<T>)
    ensures SortedDesc(r, key)
    ensures multiset(r) == multiset(s)
    ensures |r| == |s|
  {
    if |s| == 0 then []
    else
      assert s == [s[0]] + s[1..];
      InsertDesc(s[0], SortDesc(s[1..], key), key)
  }

  /** The head of a newest-first sequence is the newest element. */
  lemma HeadIsNewest<T>(s: seq<T>, key: T -> int)
    requires SortedDesc(s, key) && |s| > 0
    ensures forall x :: x in s ==> key(x) <= key(s[0])
  {
  }

  /** Sorting the kept elements keeps exactly them. */
  lemma SortFilterMembers<T(!new)>(s: seq<T>, p: T -> bool, key: T -> int)
    ensures forall x :: x in SortDesc(Filter(s, p), key) <==> x in s && p(x)
  {
    FilterExact(s, p);
    var q := SortDesc(Filter(s, p), key);
    assert forall x :: x in q <==> x in multiset(q);
    assert forall x :: x in Filter(s, p) <==> x in multiset(Filter(s, p));
  }

  /** A prefix of a sorted sequence is sorted. */
  lemma TakeSorted<T>(s: seq<T>, n: nat, key: T -> int)
    requires SortedDesc(s, key)
    ensures SortedDesc(Take(s, n), key)
  {
  }

  /** `p` holds of a prefix of `s` and of nothing after it. */
  predicate PrefixClosed<T>(s: seq<T>, p: T -> bool) {
    forall i, j :: 0 <= i < j < |s| && p(s[j]) ==> p(s[i])
  }

  /** When the elements satisfying `p` form a prefix, keeping those of the
      first `n` is the same as keeping the first `n` of those. */
  lemma {:induction false} FilterTakeCommute<T>(s: seq<T>, n: nat, p: T -> bool)
    requires PrefixClosed(s, p)
    ensures Filter(Take(s, n), p) == Take(Filter(s, p), n)
  {
    if |s| == 0 || n == 0 {
    } else if p(s[0]) {
      assert PrefixClosed(s[1..], p) by {
        forall i, j | 0 <= i < j < |s| - 1 && p(s[1..][j])
          ensures p(s[1..][i])
        {
          assert s[1..][j] == s[j + 1] && s[1..][i] == s[i + 1];
        }
      }
      FilterTakeCommute(s[1..], n - 1, p);
      assert Take(s, n) == [s[0]] + Take(s[1..], n - 1);
      assert Take(s, n)[1..] == Take(s[1..], n - 1);
    } else {
      assert forall i :: 0 <= i < |s| ==> !p(s[i]);
      AllOrNone(s, p);
      AllOrNone(Take(s, n), p);
    }
  }

  /** In a newest-first sequence the elements newer than `since` form a prefix. */
  lemma NewerIsPrefix<T>(s: seq<T>, key: T -> int, since: int)
    requires SortedDesc(s, key)
    ensures PrefixClosed(s, x => key(x) > since)
  {
  }

  /** A filter that accepts everything keeps the sequence; one that accepts
      nothing empties it. */
  lemma {:induction false} AllOrNone<T>(s: seq<T>, p: T -> bool)
    ensures (forall i :: 0 <= i < |s| ==> p(s[i])) ==> Filter(s, p) == s
    ensures (forall i :: 0 <= i < |s| ==> !p(s[i])) ==> Filter(s, p) == []
  {
    if |s| > 0 {
      AllOrNone(s[1..], p);
      assert forall i :: 1 <= i < |s| ==> s[1..][i - 1] == s[i];
    }
  }
}

=== FILE: service_worker.dfy ===
/** The service worker of the admin web build (admin/flutter_service_worker.js):
    the fetch handler that serves the build's files from a cache, the
    `install` and `activate` steps that fill that cache and keep only the
    files whose hash did not change, and the `downloadOffline` message that
    fetches every file not yet cached. The table of files and hashes
    (`RESOURCES`, generated by the build) is the parameter `resources`. */
module ServiceWorker {
  import opened Wrappers
  import opened Text

  const ManifestCache: string := "flutter-app-manifest"
  const TempCache: string := "flutter-temp-cache"
  const ContentCache: string := "flutter-app-cache"

  /** The application shell, fetched during `install`. */
  const Core: seq<string> := ["main.dart.js", "index.html", "flutter_bootstrap.js",
    "assets/AssetManifest.bin.json", "assets/FontManifest.json"]

  /** A stored or fetched response; only `ok` matters to the worker. */
  datatype Resp = Resp(ok: bool, body: string)

  /** The three caches; `None` is a deleted cache, which `caches.open`
      recreates empty. The manifest cache is modelled by the one entry it
      holds, the file table saved by the last activation. */
  datatype Caches = Caches(
    content: Option<map<string, Resp>>,
    temp: Option<map<string, Resp>>,
    manifest: Option<map<string, string>>)

  function Open(c: Option<map<string, Resp>>): map<string, Resp> {
    c.GetOr(map[])
  }

  /** `s.substring(n)`: empty when `n` is past the end. */
  function Drop(s: string, n: nat): (r: string)
    ensures |r| == if n <= |s| then |s| - n else 0
  {
    if n <= |s| then s[n..] else ""
  }

  // ---------------------------------------------------------------- fetch

  /** The cache key of a requested URL: the URL without the origin and its
      slash, cut at the first "?v="; the origin itself, a hash route and an
      empty rest all mean "/". */
  function KeyOf(url: string, origin: string): (r: string)
    ensures r != ""
  {
    var k0 := Drop(url, |origin| + 1);
    var k1 := if Contains(k0, "?v=") then BeforeFirst(k0, "?v=") else k0;
    if url == origin || StartsWith(url, origin + "/#") || k1 == "" then "/" else k1
  }

  /** The origin, the origin with a slash, and any hash route are all the
      key "/". */
  lemma RootKeys(origin: string, fragment: string)
    ensures KeyOf(origin, origin) == "/"
    ensures KeyOf(origin + "/", origin) == "/"
    ensures KeyOf(origin + "/#" + fragment, origin) == "/"
  {
    assert StartsWith(origin + "/#" + fragment, origin + "/#") by {
      assert (origin + "/#" + fragment)[..|origin + "/#"|] == origin + "/#";
    }
    assert Drop(origin + "/", |origin| + 1) == "";
    assert !Contains("", "?v=");
  }

  /** A file requested with a cache-busting version, `origin/path?v=...`,
      has the file's path as its key. */
  lemma VersionedKey(origin: string, path: string, version: string)
    requires path != "" && '?' !in path && path[0] != '#'
    ensures KeyOf(origin + "/" + path + "?v=" + version, origin) == path
  {
    var url := origin + "/" + path + "?v=" + version;
    var k0 := path + "?v=" + version;
    assert Drop(url, |origin| + 1) == k0 by {
      assert url[|origin| + 1..] == k0;
    }
    VersionCut(path, version);
    assert url != origin;
    assert url[|origin| + 1] == path[0];
  }

  /** The first "?v=" of `path + "?v=" + version` is the one after `path`
      when `path` has no `?`. */
  lemma VersionCut(path: string, version: string)
    requires '?' !in path
    ensures Contains(path + "?v=" + version, "?v=")
    ensures BeforeFirst(path + "?v=" + version, "?v=") == path
  {
    var k0 := path + "?v=" + version;
    assert OccursAt(k0, "?v=", |path|) by {
      assert k0[|path|..|path| + 3] == "?v=";
    }
    ContainsAt(k0, "?v=");
    forall j | 0 <= j < |path|
      ensures !OccursAt(k0, "?v=", j)
    {
      assert k0[j] == path[j];
    }
    assert IndexOf(k0, "?v=") == Some(|path|);
    assert k0[..|path|] == path;
  }

  /** A file requested without a version, `origin/path`, has the path as
      its key. */
  lemma PlainKey(origin: string, path: string)
    requires path != "" && '?' !in path && path[0] != '#'
    ensures KeyOf(origin + "/" + path, origin) == path
  {
    var url := origin + "/" + path;
    assert Drop(url, |origin| + 1) == path by {
      assert url[|origin| + 1..] == path;
    }
    forall j | 0 <= j <= |path|
      ensures !OccursAt(path, "?v=", j)
    {
      if j < |path| {
        assert path[j] != '?';
      }
    }
    ContainsAt(path, "?v=");
    assert url[|origin| + 1] == path[0];
  }

  /** A file the worker serves: listed with a (non-empty) hash. */
  predicate Managed(resources: map<string, string>, key: string) {
    key in resources && resources[key] != ""
  }

  datatype FetchAction =
    | Ignore       // not a GET: the handler returns without responding
    | Browser      // not a file of the build: the browser fetches it
    | OnlineFirst  // the index page
    | CacheFirst   // any other file of the build

  /** Which strategy a request gets. */
  function Dispatch(verb: string, url: string, origin: string, resources: map<string, string>): (a: FetchAction)
    ensures a == Ignore <==> verb != "GET"
    ensures a == Browser <==> verb == "GET" && !Managed(resources, KeyOf(url, origin))
    ensures a == OnlineFirst ==> KeyOf(url, origin) == "/"
    ensures a == CacheFirst ==> Managed(resources, KeyOf(url, origin)) && KeyOf(url, origin) != "/"
  {
    if verb != "GET" then Ignore
    else
      var key := KeyOf(url, origin);
      if !Managed(resources, key) then Browser
      else if key == "/" then OnlineFirst
      else CacheFirst
  }

  /** What the worker does with a request: leaves it alone, or responds
      with a response or with the network error (`None`). */
  datatype FetchOutcome = Unhandled | Responded(resp: Option<Resp>)

  /** The fetch handler. `network` is what `fetch` gives for the request,
      `None` when it rejects. The index page is fetched online first and
      cached whatever its status; other files come from the cache, or from
      the network and are cached only when the response is ok. */
  function Fetch(verb: string, url: string, origin: string, resources: map<string, string>,
                 content: Option<map<string, Resp>>, network: Option<Resp>): (out: (FetchOutcome, Option<map<string, Resp>>))
    ensures Dispatch(verb, url, origin, resources) in {Ignore, Browser} <==> out == (Unhandled, content)
    ensures out.1 != content ==> Dispatch(verb, url, origin, resources) in {OnlineFirst, CacheFirst}
    ensures out.1.Some? ==> forall u :: u in out.1.value && u != url ==> u in Open(content) && out.1.value[u] == Open(content)[u]
    ensures Dispatch(verb, url, origin, resources) == CacheFirst && url in Open(content) ==>
      out == (Responded(Some(Open(content)[url])), content)
    ensures Dispatch(verb, url, origin, resources) == CacheFirst && url !in Open(content) ==>
      out.0 == Responded(network)
      && (url in Open(out.1) <==> network.Some? && network.value.ok)
    ensures Dispatch(verb, url, origin, resources) == OnlineFirst && network.Some? ==>
      out.0 == Responded(network) && url in Open(out.1) && Open(out.1)[url] == network.value
  {
    match Dispatch(verb, url, origin, resources)
    case Ignore => (Unhandled, content)
    case Browser => (Unhandled, content)
    case OnlineFirst =>
      var cache := Open(content);
      (match network
       case Some(r) => (Responded(Some(r)), Some(cache[url := r]))
       case None => (Responded(if url in cache then Some(cache[url]) else None), Some(cache)))
    case CacheFirst =>
      var cache := Open(content);
      if url in cache then (Responded(Some(cache[url])), content)
      else
        (match network
         case Some(r) => (Responded(Some(r)), Some(if r.ok then cache[url := r] else cache))
         case None => (Responded(None), Some(cache)))
  }

  /** A file not yet cached and fetched with an ok response is served from
      the cache from then on, whatever the network does. */
  lemma CachedFileServedOffline(url: string, origin: string, resources: map<string, string>,
                                content: Option<map<string, Resp>>, first: Resp, later: Option<Resp>)
    requires Dispatch("GET", url, origin, resources) == CacheFirst && first.ok && url !in Open(content)
    ensures var after := Fetch("GET", url, origin, resources, content, Some(first)).1;
      Fetch("GET", url, origin, resources, after, later) == (Responded(Some(first)), after)
  {
  }

  /** The index page is served from the cache only when the network fails. */
  lemma IndexFallsBackToCache(url: string, origin: string, resources: map<string, string>,
                              content: Option<map<string, Resp>>, first: Resp)
    requires Dispatch("GET", url, origin, resources) == OnlineFirst
    ensures var after := Fetch("GET", url, origin, resources, content, Some(first)).1;
      Fetch("GET", url, origin, resources, after, None).0 == Responded(Some(first))
  {
  }

  // ---------------------------------------------------------------- install / activate

  /** The URL a relative request for `key` resolves to; "/" is the root. */
  function UrlOf(origin: string, key: string): string {
    if key == "/" then origin + "/" else origin + "/" + key
  }

  /** The key `activate` and `downloadOffline` give a cached URL: the URL
      without the origin and its slash, "/" when nothing is left. */
  function CachedKey(url: string, origin: string): (r: string)
    ensures r != ""
  {
    var k := Drop(url, |origin| + 1);
    if k == "" then "/" else k
  }

  /** A key that is "/" or a relative path resolves to a URL whose cached
      key is the key again. */
  lemma CachedKeyOfUrl(origin: string, key: string)
    requires key == "/" || (key != "" && key[0] != '/')
    ensures CachedKey(UrlOf(origin, key), origin) == key
  {
    if key == "/" {
      assert Drop(origin + "/", |origin| + 1) == "";
    } else {
      assert (origin + "/" + key)[|origin| + 1..] == key;
    }
  }

  /** The `install` step: the shell files are fetched into the temporary
      cache (`cache.addAll`, all or nothing); `None` when any fetch fails or
      is not ok, which fails the installation. */
  function Install(c: Caches, origin: string, network: string -> Option<Resp>): (r: Option<Caches>)
    ensures r.Some? <==> forall i :: 0 <= i < |Core| ==>
      network(UrlOf(origin, Core[i])).Some? && network(UrlOf(origin, Core[i])).value.ok
    ensures r.Some? ==> r.value.content == c.content && r.value.manifest == c.manifest
    ensures r.Some? ==> forall i :: 0 <= i < |Core| ==> UrlOf(origin, Core[i]) in Open(r.value.temp)
  {
    var urls := set i | 0 <= i < |Core| :: UrlOf(origin, Core[i]);
    if forall u :: u in urls ==> network(u).Some? && network(u).value.ok then
      var fetched := map u | u in urls :: network(u).value;
      Some(c.(temp := Some(Open(c.temp) + fetched)))
    else
      assert exists i :: 0 <= i < |Core| && !(network(UrlOf(origin, Core[i])).Some? && network(UrlOf(origin, Core[i])).value.ok);
      None
  }

  /** An entry of the content cache survives an upgrade when its file is
      still listed and its hash is the one the saved manifest recorded. */
  predicate Survives(resources: map<string, string>, saved: map<string, string>, key: string) {
    Managed(resources, key) && key in saved && resources[key] == saved[key]
  }

  /** The `activate` step. Without a saved manifest the content cache
      becomes a copy of the temporary cache; with one, the entries whose
      file is unchanged are kept and the temporary entries written over
      them. Either way the temporary cache is deleted and the new table is
      saved. `fails` is a cache operation that rejects, after which all
      three caches are deleted. */
  function Activate(c: Caches, resources: map<string, string>, origin: string, fails: bool): (r: Caches)
    ensures fails ==> r == Caches(None, None, None)
    ensures !fails ==> r.temp.None? && r.manifest == Some(resources) && r.content.Some?
    ensures !fails ==> forall u :: u in Open(c.temp) ==> u in r.content.value && r.content.value[u] == Open(c.temp)[u]
    ensures !fails && c.manifest.None? ==> r.content == Some(Open(c.temp))
    ensures !fails && c.manifest.Some? ==> forall u :: u !in Open(c.temp) ==>
      (u in r.content.value <==> u in Open(c.content) && Survives(resources, c.manifest.value, CachedKey(u, origin)))
    ensures !fails && c.manifest.Some? ==> forall u :: u in r.content.value && u !in Open(c.temp) ==>
      r.content.value[u] == Open(c.content)[u]
  {
    if fails then Caches(None, None, None)
    else
      var content := Open(c.content);
      var temp := Open(c.temp);
      match c.manifest
      case None => Caches(Some(temp), None, Some(resources))
      case Some(saved) =>
        var kept := map u | u in content && Survives(resources, saved, CachedKey(u, origin)) :: content[u];
        Caches(Some(kept + temp), None, Some(resources))
  }

  /** Activating again with the same build keeps every cached file of the
      build: the saved manifest then agrees with the table everywhere. */
  lemma ReactivationKeepsFiles(c: Caches, resources: map<string, string>, origin: string, u: string)
    requires c.manifest == Some(resources)
    requires u in Open(c.content) && Managed(resources, CachedKey(u, origin))
    ensures u in Activate(c, resources, origin, false).content.value
  {
  }

  /** Installing and then activating leaves every shell file in the content
      cache, whether or not an earlier version had saved a manifest. */
  lemma InstallThenActivate(c: Caches, origin: string, network: string -> Option<Resp>,
                            resources: map<string, string>, i: nat)
    requires Install(c, origin, network).Some? && i < |Core|
    ensures UrlOf(origin, Core[i]) in Activate(Install(c, origin, network).value, resources, origin, false).content.value
  {
  }

  // ---------------------------------------------------------------- messages

  /** The keys of the content cache, as `downloadOffline` records them. */
  function CachedKeys(content: map<string, Resp>, origin: string): set<string> {
    set u | u in content :: CachedKey(u, origin)
  }

  /** The files `downloadOffline` asks for: those listed in the table whose
      key no cached URL has. */
  function Missing(content: map<string, Resp>, origin: string, resources: map<string, string>): (r: set<string>)
    ensures forall k :: k in r <==> k in resources && forall u :: u in content ==> CachedKey(u, origin) != k
  {
    set k | k in resources && k !in CachedKeys(content, origin)
  }

  /** `downloadOffline`: the missing files are fetched and added, all or
      nothing. */
  function DownloadOffline(c: Caches, origin: string, resources: map<string, string>,
                           network: string -> Option<Resp>): (r: Caches)
    ensures r.temp == c.temp && r.manifest == c.manifest && r.content.Some?
    ensures forall u :: u in Open(c.content) ==> u in r.content.value
  {
    var content := Open(c.content);
    var missing := Missing(content, origin, resources);
    var urls := set k | k in missing :: UrlOf(origin, k);
    if forall u :: u in urls ==> network(u).Some? && network(u).value.ok then
      c.(content := Some(content + map u | u in urls :: network(u).value))
    else c.(content := Some(content))
  }

  /** After a download in which every fetch succeeded, nothing listed is
      missing any more, provided every listed key is "/" or a relative path. */
  lemma DownloadCompletes(c: Caches, origin: string, resources: map<string, string>, network: string -> Option<Resp>)
    requires forall k :: k in resources ==> k == "/" || (k != "" && k[0] != '/')
    requires forall k :: k in resources ==> network(UrlOf(origin, k)).Some? && network(UrlOf(origin, k)).value.ok
    ensures Missing(DownloadOffline(c, origin, resources, network).content.value, origin, resources) == {}
  {
    var after := DownloadOffline(c, origin, resources, network).content.value;
    var content := Open(c.content);
    forall k | k in resources
      ensures k in CachedKeys(after, origin)
    {
      CachedKeyOfUrl(origin, k);
      if k !in CachedKeys(content, origin) {
        assert UrlOf(origin, k) in after;
      } else {
        var u :| u in content && CachedKey(u, origin) == k;
        assert u in after;
      }
    }
  }

  datatype MessageEffect = SkipWaiting | Downloaded | NoEffect

  /** The message handler: the string "skipWaiting" activates the waiting
      worker, "downloadOffline" downloads the missing files, anything else
      (a non-string is `None`) is ignored. */
  function OnMessage(data: Option<string>, c: Caches, origin: string, resources: map<string, string>,
                     network: string -> Option<Resp>): (r: (MessageEffect, Caches))
    ensures r.1 != c ==> data == Some("downloadOffline")
    ensures data == Some("downloadOffline") ==> r.0 == Downloaded && r.1 == DownloadOffline(c, origin, resources, network)
    ensures r.0 == SkipWaiting <==> data == Some("skipWaiting")
  {
    if data == Some("skipWaiting") then (SkipWaiting, c)
    else if data == Some("downloadOffline") then (Downloaded, DownloadOffline(c, origin, resources, network))
    else (NoEffect, c)
  }

  // ---------------------------------------------------------------- inherited names

  /** The properties every plain JavaScript object inherits; each of them
      reads as a truthy value. */
  const InheritedNames: set<string> := {"constructor", "hasOwnProperty", "isPrototypeOf",
    "propertyIsEnumerable", "toLocaleString", "toString", "valueOf", "__proto__",
    "__defineGetter__", "__defineSetter__", "__lookupGetter__", "__lookupSetter__"}

  /** `RESOURCES[key]` as the fetch handler tests it: an own entry with a
      hash, or a name the table object inherits. */
  predicate ListedAsWritten(resources: map<string, string>, key: string) {
    Managed(resources, key) || (key !in resources && key in InheritedNames)
  }

  /** The dispatch of the fetch handler with the lookup as written. */
  function DispatchAsWritten(verb: string, url: string, origin: string, resources: map<string, string>): (a: FetchAction)
    ensures a == Browser <==> verb == "GET" && !ListedAsWritten(resources, KeyOf(url, origin))
  {
    if verb != "GET" then Ignore
    else
      var key := KeyOf(url, origin);
      if !ListedAsWritten(resources, key) then Browser
      else if key == "/" then OnlineFirst
      else CacheFirst
  }

  /** A request for `origin/constructor`, which no build lists, is taken
      over by the worker and cached as if it were a file of the build,
      while `Dispatch` leaves it to the browser. */
  lemma InheritedNameIsServed(origin: string, resources: map<string, string>)
    requires "constructor" !in resources
    ensures DispatchAsWritten("GET", origin + "/" + "constructor", origin, resources) == CacheFirst
    ensures Dispatch("GET", origin + "/" + "constructor", origin, resources) == Browser
  {
    ConstructorKey(origin);
    assert "constructor" in InheritedNames;
  }

  lemma ConstructorKey(origin: string)
    ensures KeyOf(origin + "/" + "constructor", origin) == "constructor"
  {
    var name := "constructor";
    assert '?' !in name && name[0] != '#';
    PlainKey(origin, name);
  }

  /** The two dispatches differ only on inherited names. */
  lemma DispatchesAgreeOnPaths(verb: string, url: string, origin: string, resources: map<string, string>)
    requires KeyOf(url, origin) !in InheritedNames
    ensures DispatchAsWritten(verb, url, origin, resources) == Dispatch(verb, url, origin, resources)
  {
  }
}

=== FILE: sms.dfy ===
/** The SMS-sending function (aws_lambda/send_sms_function.js): phone number
    normalisation to the Korean international format, request validation,
    provider dispatch, the status mapping, the best-effort delivery log and
    the random log id. The carriers themselves (SNS, Twilio, KT) are a
    `gateway` parameter: whatever they answer is taken as given. */
module Sms {
  import opened Wrappers
  import opened Text
  import Seqs

  // ---------------------------------------------------------------------
  // Phone numbers

  /** `phoneNumber.replace(/[^\d]/g, '')`: the digit characters, in order. */
  function Digits(s: string): (d: string)
    ensures AllDigits(d)
  {
    Seqs.Filter(s, IsDigit)
  }

  /** Korean mobile carrier prefixes written with the domestic trunk `0`. */
  predicate IsMobile(d: string) {
    StartsWith(d, "010") || StartsWith(d, "011") || StartsWith(d, "016") ||
    StartsWith(d, "017") || StartsWith(d, "018") || StartsWith(d, "019")
  }

  /** The number in international form: `+` and the country code 82, with
      the trunk `0` of a mobile number dropped. */
  function NormalizePhoneNumber(s: string): (r: string)
    ensures |r| >= 3 && r[0] == '+' && AllDigits(r[1..])
    ensures IsMobile(Digits(s)) ==> r[..3] == "+82" && "0" + r[3..] == Digits(s)
    ensures !IsMobile(Digits(s)) && StartsWith(Digits(s), "82") ==> r[1..] == Digits(s)
    ensures !IsMobile(Digits(s)) && !StartsWith(Digits(s), "82") ==> r[..3] == "+82" && r[3..] == Digits(s)
  {
    var d := Digits(s);
    if IsMobile(d) then "+82" + d[1..]
    else if StartsWith(d, "82") then "+" + d
    else "+82" + d
  }

  /** Only digits matter: inserting any other character anywhere leaves the
      normalised number unchanged. */
  lemma IgnoresNonDigits(a: string, c: char, b: string)
    requires !IsDigit(c)
    ensures NormalizePhoneNumber(a + [c] + b) == NormalizePhoneNumber(a + b)
  {
    assert a + [c] + b == (a + [c]) + b;
    Seqs.FilterAppend(a + [c], b, IsDigit);
    Seqs.FilterAppend(a, [c], IsDigit);
    assert Seqs.Filter([c], IsDigit) == [];
    Seqs.FilterAppend(a, b, IsDigit);
    assert Digits(a + [c] + b) == Digits(a + b);
  }

  /** A landline number such as `02...` keeps its leading `0`. */
  lemma LandlineKeepsZero(s: string)
    requires StartsWith(Digits(s), "02")
    ensures NormalizePhoneNumber(s) == "+82" + Digits(s)
  {
    var d := Digits(s);
    assert d[..2] == "02";
    assert d[0] == '0' && d[1] == '2';
  }

  /** Normalising an already normalised number changes nothing. */
  lemma NormalizeIdempotent(s: string)
    ensures NormalizePhoneNumber(NormalizePhoneNumber(s)) == NormalizePhoneNumber(s)
  {
    var r := NormalizePhoneNumber(s);
    assert r == "+" + r[1..];
    Seqs.FilterAppend("+", r[1..], IsDigit);
    Seqs.AllOrNone(r[1..], IsDigit);
    assert Digits(r) == r[1..];
    assert StartsWith(r[1..], "82");
    assert !IsMobile(r[1..]);
  }

  // ---------------------------------------------------------------------
  // Providers

  datatype Provider = Sns | Twilio | Kt | Skt | Lgu

  /** `switch (provider.toLowerCase())`: unknown names fall back to SNS. */
  function ProviderFor(name: string): (p: Provider)
    ensures p == Twilio <==> ToLower(name) == "twilio"
    ensures p == Kt <==> ToLower(name) == "kt"
    ensures p == Skt <==> ToLower(name) == "skt"
    ensures p == Lgu <==> ToLower(name) == "lgu"
  {
    match ToLower(name)
    case "sns" => Sns
    case "aws_sns" => Sns
    case "twilio" => Twilio
    case "kt" => Kt
    case "skt" => Skt
    case "lgu" => Lgu
    case _ => Sns
  }

  /** "sns", "aws_sns" and every unrecognised name, in any letter case, go to SNS. */
  lemma SnsIsDefault(name: string)
    requires ToLower(name) !in {"twilio", "kt", "skt", "lgu"}
    ensures ProviderFor(name) == Sns
  {
  }

  /** What a provider reports back (`result` in the handler). */
  datatype SendResult = SendResult(success: bool, messageId: Option<string>, error: Option<string>)

  /** One send. SKT and LG U+ are unimplemented stubs that always fail; the
      other carriers report whatever the `gateway` (the remote API) answers. */
  function Send(p: Provider, gateway: Provider -> SendResult): (r: SendResult)
    ensures p == Skt || p == Lgu ==> !r.success && r.error.Some?
    ensures p != Skt && p != Lgu ==> r == gateway(p)
  {
    match p
    case Skt => SendResult(false, None, Some("SKT SMS API is not implemented yet"))
    case Lgu => SendResult(false, None, Some("LG U+ SMS API is not implemented yet"))
    case _ => gateway(p)
  }

  // ---------------------------------------------------------------------
  // Log ids

  const UuidTemplate: string := "xxxxxxxx-xxxx-4xxx-yxxx-xxxxxxxxxxxx"

  function HexDigit(v: nat): (c: char)
    requires v < 16
  {
    "0123456789abcdef"[v]
  }

  /** Replace each `x` by the hex digit of the next random nibble and each `y`
      by `(r & 0x3 | 0x8)`; keep every other character. A nibble missing from
      `rand` reads as 0. */
  function FillTemplate(t: string, rand: seq<nat>): (u: string)
    requires forall i :: 0 <= i < |rand| ==> rand[i] < 16
    ensures |u| == |t|
    ensures forall i :: 0 <= i < |t| && t[i] != 'x' && t[i] != 'y' ==> u[i] == t[i]
    ensures forall i :: 0 <= i < |t| && t[i] == 'x' ==> u[i] in "0123456789abcdef"
    ensures forall i :: 0 <= i < |t| && t[i] == 'y' ==> u[i] in "89ab"
  {
    if |t| == 0 then ""
    else
      var r := if |rand| > 0 then rand[0] else 0;
      var rest := if |rand| > 0 then rand[1..] else [];
      if t[0] == 'x' then [HexDigit(r)] + FillTemplate(t[1..], rest)
      else if t[0] == 'y' then [HexDigit(r % 4 + 8)] + FillTemplate(t[1..], rest)
      else [t[0]] + FillTemplate(t[1..], rand)
  }

  /** `generateUUID()`, with `Math.random() * 16 | 0` replaced by 31 given
      nibbles, one per placeholder. */
  function GenerateUuid(rand: seq<nat>): string
    requires |rand| == 31
    requires forall i :: 0 <= i < |rand| ==> rand[i] < 16
  {
    FillTemplate(UuidTemplate, rand)
  }

  /** A generated id has the version-4 shape: 36 characters, dashes at 8, 13,
      18 and 23, `4` at index 14 and one of 8, 9, a, b at index 19. */
  lemma UuidShape(rand: seq<nat>)
    requires |rand| == 31
    requires forall i :: 0 <= i < |rand| ==> rand[i] < 16
    ensures var u := GenerateUuid(rand);
      && |u| == 36
      && u[8] == '-' && u[13] == '-' && u[18] == '-' && u[23] == '-'
      && u[14] == '4'
      && u[19] in "89ab"
  {
    assert UuidTemplate[19] == 'y' && UuidTemplate[14] == '4';
    assert UuidTemplate[8] == '-' && UuidTemplate[13] == '-' && UuidTemplate[18] == '-' && UuidTemplate[23] == '-';
  }

  // ---------------------------------------------------------------------
  // The handler

  /** The request fields after `JSON.parse(event.body)` (or the event itself
      when there is no body). */
  datatype SmsFields = SmsFields(phoneNumber: Option<string>, message: Option<string>, provider: Option<string>)

  /** `fields` is `None` when the body is not valid JSON. */
  datatype SmsEvent = SmsEvent(httpMethod: Option<string>, fields: Option<SmsFields>)

  /** One row of the delivery log table. */
  datatype SmsLog = SmsLog(id: string, phoneNumber: string, message: string, provider: string,
                           success: bool, messageId: Option<string>, error: Option<string>,
                           timestamp: int, createdAt: int)

  datatype SmsBody =
    | Preflight
    | Failed(reason: string)
    | Sent(success: bool, messageId: Option<string>, provider: string, error: Option<string>)

  datatype SmsResponse = SmsResponse(status: int, body: SmsBody)

  /** `saveSMSLog`: a write that fails is swallowed, leaving the log as it was. */
  function SaveLog(logs: seq<SmsLog>, entry: SmsLog, writeFails: bool): (r: seq<SmsLog>)
    ensures writeFails ==> r == logs
    ensures !writeFails ==> |r| == |logs| + 1 && r[..|logs|] == logs && r[|logs|] == entry
  {
    if writeFails then logs else logs + [entry]
  }

  /** `exports.handler`. `gateway` answers for the real carriers, `rand` and
      `now` stand for `Math.random()` and the clock, `logWriteFails` for a
      failing log write. Returns the response and the log table. */
  function Handle(ev: SmsEvent, gateway: Provider -> SendResult, logs: seq<SmsLog>,
                  rand: seq<nat>, now: int, logWriteFails: bool): (out: (SmsResponse, seq<SmsLog>))
    requires |rand| == 31
    requires forall i :: 0 <= i < |rand| ==> rand[i] < 16
    ensures ev.httpMethod == Some("OPTIONS") ==> out == (SmsResponse(200, Preflight), logs)
    ensures ev.httpMethod != Some("OPTIONS") && ev.fields.Some?
            && (!Present(ev.fields.value.phoneNumber) || !Present(ev.fields.value.message))
            ==> out.0.status == 400 && out.0.body.Failed? && out.1 == logs
    ensures out.0.body.Sent? ==> (out.0.status == 200 <==> out.0.body.success)
    ensures out.0.body.Sent? ==> out.0.status in {200, 500}
    ensures !out.0.body.Sent? ==> out.1 == logs
    ensures ev.httpMethod != Some("OPTIONS") && ev.fields.None? ==> out.0.status == 500 && out.1 == logs
    ensures ev.httpMethod != Some("OPTIONS") && ev.fields.Some?
            && Present(ev.fields.value.phoneNumber) && Present(ev.fields.value.message) ==>
      var provider := ev.fields.value.provider.GetOr("sns");
      var result := Send(ProviderFor(provider), gateway);
      out.0 == SmsResponse(if result.success then 200 else 500,
                           Sent(result.success, result.messageId, provider, result.error))
  {
    if ev.httpMethod == Some("OPTIONS") then (SmsResponse(200, Preflight), logs)
    else if ev.fields.None? then (SmsResponse(500, Failed("SMS send failed: malformed body")), logs)
    else
      var f := ev.fields.value;
      if !Present(f.phoneNumber) || !Present(f.message) then
        (SmsResponse(400, Failed("phone number and message are required")), logs)
      else
        var providerName := f.provider.GetOr("sns");
        var normalized := NormalizePhoneNumber(f.phoneNumber.value);
        var result := Send(ProviderFor(providerName), gateway);
        var entry := SmsLog(GenerateUuid(rand), normalized, f.message.value, providerName,
                            result.success, result.messageId, result.error, now, now);
        var body := Sent(result.success, result.messageId, providerName, result.error);
        (SmsResponse(if result.success then 200 else 500, body), SaveLog(logs, entry, logWriteFails))
  }

  /** A failing log write changes nothing about the response. */
  lemma LogFailureInvisible(ev: SmsEvent, gateway: Provider -> SendResult, logs: seq<SmsLog>,
                            rand: seq<nat>, now: int)
    requires |rand| == 31
    requires forall i :: 0 <= i < |rand| ==> rand[i] < 16
    ensures Handle(ev, gateway, logs, rand, now, true).0 == Handle(ev, gateway, logs, rand, now, false).0
    ensures Handle(ev, gateway, logs, rand, now, true).1 == logs
  {
  }

  /** A valid request is logged once, under the normalised number and the
      provider name exactly as the caller wrote it. */
  lemma ValidRequestIsLogged(ev: SmsEvent, gateway: Provider -> SendResult, logs: seq<SmsLog>,
                             rand: seq<nat>, now: int)
    requires |rand| == 31
    requires forall i :: 0 <= i < |rand| ==> rand[i] < 16
    requires ev.httpMethod != Some("OPTIONS") && ev.fields.Some?
    requires Present(ev.fields.value.phoneNumber) && Present(ev.fields.value.message)
    ensures var (resp, logs') := Handle(ev, gateway, logs, rand, now, false);
      && |logs'| == |logs| + 1 && logs'[..|logs|] == logs
      && logs'[|logs|].phoneNumber == NormalizePhoneNumber(ev.fields.value.phoneNumber.value)
      && logs'[|logs|].provider == ev.fields.value.provider.GetOr("sns")
      && logs'[|logs|].success == resp.body.success
  {
  }

  /** SKT and LG U+ requests always answer 500. */
  lemma StubCarriersFail(ev: SmsEvent, gateway: Provider -> SendResult, logs: seq<SmsLog>,
                         rand: seq<nat>, now: int, logWriteFails: bool)
    requires |rand| == 31
    requires forall i :: 0 <= i < |rand| ==> rand[i] < 16
    requires ev.httpMethod != Some("OPTIONS") && ev.fields.Some?
    requires Present(ev.fields.value.phoneNumber) && Present(ev.fields.value.message)
    requires ToLower(ev.fields.value.provider.GetOr("sns")) in {"skt", "lgu"}
    ensures Handle(ev, gateway, logs, rand, now, logWriteFails).0.status == 500
  {
  }
}

=== FILE: table.dfy ===
/** A key-value table as the handlers see it: items in scan order, a
    primary key per item, `GetCommand` as a lookup by key and `PutCommand`
    as an insert that replaces the item with the same key. */
module Table {
  import opened Wrappers

  /** No two items share a primary key. */
  predicate UniqueKeys<T, K(==)>(s: seq<T>, key: T -> K) {
    forall i, j :: 0 <= i < j < |s| ==> key(s[i]) != key(s[j])
  }

  /** `GetCommand`: the item whose key is `k`, if any. */
  function Get<T(==), K(==)>(s: seq<T>, k: K, key: T -> K): (r: Option<T>)
    ensures r.Some? ==> r.value in s && key(r.value) == k
    ensures r.None? <==> forall i :: 0 <= i < |s| ==> key(s[i]) != k
  {
    if |s| == 0 then None
    else if key(s[0]) == k then Some(s[0])
    else Get(s[1..], k, key)
  }

  /** `PutCommand`: `x` replaces the item with its key, or is appended. */
  function Put<T(==), K(==,!new)>(s: seq<T>, x: T, key: T -> K): (r: seq<T>)
    ensures Get(r, key(x), key) == Some(x)
    ensures forall k :: k != key(x) ==> Get(r, k, key) == Get(s, k, key)
    ensures Get(s, key(x), key).None? ==> r == s + [x]
    ensures Get(s, key(x), key).Some? ==> |r| == |s|
  {
    if |s| == 0 then [x]
    else if key(s[0]) == key(x) then [x] + s[1..]
    else [s[0]] + Put(s[1..], x, key)
  }

  /** A put keeps every other item, adds `x`, and nothing else. */
  lemma {:induction false} PutMembers<T(!new), K(!new)>(s: seq<T>, x: T, key: T -> K)
    ensures x in Put(s, x, key)
    ensures forall y :: y in Put(s, x, key) ==> y == x || y in s
    ensures forall y :: y in s && key(y) != key(x) ==> y in Put(s, x, key)
  {
    if |s| > 0 && key(s[0]) != key(x) {
      PutMembers(s[1..], x, key);
      assert forall y :: y in s <==> y == s[0] || y in s[1..];
    }
  }

  /** A put keeps the primary keys unique. */
  lemma {:induction false} PutUnique<T, K(!new)>(s: seq<T>, x: T, key: T -> K)
    requires UniqueKeys(s, key)
    ensures UniqueKeys(Put(s, x, key), key)
  {
    if |s| > 0 && key(s[0]) != key(x) {
      PutUnique(s[1..], x, key);
      var r := Put(s, x, key);
      forall j | 0 < j < |r|
        ensures key(r[0]) != key(r[j])
      {
        var k := key(r[j]);
        assert r[j] in Put(s[1..], x, key);
        PutKeys(s[1..], x, key, r[j]);
      }
    }
  }

  /** Every key in the result of a put is `x`'s key or a key already there. */
  lemma {:induction false} PutKeys<T, K(!new)>(s: seq<T>, x: T, key: T -> K, y: T)
    requires y in Put(s, x, key)
    ensures key(y) == key(x) || exists i :: 0 <= i < |s| && key(s[i]) == key(y)
  {
    if |s| > 0 && key(s[0]) != key(x) && y != s[0] {
      PutKeys(s[1..], x, key, y);
      var k := key(y);
      if k != key(x) {
        var i :| 0 <= i < |s| - 1 && key(s[1..][i]) == k;
        assert key(s[i + 1]) == k;
      }
    }
  }

  /** With unique keys, an item is the one its key finds. */
  lemma {:induction false} GetFindsUnique<T, K>(s: seq<T>, y: T, key: T -> K)
    requires UniqueKeys(s, key) && y in s
    ensures Get(s, key(y), key) == Some(y)
  {
    if s[0] != y {
      assert UniqueKeys(s[1..], key) by {
        forall i, j | 0 <= i < j < |s| - 1
          ensures key(s[1..][i]) != key(s[1..][j])
        {
          assert s[1..][i] == s[i + 1] && s[1..][j] == s[j + 1];
        }
      }
      var n :| 0 <= n < |s| && s[n] == y;
      assert key(s[0]) != key(s[n]);
      GetFindsUnique(s[1..], y, key);
    }
  }

  /** With unique keys, two items with the same key are the same item. */
  lemma SameKeySameItem<T, K>(s: seq<T>, x: T, y: T, key: T -> K)
    requires UniqueKeys(s, key) && x in s && y in s && key(x) == key(y)
    ensures x == y
  {
  }

  /** The last item of `s` with key `k`. */
  function LastWithKey<T, K(==)>(s: seq<T>, k: K, key: T -> K): (r: Option<T>)
    ensures r.Some? ==> r.value in s && key(r.value) == k
    ensures r.None? <==> forall i :: 0 <= i < |s| ==> key(s[i]) != k
  {
    if |s| == 0 then None
    else if key(s[|s| - 1]) == k then Some(s[|s| - 1])
    else LastWithKey(s[..|s| - 1], k, key)
  }

  /** Putting the items one after another, as `obj[item.id] = item` in a
      loop does: one item per key, each the last item given with that key. */
  function Collapse<T(==), K(==,!new)>(s: seq<T>, key: T -> K): (r: seq<T>)
    ensures UniqueKeys(r, key)
    ensures forall k :: Get(r, k, key) == LastWithKey(s, k, key)
  {
    if |s| == 0 then []
    else
      var prev := Collapse(s[..|s| - 1], key);
      PutUnique(prev, s[|s| - 1], key);
      Put(prev, s[|s| - 1], key)
  }

  /** An item survives the collapse exactly when it is the last with its key. */
  lemma CollapseMembers<T(!new), K(!new)>(s: seq<T>, key: T -> K, y: T)
    ensures y in Collapse(s, key) <==> LastWithKey(s, key(y), key) == Some(y)
  {
    var r := Collapse(s, key);
    if y in r {
      GetFindsUnique(r, y, key);
    }
  }

  /** Items drawn from a table with unique keys all survive the collapse,
      whatever repeats there are among them. */
  lemma CollapseFromUnique<T(!new), K(!new)>(s: seq<T>, t: seq<T>, key: T -> K, y: T)
    requires UniqueKeys(t, key)
    requires forall x :: x in s ==> x in t
    ensures y in Collapse(s, key) <==> y in s
  {
    CollapseMembers(s, key, y);
    if y in s {
      var last := LastWithKey(s, key(y), key);
      assert last.Some? by {
        var i :| 0 <= i < |s| && s[i] == y;
      }
      SameKeySameItem(t, last.value, y, key);
    }
  }

  /** An item occurring twice sits at two positions. */
  lemma {:induction false} TwiceAtTwoPositions<T>(s: seq<T>, x: T)
    requires multiset(s)[x] >= 2
    ensures exists i, j :: 0 <= i < j < |s| && s[i] == x && s[j] == x
  {
    assert s == [s[0]] + s[1..];
    if s[0] == x {
      assert x in multiset(s[1..]);
      var j :| 0 <= j < |s[1..]| && s[1..][j] == x;
      assert s[j + 1] == x;
    } else {
      TwiceAtTwoPositions(s[1..], x);
      var i, j :| 0 <= i < j < |s[1..]| && s[1..][i] == x && s[1..][j] == x;
      assert s[i + 1] == x && s[j + 1] == x;
    }
  }

  /** Reordering keeps the keys unique. */
  lemma PermutationKeepsUnique<T, K>(a: seq<T>, b: seq<T>, key: T -> K)
    requires UniqueKeys(a, key) && multiset(a) == multiset(b)
    ensures UniqueKeys(b, key)
  {
    forall i, j | 0 <= i < j < |b|
      ensures key(b[i]) != key(b[j])
    {
      assert b[i] in multiset(b) && b[j] in multiset(b);
      if b[i] == b[j] {
        assert multiset(b)[b[i]] >= 2 by {
          assert b == b[..i] + [b[i]] + b[i + 1..j] + [b[j]] + b[j + 1..];
        }
        TwiceAtTwoPositions(a, b[i]);
      } else {
        assert b[i] in a && b[j] in a;
      }
    }
  }

  /** Two puts of items with one key leave what the second alone leaves. */
  lemma {:induction false} PutPut<T, K(!new)>(s: seq<T>, x: T, y: T, key: T -> K)
    requires key(x) == key(y)
    ensures Put(Put(s, x, key), y, key) == Put(s, y, key)
  {
    if |s| > 0 && key(s[0]) != key(x) {
      PutPut(s[1..], x, y, key);
    }
  }
}

=== FILE: text.dfy ===
/** The JavaScript string operations the handlers rely on, over `seq<char>`:
    `startsWith`, `includes`, `indexOf`, `split` with a one-character
    separator, ASCII `toLowerCase` and the decimal rendering of a
    non-negative integer. */
module Text {
  import opened Wrappers

  predicate StartsWith(s: string, prefix: string) {
    |prefix| <= |s| && s[..|prefix|] == prefix
  }

  /** `s.includes(p)`: `p` occurs somewhere in `s`. */
  predicate Contains(s: string, p: string)
    decreases |s|
  {
    StartsWith(s, p) || (|s| > 0 && Contains(s[1..], p))
  }

  /** An occurrence of `p` at position `i` of `s`. */
  predicate OccursAt(s: string, p: string, i: nat) {
    i + |p| <= |s| && s[i..i + |p|] == p
  }

  /** `s.indexOf(p)`, with `None` for -1: the first position where `p` occurs. */
  function IndexOf(s: string, p: string): (r: Option<nat>)
    ensures r.Some? ==> OccursAt(s, p, r.value)
    ensures r.Some? ==> forall j :: 0 <= j < r.value ==> !OccursAt(s, p, j)
    ensures r.None? ==> forall j :: 0 <= j <= |s| ==> !OccursAt(s, p, j)
    ensures r.Some? <==> Contains(s, p)
    decreases |s|
  {
    if StartsWith(s, p) then Some(0)
    else if |s| == 0 then None
    else
      OccursShift(s, p);
      match IndexOf(s[1..], p)
      case None => None
      case Some(k) => Some(k + 1)
  }

  /** An occurrence past the first character is an occurrence in the tail. */
  lemma OccursShift(s: string, p: string)
    requires |s| > 0
    ensures forall j :: 1 <= j <= |s| ==> (OccursAt(s, p, j) <==> OccursAt(s[1..], p, j - 1))
  {
    forall j | 1 <= j <= |s|
      ensures OccursAt(s, p, j) <==> OccursAt(s[1..], p, j - 1)
    {
      var t := s[1..];
      if j + |p| <= |s| {
        var a, b := s[j..j + |p|], t[j - 1..j - 1 + |p|];
        forall k | 0 <= k < |p| ensures a[k] == b[k] {
          assert t[j - 1 + k] == s[j + k];
        }
        assert a == b;
      }
    }
  }

  /** `s.split(p)[0]`: the part of `s` before the first occurrence of `p`,
      or all of `s` when `p` does not occur. */
  function BeforeFirst(s: string, p: string): (r: string)
    ensures StartsWith(s, r)
    ensures !Contains(s, p) ==> r == s
    ensures Contains(s, p) ==> OccursAt(s, p, |r|)
  {
    match IndexOf(s, p)
    case None => s
    case Some(i) => s[..i]
  }

  /** `s.split(sep)` for a one-character separator: always at least one
      piece, empty pieces kept. */
  function Split(s: string, sep: char): (parts: seq<string>)
    ensures |parts| >= 1
    ensures forall k :: 0 <= k < |parts| ==> sep !in parts[k]
    decreases |s|
  {
    if |s| == 0 then [""]
    else if s[0] == sep then [""] + Split(s[1..], sep)
    else
      var rest := Split(s[1..], sep);
      [[s[0]] + rest[0]] + rest[1..]
  }

  /** `parts.join(sep)`: the inverse of `Split`. */
  function Join(parts: seq<string>, sep: char): string
    requires |parts| >= 1
  {
    if |parts| == 1 then parts[0] else parts[0] + [sep] + Join(parts[1..], sep)
  }

  /** Splitting loses nothing: joining the pieces back gives the string. */
  lemma {:induction false} JoinSplit(s: string, sep: char)
    ensures Join(Split(s, sep), sep) == s
    decreases |s|
  {
    if |s| == 0 {
    } else if s[0] == sep {
      JoinSplit(s[1..], sep);
      assert s == [sep] + s[1..];
    } else {
      var rest := Split(s[1..], sep);
      JoinSplit(s[1..], sep);
      assert s == [s[0]] + s[1..];
      if |rest| == 1 {
      } else {
        assert ([[s[0]] + rest[0]] + rest[1..])[1..] == rest[1..];
        assert Join(rest, sep) == rest[0] + [sep] + Join(rest[1..], sep);
      }
    }
  }

  /** `s.split(sep)[i]`, with `None` for `undefined` when there are not that many pieces. */
  function Segment(s: string, sep: char, i: nat): (r: Option<string>)
    ensures r.Some? <==> i < |Split(s, sep)|
    ensures r.Some? ==> sep !in r.value
  {
    var parts := Split(s, sep);
    if i < |parts| then Some(parts[i]) else None
  }

  /** `parts[parts.length - 1]` of `s.split(sep)`: what follows the last separator. */
  function LastSegment(s: string, sep: char): (r: string)
    ensures sep !in r
  {
    var parts := Split(s, sep);
    parts[|parts| - 1]
  }

  /** `toLowerCase`, on the ASCII letters. */
  function ToLower(s: string): (r: string)
    ensures |r| == |s|
    ensures forall i :: 0 <= i < |s| ==> r[i] == LowerChar(s[i])
  {
    seq(|s|, i requires 0 <= i < |s| => LowerChar(s[i]))
  }

  function LowerChar(c: char): char {
    if 'A' <= c <= 'Z' then (c as int - 'A' as int + 'a' as int) as char else c
  }

  predicate IsDigit(c: char) {
    '0' <= c <= '9'
  }

  predicate AllDigits(s: string) {
    forall i :: 0 <= i < |s| ==> IsDigit(s[i])
  }

  function DigitChar(d: nat): (c: char)
    requires d < 10
    ensures IsDigit(c)
  {
    ('0' as int + d) as char
  }

  /** Decimal rendering of a non-negative integer, as `String(n)` gives it. */
  function NatToString(n: nat): (r: string)
    ensures |r| >= 1
    ensures AllDigits(r)
  {
    if n < 10 then [DigitChar(n)] else NatToString(n / 10) + [DigitChar(n % 10)]
  }

  /** Value of a string of decimal digits. */
  function DigitsValue(s: string): nat
    requires AllDigits(s)
  {
    if |s| == 0 then 0 else 10 * DigitsValue(s[..|s| - 1]) + (s[|s| - 1] as int - '0' as int)
  }

  /** Reading the rendering back gives the number. */
  lemma {:induction false} NatToStringRoundTrip(n: nat)
    ensures DigitsValue(NatToString(n)) == n
  {
    if n >= 10 {
      var r := NatToString(n);
      NatToStringRoundTrip(n / 10);
      assert r[..|r| - 1] == NatToString(n / 10);
    }
  }

  /** JavaScript truthiness of an optional string: present and not empty. */
  predicate Present(s: Option<string>) {
    s.Some? && s.value != ""
  }

  /** `includes` means an occurrence at some position. */
  lemma ContainsAt(s: string, p: string)
    ensures Contains(s, p) <==> exists j :: 0 <= j <= |s| && OccursAt(s, p, j)
  {
    var r := IndexOf(s, p);
  }

  /** A string without the separator is a single piece. */
  lemma {:induction false} SplitNoSep(s: string, sep: char)
    requires sep !in s
    ensures Split(s, sep) == [s]
    decreases |s|
  {
    if |s| > 0 {
      SplitNoSep(s[1..], sep);
      assert [s[0]] + s[1..] == s;
    }
  }

  /** A path `/a` with no separator inside `a` splits into two pieces, the
      first empty. */
  lemma SplitTwo(a: string, sep: char)
    requires sep !in a
    ensures Split([sep] + a, sep) == ["", a]
  {
    assert [sep] + a == "" + [sep] + a;
    SplitAppend("", sep, a);
    SplitNoSep(a, sep);
  }

  /** A path `/a/b` has at least three pieces, whatever `b` holds. */
  lemma SplitAtLeastThree(a: string, b: string, sep: char)
    ensures |Split([sep] + a + [sep] + b, sep)| >= 3
  {
    assert [sep] + a + [sep] + b == "" + [sep] + (a + [sep] + b);
    SplitAppend("", sep, a + [sep] + b);
    SplitAppend(a, sep, b);
  }

  /** A path `/a/b` with no separator inside `a` or `b` splits into three
      pieces, the first empty. */
  lemma SplitThree(a: string, b: string, sep: char)
    requires sep !in a && sep !in b
    ensures Split([sep] + a + [sep] + b, sep) == ["", a, b]
  {
    assert [sep] + a + [sep] + b == "" + [sep] + (a + [sep] + b);
    SplitAppend("", sep, a + [sep] + b);
    SplitAppend(a, sep, b);
    SplitNoSep(a, sep);
    SplitNoSep(b, sep);
  }

  /** A path `/a/b/c` with no separator inside the pieces splits into four
      pieces, the first empty. */
  lemma SplitFour(a: string, b: string, c: string, sep: char)
    requires sep !in a && sep !in b && sep !in c
    ensures Split([sep] + a + [sep] + b + [sep] + c, sep) == ["", a, b, c]
  {
    assert [sep] + a + [sep] + b + [sep] + c == ([sep] + a + [sep] + b) + [sep] + c;
    SplitAppend([sep] + a + [sep] + b, sep, c);
    SplitThree(a, b, sep);
    SplitNoSep(c, sep);
  }

  /** Splitting at a separator splits the pieces apart. */
  lemma {:induction false} SplitAppend(a: string, sep: char, b: string)
    ensures Split(a + [sep] + b, sep) == Split(a, sep) + Split(b, sep)
    decreases |a|
  {
    if |a| == 0 {
      assert a + [sep] + b == [sep] + b;
      assert ([sep] + b)[1..] == b;
    } else {
      assert (a + [sep] + b)[1..] == a[1..] + [sep] + b;
      SplitAppend(a[1..], sep, b);
    }
  }
}

=== FILE: user_points.dfy ===
/** The point-balance initialiser (init_user_points.js): get-or-create of a
    user's record in the UserPoints table, and the script that gives the
    two test users their starting balances. */
module UserPoints {
  import opened Wrappers
  import Table

  /** An item of the UserPoints table, keyed by `userId`. */
  datatype PointsRecord = PointsRecord(userId: string, points: int, createdAt: string, updatedAt: string)

  function PointsKey(r: PointsRecord): string { r.userId }

  /** The balance a new user gets when the caller names none. */
  const DefaultPoints: int := 1000

  /** `initializeUserPoints(userId, initialPoints)`. An existing record is
      returned as it is; otherwise a new one is put and returned. `fails` is
      a DynamoDB call that throws: the error is rethrown (`None`) and nothing
      is written. `initialPoints` is `None` when the argument is omitted. */
  function InitializeUserPoints(table: seq<PointsRecord>, userId: string, initialPoints: Option<int>,
                                now: string, fails: bool): (out: (Option<PointsRecord>, seq<PointsRecord>))
    ensures fails ==> out == (None, table)
    ensures !fails && Table.Get(table, userId, PointsKey).Some? ==> out == (Table.Get(table, userId, PointsKey), table)
    ensures !fails && Table.Get(table, userId, PointsKey).None? ==>
      && out.0 == Some(PointsRecord(userId, initialPoints.GetOr(DefaultPoints), now, now))
      && Table.Get(out.1, userId, PointsKey) == out.0
    ensures forall k :: k != userId ==> Table.Get(out.1, k, PointsKey) == Table.Get(table, k, PointsKey)
  {
    if fails then (None, table)
    else
      match Table.Get(table, userId, PointsKey)
      case Some(existing) => (Some(existing), table)
      case None =>
        var record := PointsRecord(userId, initialPoints.GetOr(DefaultPoints), now, now);
        (Some(record), Table.Put(table, record, PointsKey))
  }

  /** Initialising twice is initialising once: the second call returns the
      first call's record and writes nothing, whatever balance it asks for. */
  lemma InitializeIdempotent(table: seq<PointsRecord>, userId: string, p1: Option<int>, p2: Option<int>,
                             now1: string, now2: string)
    requires InitializeUserPoints(table, userId, p1, now1, false).0.Some?
    ensures var first := InitializeUserPoints(table, userId, p1, now1, false);
      InitializeUserPoints(first.1, userId, p2, now2, false) == first
  {
  }

  /** A balance once recorded is never reset by the initialiser. */
  lemma ExistingBalanceKept(table: seq<PointsRecord>, userId: string, p: Option<int>, now: string, fails: bool)
    requires Table.Get(table, userId, PointsKey).Some?
    ensures var out := InitializeUserPoints(table, userId, p, now, fails);
      out.1 == table && (out.0.Some? ==> out.0.value.points == Table.Get(table, userId, PointsKey).value.points)
  {
  }

  datatype TestUser = TestUser(userId: string, points: int)

  /** The test users and their starting balances, in the order processed. */
  const TestUsers: seq<TestUser> := [
    TestUser("d4785d3c-6001-7085-26a1-d42dc0e8ed4e", 2000),
    TestUser("44c85ddc-30d1-70b6-c4d9-5bb9ec26ca20", 1500)]

  /** What a user's record is after initialisation: the one already there,
      or a new one with the user's own starting balance. */
  function Expected(table: seq<PointsRecord>, u: TestUser, now: string): Option<PointsRecord> {
    match Table.Get(table, u.userId, PointsKey)
    case Some(existing) => Some(existing)
    case None => Some(PointsRecord(u.userId, u.points, now, now))
  }

  predicate IsTestUser(k: string) {
    exists i :: 0 <= i < |TestUsers| && TestUsers[i].userId == k
  }

  predicate DistinctIds(users: seq<TestUser>) {
    forall i, j :: 0 <= i < j < |users| ==> users[i].userId != users[j].userId
  }

  /** None of the first `n` users has the id `k`. */
  predicate NotAmong(users: seq<TestUser>, n: int, k: string) {
    forall j :: 0 <= j < n && j < |users| ==> users[j].userId != k
  }

  /** The calls for the first `n` users all succeed. */
  predicate NoneFailing(users: seq<TestUser>, n: int, failing: set<string>) {
    forall j :: 0 <= j < n && j < |users| ==> users[j].userId !in failing
  }

  /** What holds after the first `i` users are initialised: none of their
      calls threw, each has its expected record, and every other key is as
      it was. */
  ghost predicate Initialised(table: seq<PointsRecord>, r: seq<PointsRecord>, users: seq<TestUser>, i: int,
                        now: string, failing: set<string>) {
    && 0 <= i <= |users|
    && NoneFailing(users, i, failing)
    && (forall j :: 0 <= j < i ==> Table.Get(r, users[j].userId, PointsKey) == Expected(table, users[j], now))
    && (forall k :: NotAmong(users, i, k) ==> Table.Get(r, k, PointsKey) == Table.Get(table, k, PointsKey))
  }

  /** The loop of `initializeTestUserPoints` over any list of users with
      distinct ids: each user in order; the first call that throws stops
      the loop (`ok` false), so exactly the users before it are
      initialised. `failing` names the users whose call throws. */
  method InitializeUsers(table: seq<PointsRecord>, users: seq<TestUser>, now: string, failing: set<string>)
    returns (r: seq<PointsRecord>, ok: bool)
    requires DistinctIds(users)
    ensures ok <==> NoneFailing(users, |users|, failing)
    ensures forall i :: 0 <= i < |users| && NoneFailing(users, i + 1, failing) ==>
      Table.Get(r, users[i].userId, PointsKey) == Expected(table, users[i], now)
    ensures forall k :: NotAmong(users, |users|, k) ==> Table.Get(r, k, PointsKey) == Table.Get(table, k, PointsKey)
    ensures |users| > 0 && users[0].userId in failing ==> r == table
  {
    r := table;
    var i := 0;
    while i < |users|
      invariant Initialised(table, r, users, i, now, failing)
      invariant i == 0 ==> r == table
    {
      var u := users[i];
      if u.userId in failing {
        EarlyStop(table, r, users, i, now, failing);
        return r, false;
      }
      var r' := InitializeOne(r, u, now);
      InitializeStep(table, r, r', users, i, now, failing);
      r := r';
      i := i + 1;
    }
    ok := true;
  }

  /** The loop stops at the first user whose call throws: the users
      before it are initialised, no longer prefix of the users succeeds,
      and every id outside the list is left alone. */
  lemma EarlyStop(table: seq<PointsRecord>, r: seq<PointsRecord>, users: seq<TestUser>, i: nat, now: string,
                  failing: set<string>)
    requires Initialised(table, r, users, i, now, failing)
    requires i < |users| && users[i].userId in failing
    ensures !NoneFailing(users, |users|, failing)
    ensures forall m :: 0 <= m < |users| && NoneFailing(users, m + 1, failing) ==>
      Table.Get(r, users[m].userId, PointsKey) == Expected(table, users[m], now)
    ensures forall k :: NotAmong(users, |users|, k) ==> Table.Get(r, k, PointsKey) == Table.Get(table, k, PointsKey)
  {
    forall n | i < n ensures !NoneFailing(users, n, failing) {
      assert users[i].userId in failing;
    }
    forall k | NotAmong(users, |users|, k) ensures NotAmong(users, i, k) { }
  }

  /** One call of the loop, for user `u`: the user ends up with its
      expected record and every other key is left alone. */
  method InitializeOne(r: seq<PointsRecord>, u: TestUser, now: string) returns (r': seq<PointsRecord>)
    ensures Table.Get(r', u.userId, PointsKey) == Expected(r, u, now)
    ensures forall k :: k != u.userId ==> Table.Get(r', k, PointsKey) == Table.Get(r, k, PointsKey)
  {
    r' := InitializeUserPoints(r, u.userId, Some(u.points), now, false).1;
  }

  /** One turn of the loop keeps its invariants: user `i` gets its expected
      record, and the records of the users before it and of everyone else
      are kept. */
  lemma InitializeStep(table: seq<PointsRecord>, r: seq<PointsRecord>, r': seq<PointsRecord>,
                       users: seq<TestUser>, i: nat, now: string, failing: set<string>)
    requires DistinctIds(users) && i < |users| && users[i].userId !in failing
    requires Initialised(table, r, users, i, now, failing)
    requires Table.Get(r', users[i].userId, PointsKey) == Expected(r, users[i], now)
    requires forall k :: k != users[i].userId ==> Table.Get(r', k, PointsKey) == Table.Get(r, k, PointsKey)
    ensures Initialised(table, r', users, i + 1, now, failing)
  {
    StepUsers(table, r, r', users, i, now, failing);
    StepOthers(table, r, r', users, i, now, failing);
    assert NoneFailing(users, i + 1, failing);
  }

  /** After the turn for user `i`, it and every user before it have their
      expected records. */
  lemma StepUsers(table: seq<PointsRecord>, r: seq<PointsRecord>, r': seq<PointsRecord>,
                  users: seq<TestUser>, i: nat, now: string, failing: set<string>)
    requires DistinctIds(users) && i < |users|
    requires Initialised(table, r, users, i, now, failing)
    requires Table.Get(r', users[i].userId, PointsKey) == Expected(r, users[i], now)
    requires forall k :: k != users[i].userId ==> Table.Get(r', k, PointsKey) == Table.Get(r, k, PointsKey)
    ensures forall j :: 0 <= j <= i ==> Table.Get(r', users[j].userId, PointsKey) == Expected(table, users[j], now)
  {
    var u := users[i];
    assert NotAmong(users, i, u.userId);
    assert Expected(r, u, now) == Expected(table, u, now);
    forall j | 0 <= j < i
      ensures Table.Get(r', users[j].userId, PointsKey) == Expected(table, users[j], now)
    {
      assert users[j].userId != u.userId;
    }
  }

  /** After the turn for user `i`, an id none of the first `i + 1` users
      has is still as it was. */
  lemma StepOthers(table: seq<PointsRecord>, r: seq<PointsRecord>, r': seq<PointsRecord>,
                   users: seq<TestUser>, i: nat, now: string, failing: set<string>)
    requires i < |users|
    requires Initialised(table, r, users, i, now, failing)
    requires forall k :: k != users[i].userId ==> Table.Get(r', k, PointsKey) == Table.Get(r, k, PointsKey)
    ensures forall k :: NotAmong(users, i + 1, k) ==> Table.Get(r', k, PointsKey) == Table.Get(table, k, PointsKey)
  {
    forall k | NotAmong(users, i + 1, k)
      ensures Table.Get(r', k, PointsKey) == Table.Get(table, k, PointsKey)
    {
      assert users[i].userId != k;
      assert NotAmong(users, i, k);
    }
  }

  /** `initializeTestUserPoints`: the loop over the two test users. */
  method InitializeTestUserPoints(table: seq<PointsRecord>, now: string, failing: set<string>)
    returns (r: seq<PointsRecord>, ok: bool)
    ensures ok <==> NoneFailing(TestUsers, |TestUsers|, failing)
    ensures forall i :: 0 <= i < |TestUsers| && NoneFailing(TestUsers, i + 1, failing) ==>
      Table.Get(r, TestUsers[i].userId, PointsKey) == Expected(table, TestUsers[i], now)
    ensures forall k :: !IsTestUser(k) ==> Table.Get(r, k, PointsKey) == Table.Get(table, k, PointsKey)
    ensures TestUsers[0].userId in failing ==> r == table
  {
    TestUsersDistinct();
    r, ok := InitializeUsers(table, TestUsers, now, failing);
    forall k | !IsTestUser(k) ensures NotAmong(TestUsers, |TestUsers|, k) { }
  }

  /** The two test users have different ids. */
  lemma TestUsersDistinct()
    ensures DistinctIds(TestUsers)
  {
    assert TestUsers[0].userId[0] != TestUsers[1].userId[0];
  }
}

=== FILE: wrappers.dfy ===
/** Optional values: `None` stands for JavaScript's `undefined`/`null`
    wherever the handlers read a field that may be absent. */
module Wrappers {

  datatype Option<+T> = None | Some(value: T) {

    /** The wrapped value, or `default` when there is none. */
    function GetOr(default: T): T {
      match this
      case Some(v) => v
      case None => default
    }
  }
}
